=== FILE: README.md ===
# PYSON expressions (sao) in Dafny

This project models PYSON, the expression language the Tryton web client
`sao` uses to ship conditions (domains, states, field attributes) between
server and browser. The module is `sao/src/pyson.js`. Its parts are:

- a closed set of expression nodes: Eval, Not, Bool, And, Or, Equal,
  Greater, Less, If, Get, In, Date, DateTime, TimeDelta and Len;
- for each node, a constructor that checks its operands' type tags and
  throws fixed error strings;
- for each node, a `pyson()` record keyed by `__class__`;
- for each node, a `types()` tag list and a static `eval_`;
- for each node, `init_from_object`, which rebuilds the node from its record;
- `Sao.PYSON.toString`;
- the Encoder, which copies a value graph and turns nodes, moments and
  decimals into plain JSON trees;
- the Decoder, which revives a parsed JSON tree bottom-up. It evaluates
  each tagged record against a context, or in "noeval" mode rebuilds
  the node.

## Module layout

| file | module | contents |
|---|---|---|
| `wrappers.dfy` | `Wrappers` | `Option` and `Result` |
| `calendar.dfy` | `Calendar` | moment fields, the `MomentCell` class (a mutable moment), unit arithmetic, the `Clock` that supplies today, now and the time of day |
| `values.dfy` | `Values` | the JavaScript values PYSON handles (`Value`), the node datatype (`Pyson`), `typeof`, truthiness, property keys, `jQuery.extend` copies, ToPrimitive, loose and strict equality |
| `types.dfy` | `TypeTags` | `types()` of every node, including the imperative merge in `If.types` |
| `nodes.dfy` | `Nodes` | every constructor as a function returning `Result`, the wire projection `pyson()`, `init_from_object` and `Eval.basename` |
| `evaluate.dfy` | `Evaluate` | every `eval_` except Date and DateTime. The And/Or folds and `Greater._convert` are also written as methods. |
| `dates.dfy` | `Dates` | Date and DateTime evaluation as a plan of set/add steps, and the in-place evaluation over a `MomentCell` |
| `encoder.dfy` | `Encoding` | `Encoder.prepare` (pure, plus copying methods over arrays) and `encode` into a JSON tree |
| `decoder.dfy` | `Decoding` | the reviver and the post-order decoder, with round-trip theorems |
| `render.dfy` | `Rendering` | `Sao.PYSON.toString`, JSON string quoting and its inverse |
| `examples.dfy` | `Scenarios` | the expected results of the module's QUnit cases, proved as lemmas |

### Modelling choices

- **Values.** A JavaScript value is a `Value`:
  - `undefined`, `null`, a boolean, an integer or a string;
  - an array;
  - a plain object, as an insertion-ordered list of key/value pairs;
  - a moment (a kind flag — date, datetime or time — plus seven raw fields);
  - a duration, in milliseconds;
  - a Decimal;
  - a live PYSON node (`Expr`).
- **Calendar arithmetic.** `Calendar.MomentCell` has fields that `Set` and `Add` update in place, as moment.js setters and `add` do.
  - A setter overwrites one field.
  - `add` adds to one field and moves the instant by a fixed unit length. There is no calendar normalisation.
- **External sources.** Today, now and the current time of day come from a `Clock` parameter.
- **JSON.** JSON text is a `Json` tree. The Decoder is the post-order walk `JSON.parse` makes with the reviver: a member whose revived value is `undefined` is dropped from its object.
- **toString.** `Sao.PYSON.toString` is modelled as text, including `JSON.stringify`'s string quoting, which is proved invertible. The text of a host object that is not a plain value is a parameter (`host`).
- **init_from_object.** It is modelled as the source writes it, one reader per node class (`Nodes.FromObjectEval` … `Nodes.FromObjectLen`). For every class, a node as its constructor built it is rebuilt from its own record (`Nodes.EvalRebuilds` … `Nodes.LenRebuilds`, `Decoding.DateRebuilds`, `Decoding.DateTimeRebuilds`, `Decoding.TimeDeltaRebuilds`), except where the source loses data:
  - `DateTime.init_from_object` passes no `start`, so a DateTime comes back with `start` null (`Decoding.DateTimeRebuilds` covers a null start, `Decoding.DateTimeLosesStart` any start);
  - `TimeDelta.init_from_object` reads `microseconds` where the record stores `m`, so microseconds come back as 0 (`Decoding.TimeDeltaRebuilds`, `Decoding.TimeDeltaLosesMicroseconds`).

  A node counts as a wire value (`Decoding.Wire`) when its fields are wire values and it is rebuilt this way. So the noeval round trip `Decoding.RoundTrip` covers every node a constructor builds from wire values, apart from the two losses above.

## Model

| member | source | states |
|---|---|---|
| Calendar.SetField | sao/src/pyson.js:769-771 | a moment setter overwrites exactly the named field and leaves the other six unchanged |
| Calendar.AddUnitMovesInstant | sao/src/pyson.js:772-774 | adding n units of a kind moves the moment's instant by n times that unit's length |
| Calendar.Midnight | sao/src/pyson.js:763-765 | coercing a datetime start to a date keeps year, month and day and zeroes the clock fields |
| Calendar.TwelveMonthsIsAYear | sao/src/pyson.js:772-773 | adding 12n months reaches the same instant as adding n years |
| Calendar.MomentCell.constructor | sao/src/pyson.js:762-768 | a new moment holds exactly the given kind and fields |
| Calendar.MomentCell.Set | sao/src/pyson.js:769-771 | the in-place setter changes the fields as `SetField` does and keeps the kind |
| Calendar.MomentCell.Add | sao/src/pyson.js:772-774 | in-place `add` changes the fields as `AddUnit` does, keeps the kind and moves the instant by n unit lengths |
| Values.TagIsNodeTag | sao/src/pyson.js:149-155 | every node's `__class__` tag is one the decoder's class lookup knows |
| Values.TypeOf | sao/src/pyson.js:156-162 | `typeof` yields one of five names, and "object" exactly for null, arrays, objects, nodes and host objects |
| Values.Default | sao/src/pyson.js:144-148 | an omitted (undefined) argument takes the declared default, and any other value is kept |
| Values.IntToStringRoundTrip | sao/src/pyson.js:11-24 | the decimal text of an integer parses back to the same integer |
| Values.NatToStringDigits | sao/src/pyson.js:11-24 | the decimal text of a natural number is all digits, reads back as that number and has no leading zero |
| Values.IndexKeyRoundTrip | sao/src/pyson.js:635-641 | an array index's property key parses back to the index, so `k in v` on arrays finds index keys |
| Values.Lookup | sao/src/pyson.js:179-192 | `obj[key]` is undefined when no member has that key, and a defined result is the value of a member with that key |
| Values.Keys | sao/src/pyson.js:947-953 | `Object.keys` is exactly the set of member keys |
| Values.LooseEqualsSymmetric | sao/src/pyson.js:393 | JavaScript's loose `==` on PYSON values is symmetric |
| Values.ToPrimitive | sao/src/pyson.js:393 | `==` and `Number()` reduce an object to a string or a number, and keep a primitive as it is |
| Values.Utf16Length | sao/src/pyson.js:951 | a string's `length` lies between its character count and twice that, and equals the character count exactly when no character is above U+FFFF |
| Values.ExtendArray | sao/src/pyson.js:65 | `jQuery.extend([], a)` gives the prefix of `a` that ends at its last defined item; every item it drops is undefined |
| Values.ExtendObject | sao/src/pyson.js:89 | `jQuery.extend({}, o)` keeps exactly the members that are not undefined, in order, and keeps all of them when none is undefined |
| Values.ExtendObjectAppend | sao/src/pyson.js:89 | copying two runs of members one after the other is copying each run |
| Values.CopyArray | sao/src/pyson.js:65 | the copy loop fills a fresh array with `ExtendArray` of its input |
| Values.CopyMembers | sao/src/pyson.js:89 | the copy loop fills a fresh array with `ExtendObject` of its input |
| TypeTags.MergeTypesProperties | sao/src/pyson.js:547-567 | If's merged tags start with the then-branch's tags, hold exactly the union of both branches and stay duplicate-free |
| TypeTags.IfTypes | sao/src/pyson.js:547-567 | the push loop of `If.types` returns the merge: then's tags first, followed by else's tags not already present |
| TypeTags.Types | sao/src/pyson.js:156-162 | every node reports a non-empty list of known type tags |
| TypeTags.TypesOf | sao/src/pyson.js:156-162 | every value, literal or node, reports a non-empty list of known type tags |
| TypeTags.IfTypesUnion | sao/src/pyson.js:547-567 | an If node's tags are exactly the union of its branches' tags |
| Nodes.CoerceBool | sao/src/pyson.js:283-291 | And/Or/If keep a statement exactly when it is a boolean or a node typed exactly {boolean}, and wrap anything else in Bool |
| Nodes.NotOperand | sao/src/pyson.js:201-212 | Not keeps its operand exactly when it is a boolean or a node whose tags contain boolean and lie within {boolean, object}, and wraps anything else in Bool |
| Nodes.CoerceBoolIdempotent | sao/src/pyson.js:201-212 | coercing an already coerced statement changes nothing, for And/If and for Not |
| Nodes.NotLooserThanAnd | sao/src/pyson.js:204-205 | whatever And keeps unwrapped, Not keeps too |
| Nodes.AndStricterThanNot | sao/src/pyson.js:204-205 | there is a node (an If typed {boolean, object}) that Not keeps and And wraps |
| Nodes.CoerceAll | sao/src/pyson.js:283-291 | statement coercion is pointwise and keeps the count |
| Nodes.CoerceStatements | sao/src/pyson.js:283-291 | the in-place loop over the statements array leaves exactly the pointwise coercion |
| Nodes.MakeEval | sao/src/pyson.js:144-148 | Eval keeps the path, and an omitted default becomes the empty string |
| Nodes.MakeNot | sao/src/pyson.js:201-212 | a Not node's operand is a node typed within {boolean, object} including boolean: the argument or Bool of it |
| Nodes.MakeBool | sao/src/pyson.js:238-241 | Bool keeps its operand and is typed {boolean} |
| Nodes.MakeAnd | sao/src/pyson.js:279-297 | And succeeds exactly when some argument after the first is defined, since `jQuery.extend([], arguments)` keeps the arguments only up to the last defined one and at least two must remain. The node holds that copy, coerced statement by statement. Otherwise it fails with "must have at least 2 statements". |
| Nodes.MakeOr | sao/src/pyson.js:279-297 | Or has And's constructor: the same copy, the same check, the same coercion and the same error |
| Nodes.NewAnd | sao/src/pyson.js:279-297 | the constructor's copy of the arguments and its coercion loop give the same node or error as `MakeAnd` |
| Nodes.AtLeastTwoCopied | sao/src/pyson.js:280-294 | the copied statements number at least two exactly when some argument after the first is defined |
| Nodes.MakeEqual | sao/src/pyson.js:350-369 | Equal succeeds exactly when both operands' tag sets hold the same elements. Otherwise it fails with "statements must have the same type". |
| Nodes.MakeGreater | sao/src/pyson.js:404-434 | Greater succeeds exactly when both operands are comparable, with the flag coerced and defaulting to false. Otherwise it fails with the comparability error. |
| Nodes.MakeLess | sao/src/pyson.js:404-434 | Less has Greater's constructor: the same check and the same error |
| Nodes.GreaterRejectsLen | sao/src/pyson.js:412 | a Len node (typed integer, not number) is refused by Greater and Less |
| Nodes.MakeIf | sao/src/pyson.js:514-538 | If coerces the condition to a {boolean} node, keeps then, and turns an omitted else into null |
| Nodes.MakeGet | sao/src/pyson.js:589-614 | Get succeeds exactly when obj is an object (or a node typed exactly {object}) and key is a string (or a node typed exactly {string}). A refused obj gives "obj must be a dict", which is checked first; an accepted obj with a refused key gives "key must be a string". |
| Nodes.MakeIn | sao/src/pyson.js:650-673 | In succeeds exactly when key is a string or number (or a node typed within them) and obj is an object or list. A refused key gives "key must be a string or a number", which is checked first; an accepted key with a refused obj gives "obj must be a dict or a list". |
| Nodes.FirstBadField | sao/src/pyson.js:743-754 | `_test` finds the first field, in checking order, that is neither an integer nor null, and finds none exactly when all pass |
| Nodes.FieldError | sao/src/pyson.js:743-754 | there is an error message exactly when some field fails `_test` |
| Nodes.MakeDate | sao/src/pyson.js:709-727 | a successful Date constructor yields a Date node |
| Nodes.MakeDateTime | sao/src/pyson.js:790-815 | a successful DateTime constructor yields a DateTime node |
| Nodes.MakeDateErrors | sao/src/pyson.js:709-727 | Date fails exactly when some field is neither an integer nor null, and its message names the first such field in checking order |
| Nodes.DateChecksDaysBeforeMonths | sao/src/pyson.js:716-718 | with both delta_days and delta_months bad, Date blames delta_days, because it is checked first |
| Nodes.MakeTimeDelta | sao/src/pyson.js:874-892 | a successful TimeDelta constructor yields a TimeDelta node |
| Nodes.TimeDeltaAcceptsOnlyNumbers | sao/src/pyson.js:876-887 | TimeDelta accepts exactly plain numbers and omitted arguments. Every node is refused, TimeDelta nodes included. |
| Nodes.MakeLen | sao/src/pyson.js:919-932 | Len succeeds exactly for a node typed exactly {object, string}, or a literal object, null or string. Otherwise it fails with "value must be an object or a string". |
| Nodes.LenRefusesObjectOnlyNode | sao/src/pyson.js:922-923 | a node typed only {object} is refused by Len |
| Nodes.Projection | sao/src/pyson.js:149-155 | a node's `pyson()` record starts with its `__class__` tag, followed by its fields |
| Nodes.FromObjectEval | sao/src/pyson.js:193-195 | Eval's `init_from_object` calls the constructor with the record's v and d |
| Nodes.FromObjectNot | sao/src/pyson.js:230-232 | Not's `init_from_object` calls the constructor with v |
| Nodes.FromObjectBool | sao/src/pyson.js:270-272 | Bool's `init_from_object` calls the constructor with v |
| Nodes.FromObjectAnd | sao/src/pyson.js:319-321 | And's `init_from_object` spreads the record's s as the statements |
| Nodes.FromObjectOr | sao/src/pyson.js:342-344 | Or's `init_from_object` spreads the record's s as the statements |
| Nodes.FromObjectEqual | sao/src/pyson.js:396-398 | Equal's `init_from_object` calls the constructor with s1 and s2 |
| Nodes.FromObjectGreater | sao/src/pyson.js:478-480 | Greater's `init_from_object` calls the constructor with s1, s2 and e |
| Nodes.FromObjectLess | sao/src/pyson.js:506-508 | Less's `init_from_object` calls the constructor with s1, s2 and e |
| Nodes.FromObjectIf | sao/src/pyson.js:581-583 | If's `init_from_object` calls the constructor with c, t and e |
| Nodes.FromObjectGet | sao/src/pyson.js:642-644 | Get's `init_from_object` calls the constructor with v, k and d |
| Nodes.FromObjectIn | sao/src/pyson.js:699-701 | In's `init_from_object` calls the constructor with k and v |
| Nodes.FromObjectDate | sao/src/pyson.js:777-780 | Date's `init_from_object` reads its seven fields by key, start included |
| Nodes.FromObjectDateTime | sao/src/pyson.js:865-869 | DateTime's `init_from_object` reads y, M, d, h, m, s, ms and the seven deltas by key, and passes no start |
| Nodes.FromObjectTimeDelta | sao/src/pyson.js:911-913 | TimeDelta's `init_from_object` reads d, s and `microseconds` |
| Nodes.FromObjectLen | sao/src/pyson.js:954-956 | Len's `init_from_object` calls the constructor with v |
| Nodes.StatementsRebuild | sao/src/pyson.js:280-291 | And's copied and wrapped statements end in a defined value and are left alone by a second wrapping |
| Nodes.EvalRebuilds | sao/src/pyson.js:193-195 | every Eval node the constructor builds is rebuilt whole from its record |
| Nodes.NotRebuilds | sao/src/pyson.js:230-232 | every Not node the constructor builds is rebuilt whole: its operand is not wrapped twice |
| Nodes.BoolRebuilds | sao/src/pyson.js:270-272 | every Bool node is rebuilt whole from its record |
| Nodes.AndRebuilds | sao/src/pyson.js:319-321 | every And node the constructor builds is rebuilt whole: its statements are not copied short or wrapped twice |
| Nodes.OrRebuilds | sao/src/pyson.js:342-344 | every Or node the constructor builds is rebuilt whole |
| Nodes.EqualRebuilds | sao/src/pyson.js:396-398 | every Equal node the constructor builds is rebuilt whole: its type check passes again |
| Nodes.GreaterRebuilds | sao/src/pyson.js:478-480 | every Greater node the constructor builds is rebuilt whole: its flag is not wrapped twice |
| Nodes.LessRebuilds | sao/src/pyson.js:506-508 | every Less node the constructor builds is rebuilt whole |
| Nodes.IfRebuilds | sao/src/pyson.js:581-583 | every If node the constructor builds is rebuilt whole: its condition is not wrapped twice |
| Nodes.GetRebuilds | sao/src/pyson.js:642-644 | every Get node the constructor builds is rebuilt whole: its checks pass again |
| Nodes.InRebuilds | sao/src/pyson.js:699-701 | every In node the constructor builds is rebuilt whole: its checks pass again |
| Nodes.LenRebuilds | sao/src/pyson.js:954-956 | every Len node the constructor builds is rebuilt whole: its check passes again |
| Nodes.Basename | sao/src/pyson.js:166-176 | `basename` drops a leading `_parent_` and returns the longest dot-free prefix of the rest |
| Nodes.UpToDot | sao/src/pyson.js:171-174 | cutting at the first dot gives a dot-free prefix that is either all of the name or ends just before a dot |
| Evaluate.CharIndex | sao/src/pyson.js:180 | `indexOf` of a character is -1 exactly when it is absent, and otherwise its first position |
| Evaluate.EvalPath | sao/src/pyson.js:179-192 | Eval returns `context[v]` when that is present and not undefined, returns the default for an undotted missing key, and fails on a non-object context |
| Evaluate.EvalValue | sao/src/pyson.js:179-192 | Eval on a string path is the path lookup. An array path, which also has `indexOf`, is looked up whole under its joined text with no descent; it throws exactly when the context is not an object, or when an item is "." and the key is absent (arrays have no `substring`). Any other path throws a TypeError. |
| Evaluate.ArrayPathIsJoinedKey | sao/src/pyson.js:179-192 | an array path whose joined text has no dot evaluates like that text as a string path |
| Evaluate.DotItemInText | sao/src/pyson.js:180 | an item "." puts a dot in the array's joined text |
| Evaluate.ArrayPathScenario | sao/src/pyson.js:179-192 | `Eval(['a'], 0)` in `{a: 1}` gives 1, and `Eval(['.'], 0)` there throws |
| Evaluate.EvalPathWalks | sao/src/pyson.js:179-192 | in a context with no dotted keys, a dotted path walks one object level per segment |
| Evaluate.NoDottedProperty | sao/src/pyson.js:181 | a context without dotted keys has no property named by a dotted path |
| Evaluate.SplitAtFirstDot | sao/src/pyson.js:180-185 | splitting a joined path at its first dot gives the first segment and the join of the rest |
| Evaluate.DescendDotFree | sao/src/pyson.js:182-185 | descending into `context[head] \|\| {}` keeps a context free of dotted keys |
| Evaluate.NotValue | sao/src/pyson.js:227-229 | Not yields the boolean negation of JavaScript truthiness |
| Evaluate.BoolValue | sao/src/pyson.js:256-269 | Bool is truthiness on primitives, and non-emptiness on arrays and objects |
| Evaluate.BoolStricterThanTruthy | sao/src/pyson.js:256-269 | Bool implies truthiness, and differs from it exactly on empty arrays and objects, zero durations and decimals, and times at midnight |
| Evaluate.IfValue | sao/src/pyson.js:574-580 | If yields then when the condition is truthy, and else otherwise |
| Evaluate.IfNotSwaps | sao/src/pyson.js:574-580 | negating If's condition swaps its branches |
| Evaluate.Statements | sao/src/pyson.js:312-318 | `for…of` over `s` iterates an array's items or a string's characters, and fails on anything else |
| Evaluate.Conjunction | sao/src/pyson.js:312-318 | the `&&` chain is one of the statements and is truthy exactly when all of them are |
| Evaluate.Disjunction | sao/src/pyson.js:335-341 | the `\|\|` chain is one of the statements and is truthy exactly when some of them is |
| Evaluate.AndFoldIsConjunction | sao/src/pyson.js:312-318 | the fold stops at the first falsy accumulator, and from a truthy start equals the conjunction |
| Evaluate.OrFoldIsDisjunction | sao/src/pyson.js:335-341 | the fold stops at the first truthy accumulator, and from a falsy start equals the disjunction |
| Evaluate.AndValue | sao/src/pyson.js:312-318 | And evaluates exactly when its statements are an array or a string |
| Evaluate.OrValue | sao/src/pyson.js:335-341 | Or evaluates exactly when its statements are an array or a string |
| Evaluate.AndValueMeaning | sao/src/pyson.js:312-318 | And over an array is true when empty, and otherwise the conjunction, truthy exactly when every statement is |
| Evaluate.OrValueMeaning | sao/src/pyson.js:335-341 | Or over an array is false when empty, and otherwise the disjunction, truthy exactly when some statement is |
| Evaluate.AndOrDuality | sao/src/pyson.js:312-318 | not-And equals not-not-Or of the negated statements (De Morgan on truthiness) |
| Evaluate.AndLoop | sao/src/pyson.js:312-318 | the accumulator loop of `And.eval_` returns true for no statements, and otherwise the conjunction |
| Evaluate.OrLoop | sao/src/pyson.js:335-341 | the accumulator loop of `Or.eval_` returns false for no statements, and otherwise the disjunction |
| Evaluate.EqualSymmetricReflexive | sao/src/pyson.js:385-395 | Equal is symmetric, and reflexive except on objects, durations, decimals and nodes, which `==` compares by identity |
| Evaluate.EqualDistinguishesDateFromDateTime | sao/src/pyson.js:389-391 | a date and a datetime with the same fields are not Equal |
| Evaluate.ObjectsCompareByText | sao/src/pyson.js:385-395 | `[] == ''`, `[] == false`, `[n] == n` and `{} == "[object Object]"` hold, `{} == 0` does not, and an array equals a string exactly when its items joined with "," give that string |
| Evaluate.Convert | sao/src/pyson.js:451-465 | `_convert` writes a fresh two-slot array holding each operand's numeric value |
| Evaluate.GreaterEval | sao/src/pyson.js:467-477 | Greater's evaluation is false on a null or undefined operand, and otherwise compares the converted numbers with `>` or `>=` |
| Evaluate.LessEval | sao/src/pyson.js:495-505 | Less's evaluation is false on a null or undefined operand, and otherwise compares with `<` or `<=` |
| Evaluate.GreaterLessLaws | sao/src/pyson.js:467-477 | Less(a, b) is Greater(b, a); strict Greater is asymmetric; non-strict is strict or both-ways; on numbers, a >= b or a < b |
| Evaluate.ArraysCompareAsNumbers | sao/src/pyson.js:451-465 | `Number([])` is 0, `Number([n])` is n, `Number({})` is NaN, so `Greater([], -1)` and `Greater([5], 3)` hold |
| Evaluate.GetValue | sao/src/pyson.js:635-641 | Get yields `v[k]` when k is a key of v and the default otherwise, and fails exactly on a non-object |
| Evaluate.GetKeepsUndefinedEvalDoesNot | sao/src/pyson.js:179-192 | a key present with value undefined is returned by Get, while Eval falls back to its default |
| Evaluate.StringIndexOf | sao/src/pyson.js:690-691 | substring `indexOf` is -1 exactly when there is no occurrence, and otherwise the first one |
| Evaluate.ArrayIndexOf | sao/src/pyson.js:690-691 | array `indexOf` is -1 exactly when no item is strictly equal, and otherwise the first such index |
| Evaluate.InValue | sao/src/pyson.js:688-698 | In is false on a falsy container, array or substring membership on containers with `indexOf`, truthiness of `v[k]` on objects, and a TypeError on an object whose `indexOf` member is not callable |
| Evaluate.InTestsValueNotKey | sao/src/pyson.js:688-698 | on an object, In tests the value's truthiness, so a key mapped to 0 is not "in" even though Get finds it |
| Evaluate.LenValue | sao/src/pyson.js:947-953 | Len counts array items, object keys or a string's UTF-16 code units (its characters when none is above U+FFFF); fails on null and undefined; and is undefined on numbers and booleans |
| Evaluate.LenIsLength | sao/src/pyson.js:951 | on arrays and strings Len is the `length` property |
| Evaluate.LenCountsDistinctKeys | sao/src/pyson.js:948-949 | on an object with distinct keys Len is its member count |
| Evaluate.InjectiveImageSize | sao/src/pyson.js:948-949 | distinct keys make the key set as large as the member list |
| Evaluate.TimeDeltaValue | sao/src/pyson.js:908-910 | TimeDelta evaluates to a duration exactly when all three fields are numbers |
| Evaluate.TimeDeltaUnits | sao/src/pyson.js:908-910 | one day is 86400 seconds, one second is 1000000 microseconds, and negating every field negates the duration |
| Evaluate.TimeDeltaMillis | sao/src/pyson.js:908-910 | TimeDelta(0, 1, 0) is 1000 milliseconds, days and seconds add up, and microseconds count as whole milliseconds truncated toward zero |
| Dates.SetIfTruthy | sao/src/pyson.js:769-771 | a date setter step is planned exactly when the field is truthy, with month shifted by -1 |
| Dates.SetUnlessNull | sao/src/pyson.js:852-855 | a clock setter step is planned unless the field is null or undefined, with microseconds divided by 1000 |
| Dates.AddIfTruthy | sao/src/pyson.js:772-774 | a delta step is planned exactly when the delta is truthy, with microseconds divided by 1000 |
| Dates.ApplyStepsAppend | sao/src/pyson.js:769-774 | applying two runs of steps one after the other is applying their concatenation |
| Dates.DateStart | sao/src/pyson.js:762-768 | for a start that is not a plain object claiming `isDate` or `isDateTime`: Date starts from a date start as is, from a datetime start cut to midnight, and from today for any other value |
| Dates.DateTimeStart | sao/src/pyson.js:841-848 | for a start that is not a plain object claiming `isDate` or `isDateTime`: DateTime starts from a datetime start as is, from a date start combined with the current time of day, and from now for any other value |
| Dates.DateNodeValue | sao/src/pyson.js:761-776 | Date on any start: a plain object with a truthy `isDateTime` throws a TypeError; one with a truthy `isDate` only is returned unchanged exactly when no setter or `add` is called, and throws a TypeError otherwise; every other start is evaluated by `DateEval` |
| Dates.DateTimeNodeValue | sao/src/pyson.js:840-864 | DateTime on any start: a plain object with a truthy `isDate` throws a TypeError; one with a truthy `isDateTime` only is returned unchanged exactly when no setter or `add` is called (a clock field calls one unless it is null), and throws a TypeError otherwise; every other start is evaluated by `DateTimeEval` |
| Dates.DateCallsArePlanSteps | sao/src/pyson.js:769-774 | Date calls no setter and no `add` exactly when its plan of steps for a real moment is empty |
| Dates.DateTimeCallsCoverPlanSteps | sao/src/pyson.js:849-862 | when DateTime calls no setter and no `add`, its plan of steps for a real moment is empty |
| Dates.PlainObjectStarts | sao/src/pyson.js:761-776 | witness: `{isDate: true}` comes back from Date with no fields and throws with a day added; `{isDateTime: true}` throws in Date and comes back from DateTime with no fields; an empty object starts from today |
| Dates.DateEval | sao/src/pyson.js:761-776 | a successful Date evaluation of a start that does not merely claim to be a moment yields a date |
| Dates.DateTimeEval | sao/src/pyson.js:840-864 | a successful DateTime evaluation of a start that does not merely claim to be a moment yields a datetime |
| Dates.DateEvalFields | sao/src/pyson.js:761-776 | the evaluated date's fields are the start's, overwritten by each truthy field (month minus one) and then moved by each delta |
| Dates.DatePlanFields | sao/src/pyson.js:769-774 | Date's set-then-add plan, run from any start, lands on the stated fields |
| Dates.DateTimeEvalFields | sao/src/pyson.js:840-864 | the evaluated datetime's fields are the start's: date fields overwritten if truthy, clock fields unless null (microseconds / 1000), then every delta added |
| Dates.DateTimePlanFields | sao/src/pyson.js:849-862 | DateTime's set-then-add plan, run from any start, lands on the stated fields |
| Dates.DateSettersFields | sao/src/pyson.js:769-771 | the three date setters together overwrite year, month and day as stated |
| Dates.DateDeltasFields | sao/src/pyson.js:772-774 | the three date deltas together add to year, month and day |
| Dates.ClockSettersFields | sao/src/pyson.js:852-855 | the four clock setters overwrite hour, minute, second and millisecond unless null |
| Dates.ClockDeltasFields | sao/src/pyson.js:859-862 | the four clock deltas add to hour, minute, second and millisecond (microseconds / 1000) |
| Dates.DateTimeSettersFields | sao/src/pyson.js:849-855 | the seven setters of DateTime land on the stated fields |
| Dates.DateTimeDeltasFields | sao/src/pyson.js:856-862 | the seven deltas of DateTime add to the corresponding fields |
| Dates.ApplyPlan | sao/src/pyson.js:769-774 | running the plan on a moment object in place leaves the fields the plan function computes, and keeps its kind |
| Dates.EvalInPlace | sao/src/pyson.js:761-776 | as written: the result has the node's kind and the planned fields, and IS the start object whenever the start already has the node's kind |
| Dates.EvalFresh | sao/src/pyson.js:761-776 | corrected: the result is a new object with the node's kind and the planned fields, and the start is left alone |
| Dates.EvalFreshMatchesDateEval | sao/src/pyson.js:761-776 | the fresh in-place evaluation agrees with the pure `DateEval` |
| Dates.ContextDateAdvances | sao/src/pyson.js:761-776 | witness: evaluating Date(start = context date, +1 day) in place advances the context's own date object to 2 January 2000 |
| Encoding.MomentNode | sao/src/pyson.js:69-84 | the encoder turns a date moment into a Date node and any other moment into a DateTime node, both with start null |
| Encoding.MomentNodeConstructed | sao/src/pyson.js:69-84 | that node is what the source's constructor call builds from the moment's fields (month + 1, milliseconds × 1000) |
| Encoding.Prepared | sao/src/pyson.js:62-99 | `prepare` leaves undefined exactly as undefined; an array keeps its items up to the last defined one, and an object keeps the keys of its defined members, in order, none of them undefined |
| Encoding.PreparedIsPrepared | sao/src/pyson.js:62-99 | prepared values contain no moments or decimals outside nodes, no undefined members and no trailing undefined items, and preparing is idempotent |
| Encoding.PrepareItems | sao/src/pyson.js:64-68 | the `jQuery.extend` copy and the loop fill a fresh array with the prepared items up to the last defined one, and leave the caller's array unchanged |
| Encoding.PrepareMembers | sao/src/pyson.js:87-93 | the `jQuery.extend` copy and the loop fill a fresh array with the prepared defined members, and leave the caller's object unchanged |
| Encoding.Encode | sao/src/pyson.js:101-110 | encoding succeeds exactly on encodable values, and what it writes for the prepared copy is what `Write` gives for the value itself |
| Encoding.EncodeLeavesOutUndefined | sao/src/pyson.js:62-110 | `{a: undefined}` is written `{}`, `[1, undefined]` is written `[1]`, and `[undefined, 1]` is written `[null, 1]` |
| Encoding.WriteNodeIsProjection | sao/src/pyson.js:104-105 | a node is written as its `pyson()` record |
| Encoding.WriteArgsKept | sao/src/pyson.js:104-105 | a node's fields are written as the fields `jQuery.extend` keeps from its `pyson()` record |
| Encoding.WriteScalarAgrees | sao/src/pyson.js:106-109 | null, numbers, strings and booleans are written as themselves |
| Encoding.WriteScalarRecord | sao/src/pyson.js:104-109 | an object of scalars is written member by member |
| Encoding.WriteMomentIsRecord | sao/src/pyson.js:69-84 | a moment is written as its node's record |
| Encoding.MomentNodeEncodable | sao/src/pyson.js:69-84 | a moment's node has only writable fields |
| Encoding.WriteMomentIsNode | sao/src/pyson.js:69-84 | a moment and its Date/DateTime node are written the same way |
| Encoding.WritePrepared | sao/src/pyson.js:101-110 | preparing before writing does not change what is written: the writer leaves out the same undefined entries the copies drop |
| Decoding.DecoderContext | sao/src/pyson.js:115-117 | a falsy context becomes `{}` |
| Decoding.WithoutKey | sao/src/pyson.js:127-128 | deleting `__class__` leaves no such key and changes nothing when it is absent |
| Values.LookupDistinct | sao/src/pyson.js:127-130 | with distinct keys, a record's lookup returns the member's own value |
| Nodes.ArgsDistinctKeys | sao/src/pyson.js:149-155 | every node's record has distinct keys |
| Decoding.OtherMembersAreNotNodes | sao/src/pyson.js:122-123 | no node tag names another member of `Sao.PYSON` |
| Decoding.Revive | sao/src/pyson.js:120-135 | an untagged or unknown-tag object is kept, and a tag naming a non-node member of `Sao.PYSON` is an error |
| Decoding.Decode | sao/src/pyson.js:119-137 | `null` decodes to null and arrays keep their length |
| Decoding.DecodeItems | sao/src/pyson.js:136 | array items decode one for one |
| Decoding.DecodeMembers | sao/src/pyson.js:136 | members whose revived value is undefined are dropped |
| Decoding.DecodeItemsPointwise | sao/src/pyson.js:136 | items decode to the list of their individual results |
| Decoding.DecodeMembersPointwise | sao/src/pyson.js:136 | members decode to their individual results when none is undefined |
| Decoding.ArgsKeys | sao/src/pyson.js:127-128 | no node field is named `__class__` |
| Decoding.ReviveProjection | sao/src/pyson.js:126-130 | in noeval mode a node's record revives to `init_from_object` of its fields |
| Decoding.FieldsRoundTrip | sao/src/pyson.js:126-130 | every field of a node with wire-safe fields survives encode then noeval decode |
| Decoding.StatementsRoundTrip | sao/src/pyson.js:101-137 | an array of wire-safe values round-trips through encode and decode |
| Decoding.MembersRoundTrip | sao/src/pyson.js:101-137 | an object of wire-safe values round-trips through encode and decode |
| Decoding.RoundTrip | sao/src/pyson.js:101-137 | `decode(encode(v)) == v` for every wire-safe value, with nodes allowed only in noeval mode |
| Decoding.NodeRoundTrip | sao/src/pyson.js:126-130 | in noeval mode an encoded node decodes to `init_from_object` of its own fields |
| Decoding.RecordMembersRoundTrip | sao/src/pyson.js:104-105 | a node's record decodes back to itself when its fields do |
| Decoding.RecordMembersWritten | sao/src/pyson.js:104-105 | a node's record is written tag first, then each field that is not undefined, written in place |
| Decoding.TaggedMembers | sao/src/pyson.js:136 | a tagged record decodes member by member |
| Decoding.EvalOfLiteralFields | sao/src/pyson.js:124-125 | in eval mode an encoded node with literal fields decodes to its `eval_` over its record |
| Decoding.RevivedRecord | sao/src/pyson.js:136 | the record `eval_` sees has the tag and then each written field with its revived value |
| Decoding.ChildrenFirst | sao/src/pyson.js:119-137 | a node's written fields are revived before the node: the reviver sees the revived children |
| Decoding.TimeDeltaLosesMicroseconds | sao/src/pyson.js:911-913 | noeval decoding of a TimeDelta comes back with microseconds 0, because the record key is `m` and the reader asks for `microseconds` |
| Decoding.TimeDeltaRebuilt | sao/src/pyson.js:911-913 | `init_from_object` on a TimeDelta's record rebuilds it with microseconds 0 |
| Decoding.DateTimeLosesStart | sao/src/pyson.js:865-869 | noeval decoding of a DateTime comes back with start null |
| Decoding.DateTimeRebuilt | sao/src/pyson.js:865-869 | `init_from_object` on a DateTime's record rebuilds it with start null |
| Decoding.DateTimeFromArgs | sao/src/pyson.js:865-869 | DateTime's `init_from_object` calls the constructor with each record field and no start |
| Decoding.DateTimeLookups | sao/src/pyson.js:816-828 | each DateTime record key holds the matching field |
| Decoding.DateTimeKeepsFields | sao/src/pyson.js:790-815 | the DateTime constructor keeps valid fields unchanged |
| Decoding.DateLookups | sao/src/pyson.js:728-738 | each Date record key holds the matching field |
| Decoding.DateKeepsFields | sao/src/pyson.js:709-727 | the Date constructor keeps valid fields and a defined start unchanged |
| Decoding.DateRebuilds | sao/src/pyson.js:777-780 | every Date node the constructor builds is rebuilt whole from its record |
| Decoding.DateTimeFieldsChecked | sao/src/pyson.js:790-815 | a DateTime the constructor accepts holds only integer or null fields |
| Decoding.DateTimeRebuilds | sao/src/pyson.js:865-869 | every DateTime node the constructor builds with no (or a null) start is rebuilt whole from its record |
| Decoding.TimeDeltaRebuilds | sao/src/pyson.js:911-913 | every TimeDelta node the constructor builds is rebuilt from its record with microseconds 0, so whole exactly when they were 0 |
| Rendering.Escape | sao/src/pyson.js:22 | `JSON.stringify` escapes exactly quotes, backslashes and control characters |
| Rendering.Quote | sao/src/pyson.js:22 | a quoted string starts and ends with a double quote |
| Rendering.EscapeRead | sao/src/pyson.js:22 | reading back an escaped character yields that character |
| Rendering.UnescapeEscaped | sao/src/pyson.js:22 | reading back an escaped string yields that string |
| Rendering.QuoteRoundTrip | sao/src/pyson.js:22 | unquoting a quoted string gives the string back |
| Rendering.Render | sao/src/pyson.js:11-24 | `toString` produces text for everything except undefined |
| Rendering.Texts | sao/src/pyson.js:46 | `map(toString)` keeps the count |
| Rendering.NodeText | sao/src/pyson.js:44-48 | a node prints as its tag and its parameters' texts joined by ", " in parentheses |
| Rendering.ParamTextsAreTexts | sao/src/pyson.js:46 | the parameter texts are `toString` of each string parameter |
| Rendering.StringParamsAreRecordFields | sao/src/pyson.js:163-165 | the printed parameters are the record's fields: spread for And/Or, in record order for most nodes, and permuted for DateTime |
| Rendering.SameOrderParams | sao/src/pyson.js:163-165 | apart from And, Or and DateTime, the printed parameters are the record's fields in order |
| Rendering.DateTimeOrderIsPermutation | sao/src/pyson.js:816-836 | DateTime's parameter order is a permutation of its 15 record positions |
| Rendering.DateTimeParamsPermuteRecord | sao/src/pyson.js:829-836 | DateTime prints every record field exactly once, in its own order |
| Scenarios.LenText | sao/tests/sao.js:1163-1164 | `Len([1, 2, 3])` prints as "Len([1, 2, 3])" |
| Scenarios.OneTwoThreeText | sao/tests/sao.js:1163-1164 | `[1, 2, 3]` prints as "[1, 2, 3]" |
| Scenarios.ObjectText | sao/tests/sao.js:1211-1218 | the dictionary with a list and an Eval prints as the test expects |
| Scenarios.FooBarText | sao/tests/sao.js:1211-1218 | `["foo", "bar"]` prints with quoted items |
| Scenarios.EvalTestText | sao/tests/sao.js:1211-1218 | `Eval("test")` prints with its default "" |
| Scenarios.TwoItemsText | sao/src/pyson.js:13-14 | a two-item array prints as both texts joined by ", " in brackets |
| Scenarios.TwoParamsText | sao/src/pyson.js:44-48 | a two-parameter node prints as tag(a, b) |
| Scenarios.PairText | sao/src/pyson.js:15-19 | a two-member object prints as quoted keys with their texts |
| Scenarios.EncoderScenario | sao/tests/sao.js:45-78 | undefined and null encode to null, and the 2002-01-01 date and datetime moments become the expected nodes |
| Scenarios.LiteralDecodes | sao/src/pyson.js:119-137 | a node-free wire value decodes to itself in eval mode |
| Scenarios.LenEvaluates | sao/tests/sao.js:1150-1162 | an encoded Len of a literal decodes to Len's value |
| Scenarios.EvalEvaluates | sao/tests/sao.js:98-107 | an encoded Eval decodes to the path lookup in the decoder's context |
| Scenarios.KeyFoundEvaluates | sao/tests/sao.js:100-101 | a present key yields its value |
| Scenarios.NoContextEvaluates | sao/tests/sao.js:103-104 | without a context, the default |
| Scenarios.KeyUndefinedEvaluates | sao/tests/sao.js:105-107 | a key mapped to undefined yields the default |
| Scenarios.EvalScenario | sao/tests/sao.js:98-107 | `Eval('test', 0)` decodes to 1, 0 and 0 in the test's three contexts |
| Scenarios.LenStringScenario | sao/tests/sao.js:1159-1162 | `Len('foo bar')` decodes to 7 |
| Scenarios.LenArrayScenario | sao/tests/sao.js:1151-1154 | `Len([1, 2, 3])` decodes to 3 |
| Scenarios.LenObjectScenario | sao/tests/sao.js:1155-1158 | `Len({1: 2, 3: 4})` decodes to 2 |
| Scenarios.DotStep | sao/src/pyson.js:180-186 | a dotted path not present as a key descends one level |
| Scenarios.PathEvaluates | sao/tests/sao.js:1220-1264 | an encoded Eval with any path decodes to the path lookup |
| Scenarios.DottedKeyFound | sao/src/pyson.js:181 | a literal dotted key is found before any nesting |
| Scenarios.NestedPathFound | sao/tests/sao.js:1224-1225 | `foo.bar` finds a nested value |
| Scenarios.NestedPathMissing | sao/tests/sao.js:1226 | `foo.bar` in `{foo: {foo: 1}}` gives the default |
| Scenarios.OuterPathMissing | sao/tests/sao.js:1227 | `foo.bar` in `{bar: {bar: 1}}` gives the default |
| Scenarios.TwiceNestedPathFound | sao/tests/sao.js:1240-1241 | `foo.bar.test` finds a twice-nested value |
| Scenarios.TwiceNestedPathMissing | sao/tests/sao.js:1242 | `foo.bar.test` with a missing middle gives the default |
| Scenarios.DottedScenario | sao/tests/sao.js:1220-1234 | `Eval('foo.bar', 0)` decodes to 1, 0 and 0 in the three contexts |
| Scenarios.TwiceDottedScenario | sao/tests/sao.js:1236-1250 | `Eval('foo.bar.test', 0)` decodes to 1 and 0 |
| Scenarios.DottedKeyScenario | sao/tests/sao.js:1252-1264 | a literal `foo.bar` key wins over the nested `foo.bar` |
| Scenarios.NoevalKeeps | sao/tests/sao.js:1183-1209 | in noeval mode, a node that `init_from_object` rebuilds exactly comes back unchanged |
| Scenarios.GetFromArgs | sao/src/pyson.js:642-644 | Get's `init_from_object` calls the constructor with v, k and d |
| Scenarios.DateTimeNoevalKeeps | sao/tests/sao.js:1183-1209 | a DateTime with start null and valid fields comes back unchanged in noeval mode |
| Scenarios.BooleansKept | sao/src/pyson.js:283-291 | And keeps boolean statements as they are |
| Scenarios.NoevalEvalScenario | sao/tests/sao.js:1187-1208 | `Eval('test', 0)` survives a noeval round trip |
| Scenarios.NoevalNotScenario | sao/tests/sao.js:1188-1208 | `Not(true)` survives a noeval round trip |
| Scenarios.NoevalBoolScenario | sao/tests/sao.js:1189-1208 | `Bool('test')` survives a noeval round trip |
| Scenarios.NoevalAndScenario | sao/tests/sao.js:1192-1208 | `And(true, false, true)` survives a noeval round trip |
| Scenarios.NoevalOrScenario | sao/tests/sao.js:1193-1208 | `Or(false, true, true)` survives a noeval round trip |
| Scenarios.NoevalEqualScenario | sao/tests/sao.js:1194-1208 | `Equal('foo', 'bar')` survives a noeval round trip |
| Scenarios.NoevalGreaterScenario | sao/tests/sao.js:1195-1208 | `Greater(1, 0)` survives a noeval round trip |
| Scenarios.NoevalLessScenario | sao/tests/sao.js:1196-1208 | `Less(0, 1)` survives a noeval round trip |
| Scenarios.NoevalIfScenario | sao/tests/sao.js:1197-1208 | `If(true, 'foo', 'bar')` survives a noeval round trip |
| Scenarios.NoevalGetScenario | sao/tests/sao.js:1198-1208 | `Get({'foo': 'bar'}, 'foo', 'default')` survives a noeval round trip |
| Scenarios.NoevalInScenario | sao/tests/sao.js:1199-1208 | `In('foo', ['foo', 'bar'])` survives a noeval round trip |
| Scenarios.NoevalDateScenario | sao/tests/sao.js:1200-1208 | `Date()` survives a noeval round trip |
| Scenarios.NoevalDateTimeScenario | sao/tests/sao.js:1201-1208 | `DateTime()` survives a noeval round trip |
| Scenarios.NoevalLenScenario | sao/tests/sao.js:1202-1208 | `Len([1, 2, 3])` survives a noeval round trip |
| Scenarios.EvalBuilt | sao/tests/sao.js:1187 | `Eval('test', 0)` is built and rebuilt from its record |
| Scenarios.NotBuilt | sao/tests/sao.js:1188 | `Not(true)` is built and rebuilt from its record |
| Scenarios.BoolBuilt | sao/tests/sao.js:1189 | `Bool('test')` is built and rebuilt from its record |
| Scenarios.AndBuilt | sao/tests/sao.js:1192 | `And(true, false, true)` is built and rebuilt from its record |
| Scenarios.OrBuilt | sao/tests/sao.js:1193 | `Or(false, true, true)` is built and rebuilt from its record |
| Scenarios.EqualBuilt | sao/tests/sao.js:1194 | `Equal('foo', 'bar')` is built and rebuilt from its record |
| Scenarios.GreaterBuilt | sao/tests/sao.js:1195 | `Greater(1, 0)` is built with e false and rebuilt from its record |
| Scenarios.LessBuilt | sao/tests/sao.js:1196 | `Less(0, 1)` is built with e false and rebuilt from its record |
| Scenarios.IfBuilt | sao/tests/sao.js:1197 | `If(true, 'foo', 'bar')` is built and rebuilt from its record |
| Scenarios.GetBuilt | sao/tests/sao.js:1198 | `Get({'foo': 'bar'}, 'foo', 'default')` is built and rebuilt from its record |
| Scenarios.InBuilt | sao/tests/sao.js:1199 | `In('foo', ['foo', 'bar'])` is built and rebuilt from its record |
| Scenarios.DateBuilt | sao/tests/sao.js:1200 | `Date()` has null fields, zero deltas and null start, and is rebuilt from its record |
| Scenarios.DefaultDateTime | sao/tests/sao.js:1201 | `DateTime()` has null fields, zero deltas and null start |
| Scenarios.LenBuilt | sao/tests/sao.js:1202 | `Len([1, 2, 3])` is built and rebuilt from its record |
| Scenarios.CompositeDecodes | sao/tests/sao.js:1166-1177 | the composite domain decodes to `['id', '!=' or '=', company or -1]` in any context |
| Scenarios.CompositeWithCompany | sao/tests/sao.js:1173-1175 | with `company: 1` the domain decodes to `['id', '!=', 1]` |
| Scenarios.CompositeWithoutCompany | sao/tests/sao.js:1176-1178 | with an empty context the domain decodes to `['id', '=', -1]` |
| Scenarios.ConditionDecodes | sao/tests/sao.js:1167-1169 | `If(Not(In('company', Eval('context', {}))), '=', '!=')` decodes by the presence of a truthy company |
| Scenarios.InCompanyDecodes | sao/tests/sao.js:1168-1169 | `In('company', context)` decodes to the truthiness of the company member |
| Scenarios.CompanyDecodes | sao/tests/sao.js:1171-1172 | `Get(Eval('context', {}), 'company', -1)` decodes to the company or -1 |
| Scenarios.ContextDecodes | sao/tests/sao.js:1169 | `Eval('context', {})` decodes to the context object |
| Scenarios.RecordEvaluates | sao/src/pyson.js:122-125 | in eval mode a tagged record goes to its node's `eval_` |
| Scenarios.EvalDecodes | sao/src/pyson.js:179-192 | an encoded Eval decodes to Eval of its decoded fields |
| Scenarios.InDecodes | sao/src/pyson.js:688-698 | an encoded In decodes to In of its decoded fields |
| Scenarios.NotDecodes | sao/src/pyson.js:227-229 | an encoded Not decodes to the negation of its decoded operand |
| Scenarios.IfDecodes | sao/src/pyson.js:574-580 | an encoded If decodes to If of its decoded fields |
| Scenarios.GetDecodes | sao/src/pyson.js:635-641 | an encoded Get decodes to Get of its decoded fields |

## Findings

| source | as written | input that shows it | evidently intended | confidence | as-written member | corrected member |
|---|---|---|---|---|---|---|
| sao/src/pyson.js:761-776 | `Date.eval_` calls the setters and `add` on the `start` moment itself when it is already a date; `DateTime.eval_` (840-864) does the same with a datetime start | context `{date: 2000-01-01}`, node `Date(start=Eval('date'), delta_days=1)`: decoding returns 2000-01-02 and the context's own date object becomes 2000-01-02 | evaluation computes a new moment and leaves the start (a value from the caller's context) unchanged, as it already does when the start has the other kind | not executed | Dates.EvalInPlace (witness Dates.ContextDateAdvances) | Dates.EvalFresh (agreement with the pure evaluation: Dates.EvalFreshMatchesDateEval) |

## Left out

- Textual JSON is left out: `JSON.stringify` and `JSON.parse` are modelled as the `Json` tree and the walk over it. Only string quoting, which `toString` shows, is modelled as text.
- Object key order is plain insertion order. JavaScript's rule that integer-like keys come first, in ascending order, is not modelled. A JavaScript object cannot hold a key twice; the model's member list can, and the lemmas that need distinct keys require them.
- Numbers are integers. Floating point, `NaN`, and numbers at or above 1e21 (which print in exponent form) are not modelled. The Decimal `1.1` of the Encoder test becomes an integer in the model.
- `ms / 1000` and `dms / 1000` in DateTime evaluation, and `m / 1000` in TimeDelta, are integer divisions that truncate toward zero; the source keeps the fraction.
- Calendar arithmetic is left out: month lengths, overflow normalisation, leap years, local time versus UTC and `Sao.DateTime.combine`. A moment is seven raw fields. A setter overwrites one of them; `add` adds to one.
- Today, now and the current time of day (`Sao.Date()`, `Sao.DateTime().utc()`, `Sao.Time()`) come from a `Clock` parameter.
- `toString` of a host object (a moment, a duration, a Decimal) is the parameter `host`.
- A `\u` escape inside a quoted string is read as one character; surrogate pairs are not modelled.
- PropertyKey: a moment, duration, Decimal or node used as a property key, or an array holding one, becomes the fixed text "[object Object]". JavaScript would use the value's own `toString`.
- ToPrimitive: the text of a moment, duration or node is not modelled, so an array holding one has no primitive (None), and `==` against such an array is false in the model. An own `toString` or `valueOf` member of a plain object is not consulted either.
- LooseEquals: model values have no identity, so every two objects (arrays, plain objects, host objects) are treated as distinct references and are never `==`, even when both come from the same context entry. In JavaScript `Equal(Eval('a'), Eval('a'))` against `{a: {x: 1}}` is true, because both sides are the same object; in the model it is false. `Evaluate.EqualValues` and `Evaluate.ArrayIndexOf` share this: `In(Eval('a'), Eval('l'))` with `l` a list holding that very object is true in JavaScript and false in the model.
- LooseEquals: inherits the gap of ToPrimitive. A moment or a duration compares through its `valueOf`, which the model takes to be the raw instant described under calendar arithmetic.
- GetProperty: indexing a string (`s[i]`) counts characters, not UTF-16 code units, so it differs from JavaScript on strings with characters above U+FFFF. Its `length` does count UTF-16 code units.
- EvalPath: members inherited from `Object.prototype` (`toString`, `constructor`, `hasOwnProperty`, ...) are not modelled. In JavaScript `'toString' in ctx` holds for every context object, so `Eval('toString')` returns the inherited function where the model returns the default.
- EvalValue: has the same gap as EvalPath, for inherited members. An array path's key is its joined text as `PropertyKey` gives it, so an item that is a moment, duration, Decimal or node turns the key into "[object Object]", as listed under PropertyKey.
- GetValue: has the same gap as EvalPath: `Get(obj, 'toString')` returns the inherited function in JavaScript and the default in the model.
- InValue: has the same gap as EvalPath: `In('toString', obj)` is true in JavaScript, because `!!obj['toString']` holds, and false in the model.
- SetIfTruthy: a truthy field that is not a number gives an error. moment.js ignores a set to NaN and keeps the moment.
- SetUnlessNull: a non-null field that is not a number gives an error. moment.js ignores a set to NaN.
- AddIfTruthy: a truthy delta that is not a number gives an error. moment.js ignores adding NaN.
- ParseNumber: reads only an optional minus sign followed by decimal digits, with the empty string as 0. `Number` also accepts surrounding white space, a plus sign, and hexadecimal, octal, binary, fraction and exponent forms; those give NaN (None) here.
- NotOperand: a literal that is not a boolean is wrapped in `Bool`. The source (sao/src/pyson.js:209) calls `Sao.PYSON.Bool(value)` without `new`. What that call returns depends on `Sao.class_`, which is not part of this model.
- MakeNot: inherits NotOperand's wrapping of a literal that is not a boolean.
- Encoding a duration gives an error. The source has no rule for durations and would hand the moment.js object to `JSON.stringify`.
- TimeDeltaValue: a field that is not a number gives an error. In JavaScript `value.m / 1000` converts `m` with `Number`: null gives 0, a numeric string gives its number, `true` gives 1, and anything else gives `NaN`; days and seconds are handed to `Sao.TimeDelta`, which is not part of this model.
- Len on a host object (moment, duration, Decimal, node) gives an error, because its own keys depend on library internals.
- `Sao.common.compare`, used by Equal on two arrays, is structural equality of values.
- The `Sao.PYSON.eval` constructor shortcuts and `True`/`False` constants, the base class's `get`, `in_` and `contains`, and `Sao.class_` inheritance are not part of this model.
- The text of the composite expression in the Composite test (sao/tests/sao.js:1179-1180) is not stated as a lemma; the general `Rendering.NodeText` covers it.
- Nodes.FromObject has no contract of its own: it is the source's `init_from_object` table. What it reads for each class is stated by `Nodes.FromObjectEval` … `Nodes.FromObjectLen`, and that it rebuilds what a constructor built by `Nodes.EvalRebuilds` … `Nodes.LenRebuilds` and `Decoding.DateRebuilds`, `Decoding.DateTimeRebuilds` and `Decoding.TimeDeltaRebuilds`.
- Decoding.Revive: its contract covers only the untagged and unknown-tag cases. What it does for a node tag is stated by `Decoding.ReviveProjection` (noeval) and `Scenarios.RecordEvaluates` (eval).
- Decoding.Decode: its own contract covers only `null` and array length. Its meaning is stated by `Decoding.RoundTrip`, `Decoding.NodeRoundTrip`, `Decoding.ChildrenFirst` and `Decoding.EvalOfLiteralFields`.
- Nodes.MakeDate, Nodes.MakeDateTime and Nodes.MakeTimeDelta: their own contracts only name the node kind. Their checks are stated by `Nodes.MakeDateErrors`, `Nodes.DateChecksDaysBeforeMonths`, `Nodes.TimeDeltaAcceptsOnlyNumbers`, `Decoding.DateTimeKeepsFields` and `Decoding.DateKeepsFields`.
- DateTimeNodeValue: a plain object start with a truthy `isDate` member goes to `Sao.DateTime.combine`, which is not part of this model. The model takes that call to throw a TypeError, since such an object has none of the moment methods.
- Dates.DateEval and Dates.DateTimeEval: their own contracts only name the result kind. The fields are stated by `Dates.DateEvalFields` and `Dates.DateTimeEvalFields`.


=== FILE: calendar.dfy ===
/** The date collaborator: a moment is a record of calendar fields plus the
    flags that tell a pure date, a date-time and a time of day apart.
    Setting a field overwrites it and adding to a unit adds to the matching
    field; month lengths, carries between fields, leap years and time zones
    belong to the date library and are not modelled. */
module Calendar {

  /** Calendar fields of a moment; `month` is 0-based, as the date library keeps it. */
  datatype Fields = Fields(year: int, month: int, day: int,
                           hour: int, minute: int, second: int, millisecond: int)

  /** Which of the isDate / isDateTime / isTime flags a moment carries (a moment
      made by the date library directly carries none). */
  datatype MomentKind = PlainMoment | DateKind | DateTimeKind | TimeKind

  /** The fields a setter call writes. */
  datatype FieldName = Year | Month | Day | Hour | Minute | Second | Millisecond

  /** The units `add` accepts: 'y', 'M', 'd', 'h', 'm', 's', 'ms'. */
  datatype Unit = Years | Months | Days | Hours | Minutes | Seconds | Milliseconds

  /** Milliseconds in one unit, under the reading of `Instant`. */
  function UnitLength(u: Unit): (r: int)
    ensures r > 0
  {
    match u
    case Milliseconds => 1
    case Seconds => 1000
    case Minutes => 60 * 1000
    case Hours => 60 * 60 * 1000
    case Days => 24 * 60 * 60 * 1000
    case Months => 31 * 24 * 60 * 60 * 1000
    case Years => 12 * 31 * 24 * 60 * 60 * 1000
  }

  /** The instant (valueOf) of a moment, read from its fields in mixed radix;
      it stands in for the library's epoch milliseconds. */
  function Instant(f: Fields): int
  {
    f.year * UnitLength(Years) + f.month * UnitLength(Months) + f.day * UnitLength(Days)
    + f.hour * UnitLength(Hours) + f.minute * UnitLength(Minutes)
    + f.second * UnitLength(Seconds) + f.millisecond
  }

  /** The setter `year(x)`, `month(x)`, ... */
  function SetField(f: Fields, name: FieldName, x: int): (r: Fields)
    ensures name == Year ==> r == f.(year := x)
    ensures name == Month ==> r == f.(month := x)
    ensures name == Day ==> r == f.(day := x)
    ensures name == Hour ==> r == f.(hour := x)
    ensures name == Minute ==> r == f.(minute := x)
    ensures name == Second ==> r == f.(second := x)
    ensures name == Millisecond ==> r == f.(millisecond := x)
  {
    match name
    case Year => f.(year := x)
    case Month => f.(month := x)
    case Day => f.(day := x)
    case Hour => f.(hour := x)
    case Minute => f.(minute := x)
    case Second => f.(second := x)
    case Millisecond => f.(millisecond := x)
  }

  /** `add(n, unit)`: adds n to the field of that unit. */
  function AddUnit(f: Fields, u: Unit, n: int): (r: Fields)
  {
    match u
    case Years => f.(year := f.year + n)
    case Months => f.(month := f.month + n)
    case Days => f.(day := f.day + n)
    case Hours => f.(hour := f.hour + n)
    case Minutes => f.(minute := f.minute + n)
    case Seconds => f.(second := f.second + n)
    case Milliseconds => f.(millisecond := f.millisecond + n)
  }

  /** Adding n units moves the instant by n unit lengths. */
  lemma AddUnitMovesInstant(f: Fields, u: Unit, n: int)
    ensures Instant(AddUnit(f, u, n)) == Instant(f) + n * UnitLength(u)
  {
  }

  /** The same calendar day at midnight. */
  function Midnight(f: Fields): (r: Fields)
    ensures r.year == f.year && r.month == f.month && r.day == f.day
    ensures r.hour == 0 && r.minute == 0 && r.second == 0 && r.millisecond == 0
  {
    Fields(f.year, f.month, f.day, 0, 0, 0, 0)
  }

  /** Adding twelve months lands on the same instant as adding one year. */
  lemma TwelveMonthsIsAYear(f: Fields, n: int)
    ensures Instant(AddUnit(f, Months, 12 * n)) == Instant(AddUnit(f, Years, n))
  {
    AddUnitMovesInstant(f, Months, 12 * n);
    AddUnitMovesInstant(f, Years, n);
    assert UnitLength(Years) == 12 * UnitLength(Months);
  }

  /** The state of one date object of the library: the date evaluators
      create it or receive it, and mutate it step by step. */
  class MomentCell {
    var kind: MomentKind
    var fields: Fields

    constructor (k: MomentKind, f: Fields)
      ensures kind == k && fields == f
    {
      kind := k;
      fields := f;
    }

    /** A setter call: only the named field changes. */
    method Set(name: FieldName, x: int)
      modifies this
      ensures kind == old(kind)
      ensures fields == SetField(old(fields), name, x)
    {
      fields := SetField(fields, name, x);
    }

    /** An `add` call: the instant moves by n units, the kind stays. */
    method Add(u: Unit, n: int)
      modifies this
      ensures kind == old(kind)
      ensures fields == AddUnit(old(fields), u, n)
      ensures Instant(fields) == Instant(old(fields)) + n * UnitLength(u)
    {
      AddUnitMovesInstant(fields, u, n);
      fields := AddUnit(fields, u, n);
    }
  }
}

=== FILE: dates.dfy ===
/** `Date.eval_` and `DateTime.eval_`: pick the moment to start from, then
    apply the guarded setter and `add` calls in the source's order. */
module Dates {
  import opened Wrappers
  import opened Values
  import opened Calendar
  import Evaluate

  /** What the date library would read from the system clock: today at local
      midnight (`Sao.Date()`), now in UTC (`Sao.DateTime().utc()`), and the
      current time of day (`Sao.Time()`). */
  datatype Clock = Clock(today: Fields, now: Fields, timeOfDay: Fields)

  predicate ValidClock(c: Clock)
  {
    c.today == Midnight(c.today)
  }

  /** One call on the date object. */
  datatype Step = SetStep(name: FieldName, x: int) | AddStep(unit: Unit, n: int)

  function ApplyStep(f: Fields, s: Step): Fields
  {
    match s
    case SetStep(name, x) => SetField(f, name, x)
    case AddStep(u, n) => AddUnit(f, u, n)
  }

  /** The fields after the calls, first to last. */
  function ApplySteps(f: Fields, steps: seq<Step>): Fields
  {
    if steps == [] then f else ApplyStep(ApplySteps(f, steps[..|steps| - 1]), steps[|steps| - 1])
  }

  /** Running two plans one after the other is running their concatenation. */
  lemma {:induction false} ApplyStepsAppend(f: Fields, a: seq<Step>, b: seq<Step>)
    ensures ApplySteps(f, a + b) == ApplySteps(ApplySteps(f, a), b)
    decreases |b|
  {
    if b != [] {
      assert (a + b)[..|a + b| - 1] == a + b[..|b| - 1];
      assert (a + b)[|a + b| - 1] == b[|b| - 1];
      ApplyStepsAppend(f, a, b[..|b| - 1]);
      calc {
        ApplySteps(f, a + b);
        ApplyStep(ApplySteps(f, a + b[..|b| - 1]), b[|b| - 1]);
        ApplyStep(ApplySteps(ApplySteps(f, a), b[..|b| - 1]), b[|b| - 1]);
        ApplySteps(ApplySteps(f, a), b);
      }
    } else {
      assert a + b == a;
    }
  }

  lemma ApplyOne(f: Fields, s: Step)
    ensures ApplySteps(f, [s]) == ApplyStep(f, s)
  {
    assert [s][..0] == [];
  }

  /** A guarded setter of Date changes at most its own field. */
  lemma SetPiece(f: Fields, v: Value, name: FieldName, shift: int)
    requires SetIfTruthy(v, name, shift).Ok?
    ensures ApplySteps(f, SetIfTruthy(v, name, shift).value) ==
      if Truthy(v) then SetField(f, name, ToNumber(v).value + shift) else f
  {
    if Truthy(v) { ApplyOne(f, SetStep(name, ToNumber(v).value + shift)); }
  }

  lemma SetUnlessNullPiece(f: Fields, v: Value, name: FieldName, divisor: int)
    requires divisor > 0 && SetUnlessNull(v, name, divisor).Ok?
    ensures ApplySteps(f, SetUnlessNull(v, name, divisor).value) ==
      if !v.Null? && !v.Undefined? then SetField(f, name, Evaluate.TruncDiv(ToNumber(v).value, divisor)) else f
    ensures divisor == 1 && !v.Null? && !v.Undefined? ==> Evaluate.TruncDiv(ToNumber(v).value, divisor) == ToNumber(v).value
  {
    if !v.Null? && !v.Undefined? { ApplyOne(f, SetStep(name, Evaluate.TruncDiv(ToNumber(v).value, divisor))); }
  }

  /** A guarded delta adds its amount, or nothing. */
  lemma AddPiece(f: Fields, v: Value, u: Unit, divisor: int)
    requires divisor > 0 && AddIfTruthy(v, u, divisor).Ok?
    ensures ApplySteps(f, AddIfTruthy(v, u, divisor).value) == AddUnit(f, u, Evaluate.TruncDiv(Delta(v), divisor))
    ensures divisor == 1 ==> Evaluate.TruncDiv(Delta(v), divisor) == Delta(v)
  {
    if Truthy(v) { ApplyOne(f, AddStep(u, Evaluate.TruncDiv(ToNumber(v).value, divisor))); }
    else { assert AddUnit(f, u, 0) == f; }
  }

  /** A field value passed to a setter or to `add`; not a number is not modelled. */
  function Num(v: Value): Result<int>
  {
    var n := ToNumber(v);
    if n.Some? then Ok(n.value) else Err("date argument is not a number")
  }

  /** `if (v) date.<name>(v + shift)`. */
  function SetIfTruthy(v: Value, name: FieldName, shift: int): (r: Result<seq<Step>>)
    ensures !Truthy(v) ==> r == Ok([])
    ensures Truthy(v) && ToNumber(v).Some? ==> r == Ok([SetStep(name, ToNumber(v).value + shift)])
    ensures Truthy(v) && r.Ok? ==> |r.value| == 1
  {
    if !Truthy(v) then Ok([]) else var n :- Num(v); Ok([SetStep(name, n + shift)])
  }

  /** `if (v !== null) date.<name>(v / divisor)`: an undefined argument makes
      the call a getter (or, divided, a NaN the setter ignores). */
  function SetUnlessNull(v: Value, name: FieldName, divisor: int): (r: Result<seq<Step>>)
    requires divisor > 0
    ensures v.Null? || v.Undefined? ==> r == Ok([])
    ensures !v.Null? && !v.Undefined? && ToNumber(v).Some? ==>
      r == Ok([SetStep(name, Evaluate.TruncDiv(ToNumber(v).value, divisor))])
  {
    if v.Null? || v.Undefined? then Ok([])
    else var n :- Num(v); Ok([SetStep(name, Evaluate.TruncDiv(n, divisor))])
  }

  /** `if (v) date.add(v / divisor, unit)`. */
  function AddIfTruthy(v: Value, u: Unit, divisor: int): (r: Result<seq<Step>>)
    requires divisor > 0
    ensures !Truthy(v) ==> r == Ok([])
    ensures Truthy(v) && ToNumber(v).Some? ==> r == Ok([AddStep(u, Evaluate.TruncDiv(ToNumber(v).value, divisor))])
    ensures Truthy(v) && r.Ok? ==> |r.value| == 1
  {
    if !Truthy(v) then Ok([]) else var n :- Num(v); Ok([AddStep(u, Evaluate.TruncDiv(n, divisor))])
  }

  /** The date setters shared by Date and DateTime: year, month (1-based in
      the record), day, each only when truthy. */
  function DateSetters(y: Value, mo: Value, d: Value): Result<seq<Step>>
  {
    var sy :- SetIfTruthy(y, Year, 0);
    var smo :- SetIfTruthy(mo, Month, -1);
    var sd :- SetIfTruthy(d, Day, 0);
    Ok(sy + smo + sd)
  }

  /** The year, month and day deltas, each only when truthy. */
  function DateDeltas(dy: Value, dmo: Value, dd: Value): Result<seq<Step>>
  {
    var ay :- AddIfTruthy(dy, Years, 1);
    var amo :- AddIfTruthy(dmo, Months, 1);
    var ad :- AddIfTruthy(dd, Days, 1);
    Ok(ay + amo + ad)
  }

  /** DateTime's clock setters, each unless null; microseconds become milliseconds. */
  function ClockSetters(h: Value, mi: Value, s: Value, ms: Value): Result<seq<Step>>
  {
    var sh :- SetUnlessNull(h, Hour, 1);
    var smi :- SetUnlessNull(mi, Minute, 1);
    var ss :- SetUnlessNull(s, Second, 1);
    var sms :- SetUnlessNull(ms, Millisecond, 1000);
    Ok(sh + smi + ss + sms)
  }

  /** DateTime's clock deltas, each only when truthy. */
  function ClockDeltas(dh: Value, dmi: Value, ds: Value, dms: Value): Result<seq<Step>>
  {
    var ah :- AddIfTruthy(dh, Hours, 1);
    var ami :- AddIfTruthy(dmi, Minutes, 1);
    var as_ :- AddIfTruthy(ds, Seconds, 1);
    var ams :- AddIfTruthy(dms, Milliseconds, 1000);
    Ok(ah + ami + as_ + ams)
  }

  /** Date's calls: its setters, then its deltas. */
  function DatePlan(y: Value, mo: Value, d: Value, dy: Value, dmo: Value, dd: Value): Result<seq<Step>>
  {
    var sets :- DateSetters(y, mo, d);
    var adds :- DateDeltas(dy, dmo, dd);
    Ok(sets + adds)
  }

  /** DateTime's setters: the date setters, then the clock setters. */
  function DateTimeSetters(y: Value, mo: Value, d: Value, h: Value, mi: Value, s: Value, ms: Value)
    : Result<seq<Step>>
  {
    var dsets :- DateSetters(y, mo, d);
    var csets :- ClockSetters(h, mi, s, ms);
    Ok(dsets + csets)
  }

  /** DateTime's deltas: the date deltas, then the clock deltas. */
  function DateTimeDeltas(dy: Value, dmo: Value, dd: Value, dh: Value, dmi: Value, ds: Value, dms: Value)
    : Result<seq<Step>>
  {
    var dadds :- DateDeltas(dy, dmo, dd);
    var cadds :- ClockDeltas(dh, dmi, ds, dms);
    Ok(dadds + cadds)
  }

  /** DateTime's calls: the date setters, the clock setters, the date deltas,
      then the clock deltas. */
  function DateTimePlan(y: Value, mo: Value, d: Value, h: Value, mi: Value, s: Value, ms: Value,
                        dy: Value, dmo: Value, dd: Value, dh: Value, dmi: Value, ds: Value, dms: Value)
    : Result<seq<Step>>
  {
    var sets :- DateTimeSetters(y, mo, d, h, mi, s, ms);
    var adds :- DateTimeDeltas(dy, dmo, dd, dh, dmi, ds, dms);
    Ok(sets + adds)
  }

  /** Date's starting point for a start that is a real moment or no moment at
      all: a date-time start is cut to its day, a date start is used as it
      is, anything else gives today. A plain object that only claims to be a
      moment is handled by `DateNodeValue` before this. */
  function DateStart(start: Value, clock: Clock): (r: Fields)
    ensures start.Moment? && start.kind == DateTimeKind ==> r == Midnight(start.fields)
    ensures start.Moment? && start.kind == DateKind ==> r == start.fields
    ensures !(start.Moment? && start.kind in {DateKind, DateTimeKind}) ==> r == clock.today
  {
    if start.Moment? && start.kind == DateTimeKind then Midnight(start.fields)
    else if start.Moment? && start.kind == DateKind then start.fields
    else clock.today
  }

  /** DateTime's starting point for a start that is a real moment or no
      moment at all: a date start is combined with the current time of day, a
      date-time start is used as it is, anything else gives now. A plain
      object that only claims to be a moment is handled by
      `DateTimeNodeValue` before this. */
  function DateTimeStart(start: Value, clock: Clock): (r: Fields)
    ensures start.Moment? && start.kind == DateKind ==>
      r == Fields(start.fields.year, start.fields.month, start.fields.day, clock.timeOfDay.hour,
                  clock.timeOfDay.minute, clock.timeOfDay.second, clock.timeOfDay.millisecond)
    ensures start.Moment? && start.kind == DateTimeKind ==> r == start.fields
    ensures !(start.Moment? && start.kind in {DateKind, DateTimeKind}) ==> r == clock.now
  {
    if start.Moment? && start.kind == DateKind then
      Fields(start.fields.year, start.fields.month, start.fields.day, clock.timeOfDay.hour,
             clock.timeOfDay.minute, clock.timeOfDay.second, clock.timeOfDay.millisecond)
    else if start.Moment? && start.kind == DateTimeKind then start.fields
    else clock.now
  }

  /** `Date.eval_` on values (no aliasing) for a start that does not merely
      claim to be a moment: the result is always a date. */
  function DateEval(start: Value, y: Value, mo: Value, d: Value, dy: Value, dmo: Value, dd: Value,
                    clock: Clock): (r: Result<Value>)
    ensures r.Ok? ==> r.value.Moment? && r.value.kind == DateKind
  {
    var steps :- DatePlan(y, mo, d, dy, dmo, dd);
    Ok(Moment(DateKind, ApplySteps(DateStart(start, clock), steps)))
  }

  /** `DateTime.eval_` on values for a start that does not merely claim to be
      a moment: the result is always a date-time. */
  function DateTimeEval(start: Value, y: Value, mo: Value, d: Value, h: Value, mi: Value, s: Value, ms: Value,
                        dy: Value, dmo: Value, dd: Value, dh: Value, dmi: Value, ds: Value, dms: Value,
                        clock: Clock): (r: Result<Value>)
    ensures r.Ok? ==> r.value.Moment? && r.value.kind == DateTimeKind
  {
    var steps :- DateTimePlan(y, mo, d, h, mi, s, ms, dy, dmo, dd, dh, dmi, ds, dms);
    Ok(Moment(DateTimeKind, ApplySteps(DateTimeStart(start, clock), steps)))
  }

  // ---- starts that only claim to be moments --------------------------------

  /** The start is tested by property, not by type: a plain object whose
      `isDate` or `isDateTime` member is truthy passes the test, yet has none
      of a moment's methods. */
  predicate Claims(start: Value, flag: string)
  {
    start.Obj? && Truthy(Lookup(start.members, flag))
  }

  /** Whether `Date.eval_` calls a setter or `add` at all: each call is guarded
      by its field being truthy. */
  predicate DateCalls(y: Value, mo: Value, d: Value, dy: Value, dmo: Value, dd: Value)
  {
    Truthy(y) || Truthy(mo) || Truthy(d) || Truthy(dy) || Truthy(dmo) || Truthy(dd)
  }

  /** Whether `DateTime.eval_` calls a setter or `add` at all: the clock setters
      are guarded by `!== null`, so an undefined field calls one too. */
  predicate DateTimeCalls(y: Value, mo: Value, d: Value, h: Value, mi: Value, s: Value, ms: Value,
                          dy: Value, dmo: Value, dd: Value, dh: Value, dmi: Value, ds: Value, dms: Value)
  {
    DateCalls(y, mo, d, dy, dmo, dd) || !h.Null? || !mi.Null? || !s.Null? || !ms.Null? ||
    Truthy(dh) || Truthy(dmi) || Truthy(ds) || Truthy(dms)
  }

  /** `Date.eval_` on any start. A plain object claiming `isDateTime` throws at
      `date.year()`. One claiming only `isDate` is kept as the date: the first
      call on it throws, and with no call it is returned as it is. Any other
      start goes through `DateEval`. */
  function DateNodeValue(start: Value, y: Value, mo: Value, d: Value, dy: Value, dmo: Value, dd: Value,
                         clock: Clock): (r: Result<Value>)
    ensures Claims(start, "isDateTime") ==> r == Err("TypeError")
    ensures !Claims(start, "isDateTime") && Claims(start, "isDate") ==>
      (r.Ok? <==> !DateCalls(y, mo, d, dy, dmo, dd)) && (r.Ok? ==> r.value == start) &&
      (r.Err? ==> r.error == "TypeError")
    ensures !Claims(start, "isDateTime") && !Claims(start, "isDate") ==>
      r == DateEval(start, y, mo, d, dy, dmo, dd, clock)
  {
    if Claims(start, "isDateTime") then Err("TypeError")
    else if Claims(start, "isDate") then
      if DateCalls(y, mo, d, dy, dmo, dd) then Err("TypeError") else Ok(start)
    else DateEval(start, y, mo, d, dy, dmo, dd, clock)
  }

  /** `DateTime.eval_` on any start. A plain object claiming `isDate` goes to
      `Sao.DateTime.combine`, which needs the methods it lacks, and throws. One
      claiming only `isDateTime` is kept: the first call on it throws, and with
      no call it is returned as it is. Any other start goes through
      `DateTimeEval`. */
  function DateTimeNodeValue(start: Value, y: Value, mo: Value, d: Value, h: Value, mi: Value, s: Value, ms: Value,
                             dy: Value, dmo: Value, dd: Value, dh: Value, dmi: Value, ds: Value, dms: Value,
                             clock: Clock): (r: Result<Value>)
    ensures Claims(start, "isDate") ==> r == Err("TypeError")
    ensures !Claims(start, "isDate") && Claims(start, "isDateTime") ==>
      (r.Ok? <==> !DateTimeCalls(y, mo, d, h, mi, s, ms, dy, dmo, dd, dh, dmi, ds, dms)) &&
      (r.Ok? ==> r.value == start) && (r.Err? ==> r.error == "TypeError")
    ensures !Claims(start, "isDate") && !Claims(start, "isDateTime") ==>
      r == DateTimeEval(start, y, mo, d, h, mi, s, ms, dy, dmo, dd, dh, dmi, ds, dms, clock)
  {
    if Claims(start, "isDate") then Err("TypeError")
    else if Claims(start, "isDateTime") then
      if DateTimeCalls(y, mo, d, h, mi, s, ms, dy, dmo, dd, dh, dmi, ds, dms) then Err("TypeError") else Ok(start)
    else DateTimeEval(start, y, mo, d, h, mi, s, ms, dy, dmo, dd, dh, dmi, ds, dms, clock)
  }

  /** `{"isDate": true}` as Date's start comes back unchanged when no field is
      set, and throws once a day is added; `{"isDateTime": true}` throws in
      Date and is kept by DateTime; real moments are still evaluated. */
  lemma PlainObjectStarts(clock: Clock)
    ensures var o, u, z := Obj([("isDate", Boolean(true))]), Undefined, Number(0);
      DateNodeValue(o, u, u, u, z, z, z, clock) == Ok(o) &&
      DateNodeValue(o, u, u, u, z, z, Number(1), clock) == Err("TypeError") &&
      DateTimeNodeValue(o, u, u, u, Null, Null, Null, Null, z, z, z, z, z, z, z, clock) == Err("TypeError")
    ensures var o, u, z := Obj([("isDateTime", Boolean(true))]), Undefined, Number(0);
      DateNodeValue(o, u, u, u, z, z, z, clock) == Err("TypeError") &&
      DateTimeNodeValue(o, u, u, u, Null, Null, Null, Null, z, z, z, z, z, z, z, clock) == Ok(o) &&
      DateTimeNodeValue(o, u, u, u, Null, Null, Null, Number(5), z, z, z, z, z, z, z, clock) == Err("TypeError")
    ensures DateNodeValue(Obj([]), Undefined, Undefined, Undefined, Number(0), Number(0), Number(0), clock) ==
      Ok(Moment(DateKind, clock.today))
  {
  }

  /** A Date with no call to make behaves alike on a real date and on a plain
      object claiming `isDate`: both come back as the start itself. So the
      calls `DateNodeValue` guards against are exactly the steps `DatePlan`
      would apply to a real moment. */
  lemma DateCallsArePlanSteps(y: Value, mo: Value, d: Value, dy: Value, dmo: Value, dd: Value)
    ensures !DateCalls(y, mo, d, dy, dmo, dd) <==> DatePlan(y, mo, d, dy, dmo, dd) == Ok([])
  {
    if DatePlan(y, mo, d, dy, dmo, dd).Ok? {
      DatePlanPieces(y, mo, d, dy, dmo, dd);
      var sy, smo, sd := SetIfTruthy(y, Year, 0), SetIfTruthy(mo, Month, -1), SetIfTruthy(d, Day, 0);
      var ay, amo, ad := AddIfTruthy(dy, Years, 1), AddIfTruthy(dmo, Months, 1), AddIfTruthy(dd, Days, 1);
      assert DateSetters(y, mo, d).value == sy.value + smo.value + sd.value;
      assert DateDeltas(dy, dmo, dd).value == ay.value + amo.value + ad.value;
    }
  }

  /** The same for DateTime, one way only: with no call to make, no step is
      applied either. (An undefined clock field is a call, a getter, on a
      real moment, but applies no step.) */
  lemma DateTimeCallsCoverPlanSteps(y: Value, mo: Value, d: Value, h: Value, mi: Value, s: Value, ms: Value,
                                    dy: Value, dmo: Value, dd: Value, dh: Value, dmi: Value, ds: Value, dms: Value)
    ensures !DateTimeCalls(y, mo, d, h, mi, s, ms, dy, dmo, dd, dh, dmi, ds, dms) ==>
      DateTimePlan(y, mo, d, h, mi, s, ms, dy, dmo, dd, dh, dmi, ds, dms) == Ok([])
  {
    if !DateTimeCalls(y, mo, d, h, mi, s, ms, dy, dmo, dd, dh, dmi, ds, dms) {
      var e: seq<Step> := [];
      assert e + e + e == e && e + e + e + e == e && e + e == e;
      assert DateSetters(y, mo, d) == Ok([]);
      assert ClockSetters(h, mi, s, ms) == Ok([]);
      assert DateDeltas(dy, dmo, dd) == Ok([]);
      assert ClockDeltas(dh, dmi, ds, dms) == Ok([]);
      assert DateTimeSetters(y, mo, d, h, mi, s, ms) == Ok([]);
      assert DateTimeDeltas(dy, dmo, dd, dh, dmi, ds, dms) == Ok([]);
    }
  }

  /** The value a truthy field sets, else the starting value. */
  function Base(v: Value, start: int, shift: int): int
  {
    if Truthy(v) && ToNumber(v).Some? then ToNumber(v).value + shift else start
  }

  /** The amount a truthy delta adds, else 0. */
  function Delta(v: Value): int
  {
    if Truthy(v) && ToNumber(v).Some? then ToNumber(v).value else 0
  }

  /** Three runs of steps one after the other. */
  lemma ThreeRuns(f: Fields, a: seq<Step>, b: seq<Step>, c: seq<Step>)
    ensures ApplySteps(f, a + b + c) == ApplySteps(ApplySteps(ApplySteps(f, a), b), c)
  {
    ApplyStepsAppend(f, a, b);
    ApplyStepsAppend(f, a + b, c);
  }

  /** Four runs of steps one after the other. */
  lemma FourRuns(f: Fields, a: seq<Step>, b: seq<Step>, c: seq<Step>, d: seq<Step>)
    ensures ApplySteps(f, a + b + c + d) == ApplySteps(ApplySteps(ApplySteps(ApplySteps(f, a), b), c), d)
  {
    ThreeRuns(f, a, b, c);
    ApplyStepsAppend(f, a + b + c, d);
  }

  /** Two runs, the second from where the first ends. */
  lemma Chain2(f: Fields, a: seq<Step>, b: seq<Step>, g1: Fields, g2: Fields)
    requires ApplySteps(f, a) == g1 && ApplySteps(g1, b) == g2
    ensures ApplySteps(f, a + b) == g2
  {
    ApplyStepsAppend(f, a, b);
  }

  /** Three runs, each from where the previous one ends. */
  lemma Chain3(f: Fields, a: seq<Step>, b: seq<Step>, c: seq<Step>, g1: Fields, g2: Fields, g3: Fields)
    requires ApplySteps(f, a) == g1 && ApplySteps(g1, b) == g2 && ApplySteps(g2, c) == g3
    ensures ApplySteps(f, a + b + c) == g3
  {
    ThreeRuns(f, a, b, c);
  }

  /** Four runs, each from where the previous one ends. */
  lemma Chain4(f: Fields, a: seq<Step>, b: seq<Step>, c: seq<Step>, d: seq<Step>,
               g1: Fields, g2: Fields, g3: Fields, g4: Fields)
    requires ApplySteps(f, a) == g1 && ApplySteps(g1, b) == g2 && ApplySteps(g2, c) == g3 && ApplySteps(g3, d) == g4
    ensures ApplySteps(f, a + b + c + d) == g4
  {
    FourRuns(f, a, b, c, d);
  }

  /** The date setters overwrite year, month and day with the truthy fields. */
  lemma DateSettersFields(f: Fields, y: Value, mo: Value, d: Value)
    requires DateSetters(y, mo, d).Ok?
    ensures ApplySteps(f, DateSetters(y, mo, d).value) ==
      f.(year := Base(y, f.year, 0), month := Base(mo, f.month, -1), day := Base(d, f.day, 0))
  {
    DateSettersPieces(y, mo, d);
    var sy, smo, sd := SetIfTruthy(y, Year, 0).value, SetIfTruthy(mo, Month, -1).value, SetIfTruthy(d, Day, 0).value;
    var g1 := f.(year := Base(y, f.year, 0));
    var g2 := g1.(month := Base(mo, f.month, -1));
    var g3 := g2.(day := Base(d, f.day, 0));
    SetPiece(f, y, Year, 0);
    SetPiece(g1, mo, Month, -1);
    SetPiece(g2, d, Day, 0);
    Chain3(f, sy, smo, sd, g1, g2, g3);
  }

  /** The date deltas add to year, month and day. */
  lemma DateDeltasFields(f: Fields, dy: Value, dmo: Value, dd: Value)
    requires DateDeltas(dy, dmo, dd).Ok?
    ensures ApplySteps(f, DateDeltas(dy, dmo, dd).value) ==
      f.(year := f.year + Delta(dy), month := f.month + Delta(dmo), day := f.day + Delta(dd))
  {
    DateDeltasPieces(dy, dmo, dd);
    var ay, amo, ad := AddIfTruthy(dy, Years, 1).value, AddIfTruthy(dmo, Months, 1).value, AddIfTruthy(dd, Days, 1).value;
    var g1 := f.(year := f.year + Delta(dy));
    var g2 := g1.(month := f.month + Delta(dmo));
    var g3 := g2.(day := f.day + Delta(dd));
    AddPiece(f, dy, Years, 1);
    AddPiece(g1, dmo, Months, 1);
    AddPiece(g2, dd, Days, 1);
    Chain3(f, ay, amo, ad, g1, g2, g3);
  }

  lemma DateSettersPieces(y: Value, mo: Value, d: Value)
    requires DateSetters(y, mo, d).Ok?
    ensures SetIfTruthy(y, Year, 0).Ok? && SetIfTruthy(mo, Month, -1).Ok? && SetIfTruthy(d, Day, 0).Ok?
    ensures DateSetters(y, mo, d).value
      == SetIfTruthy(y, Year, 0).value + SetIfTruthy(mo, Month, -1).value + SetIfTruthy(d, Day, 0).value
  {
  }

  lemma DateDeltasPieces(dy: Value, dmo: Value, dd: Value)
    requires DateDeltas(dy, dmo, dd).Ok?
    ensures AddIfTruthy(dy, Years, 1).Ok? && AddIfTruthy(dmo, Months, 1).Ok? && AddIfTruthy(dd, Days, 1).Ok?
    ensures DateDeltas(dy, dmo, dd).value
      == AddIfTruthy(dy, Years, 1).value + AddIfTruthy(dmo, Months, 1).value + AddIfTruthy(dd, Days, 1).value
  {
  }

  /** The clock setters overwrite the clock fields that are not null. */
  lemma ClockSettersFields(f: Fields, h: Value, mi: Value, s: Value, ms: Value)
    requires ClockSetters(h, mi, s, ms).Ok?
    ensures ApplySteps(f, ClockSetters(h, mi, s, ms).value) ==
      f.(hour := Kept(h, f.hour), minute := Kept(mi, f.minute), second := Kept(s, f.second),
         millisecond := KeptMillis(ms, f.millisecond))
  {
    var sh, smi := SetUnlessNull(h, Hour, 1).value, SetUnlessNull(mi, Minute, 1).value;
    var ss, sms := SetUnlessNull(s, Second, 1).value, SetUnlessNull(ms, Millisecond, 1000).value;
    var g1 := f.(hour := Kept(h, f.hour));
    var g2 := g1.(minute := Kept(mi, f.minute));
    var g3 := g2.(second := Kept(s, f.second));
    var g4 := g3.(millisecond := KeptMillis(ms, f.millisecond));
    SetUnlessNullPiece(f, h, Hour, 1);
    SetUnlessNullPiece(g1, mi, Minute, 1);
    SetUnlessNullPiece(g2, s, Second, 1);
    SetUnlessNullPiece(g3, ms, Millisecond, 1000);
    Chain4(f, sh, smi, ss, sms, g1, g2, g3, g4);
  }

  lemma ClockDeltasPieces(dh: Value, dmi: Value, ds: Value, dms: Value)
    requires ClockDeltas(dh, dmi, ds, dms).Ok?
    ensures AddIfTruthy(dh, Hours, 1).Ok? && AddIfTruthy(dmi, Minutes, 1).Ok?
    ensures AddIfTruthy(ds, Seconds, 1).Ok? && AddIfTruthy(dms, Milliseconds, 1000).Ok?
    ensures ClockDeltas(dh, dmi, ds, dms).value == AddIfTruthy(dh, Hours, 1).value + AddIfTruthy(dmi, Minutes, 1).value
      + AddIfTruthy(ds, Seconds, 1).value + AddIfTruthy(dms, Milliseconds, 1000).value
  {
  }

  /** The clock deltas add to the clock fields; microseconds become milliseconds. */
  lemma ClockDeltasFields(f: Fields, dh: Value, dmi: Value, ds: Value, dms: Value)
    requires ClockDeltas(dh, dmi, ds, dms).Ok?
    ensures ApplySteps(f, ClockDeltas(dh, dmi, ds, dms).value) ==
      f.(hour := f.hour + Delta(dh), minute := f.minute + Delta(dmi), second := f.second + Delta(ds),
         millisecond := f.millisecond + Evaluate.TruncDiv(Delta(dms), 1000))
  {
    ClockDeltasPieces(dh, dmi, ds, dms);
    ClockAddsFields(f, dh, dmi, ds, dms);
  }

  lemma ClockAddsFields(f: Fields, dh: Value, dmi: Value, ds: Value, dms: Value)
    requires AddIfTruthy(dh, Hours, 1).Ok? && AddIfTruthy(dmi, Minutes, 1).Ok?
    requires AddIfTruthy(ds, Seconds, 1).Ok? && AddIfTruthy(dms, Milliseconds, 1000).Ok?
    ensures ApplySteps(f, AddIfTruthy(dh, Hours, 1).value + AddIfTruthy(dmi, Minutes, 1).value
                          + AddIfTruthy(ds, Seconds, 1).value + AddIfTruthy(dms, Milliseconds, 1000).value) ==
      f.(hour := f.hour + Delta(dh), minute := f.minute + Delta(dmi), second := f.second + Delta(ds),
         millisecond := f.millisecond + Evaluate.TruncDiv(Delta(dms), 1000))
  {
    var ah, ami := AddIfTruthy(dh, Hours, 1).value, AddIfTruthy(dmi, Minutes, 1).value;
    var as_, ams := AddIfTruthy(ds, Seconds, 1).value, AddIfTruthy(dms, Milliseconds, 1000).value;
    var g1 := f.(hour := f.hour + Delta(dh));
    var g2 := g1.(minute := f.minute + Delta(dmi));
    var g3 := g2.(second := f.second + Delta(ds));
    var g4 := g3.(millisecond := f.millisecond + Evaluate.TruncDiv(Delta(dms), 1000));
    AddPiece(f, dh, Hours, 1);
    AddPiece(g1, dmi, Minutes, 1);
    AddPiece(g2, ds, Seconds, 1);
    AddPiece(g3, dms, Milliseconds, 1000);
    Chain4(f, ah, ami, as_, ams, g1, g2, g3, g4);
  }

  lemma DateTimePlanPieces(y: Value, mo: Value, d: Value, h: Value, mi: Value, s: Value, ms: Value,
                            dy: Value, dmo: Value, dd: Value, dh: Value, dmi: Value, ds: Value, dms: Value)
    requires DateTimePlan(y, mo, d, h, mi, s, ms, dy, dmo, dd, dh, dmi, ds, dms).Ok?
    ensures DateTimeSetters(y, mo, d, h, mi, s, ms).Ok? && DateTimeDeltas(dy, dmo, dd, dh, dmi, ds, dms).Ok?
    ensures DateTimePlan(y, mo, d, h, mi, s, ms, dy, dmo, dd, dh, dmi, ds, dms).value ==
      DateTimeSetters(y, mo, d, h, mi, s, ms).value + DateTimeDeltas(dy, dmo, dd, dh, dmi, ds, dms).value
  {
  }

  /** Field by field, a Date is its set-or-kept field plus its delta; the clock
      fields of the start are kept. So every setter is applied before every
      delta. */
  lemma DateEvalFields(start: Value, y: Value, mo: Value, d: Value, dy: Value, dmo: Value, dd: Value, clock: Clock)
    requires DateEval(start, y, mo, d, dy, dmo, dd, clock).Ok?
    ensures var f, b := DateEval(start, y, mo, d, dy, dmo, dd, clock).value.fields, DateStart(start, clock);
      f == Fields(Base(y, b.year, 0) + Delta(dy), Base(mo, b.month, -1) + Delta(dmo), Base(d, b.day, 0) + Delta(dd),
                  b.hour, b.minute, b.second, b.millisecond)
  {
    DatePlanFields(DateStart(start, clock), y, mo, d, dy, dmo, dd);
  }

  /** The closed form of Date's calls from any starting point. */
  lemma DatePlanFields(b: Fields, y: Value, mo: Value, d: Value, dy: Value, dmo: Value, dd: Value)
    requires DatePlan(y, mo, d, dy, dmo, dd).Ok?
    ensures ApplySteps(b, DatePlan(y, mo, d, dy, dmo, dd).value) ==
      Fields(Base(y, b.year, 0) + Delta(dy), Base(mo, b.month, -1) + Delta(dmo), Base(d, b.day, 0) + Delta(dd),
             b.hour, b.minute, b.second, b.millisecond)
  {
    DatePlanPieces(y, mo, d, dy, dmo, dd);
    var sets, adds := DateSetters(y, mo, d).value, DateDeltas(dy, dmo, dd).value;
    ApplyStepsAppend(b, sets, adds);
    DateSettersFields(b, y, mo, d);
    DateDeltasFields(ApplySteps(b, sets), dy, dmo, dd);
  }

  lemma DatePlanPieces(y: Value, mo: Value, d: Value, dy: Value, dmo: Value, dd: Value)
    requires DatePlan(y, mo, d, dy, dmo, dd).Ok?
    ensures DateSetters(y, mo, d).Ok? && DateDeltas(dy, dmo, dd).Ok?
    ensures DatePlan(y, mo, d, dy, dmo, dd).value == DateSetters(y, mo, d).value + DateDeltas(dy, dmo, dd).value
  {
  }

  /** The same for DateTime: set-or-kept fields (a null or undefined clock
      field keeps the start's), then every delta. */
  lemma DateTimeEvalFields(start: Value, y: Value, mo: Value, d: Value, h: Value, mi: Value, s: Value, ms: Value,
                           dy: Value, dmo: Value, dd: Value, dh: Value, dmi: Value, ds: Value, dms: Value, clock: Clock)
    requires DateTimeEval(start, y, mo, d, h, mi, s, ms, dy, dmo, dd, dh, dmi, ds, dms, clock).Ok?
    ensures var f := DateTimeEval(start, y, mo, d, h, mi, s, ms, dy, dmo, dd, dh, dmi, ds, dms, clock).value.fields;
      var b := DateTimeStart(start, clock);
      f == Fields(Base(y, b.year, 0) + Delta(dy), Base(mo, b.month, -1) + Delta(dmo), Base(d, b.day, 0) + Delta(dd),
                  Kept(h, b.hour) + Delta(dh), Kept(mi, b.minute) + Delta(dmi),
                  Kept(s, b.second) + Delta(ds),
                  KeptMillis(ms, b.millisecond) + Evaluate.TruncDiv(Delta(dms), 1000))
  {
    DateTimePlanFields(DateTimeStart(start, clock), y, mo, d, h, mi, s, ms, dy, dmo, dd, dh, dmi, ds, dms);
  }

  /** The closed form of DateTime's calls from any starting point. */
  lemma DateTimePlanFields(b: Fields, y: Value, mo: Value, d: Value, h: Value, mi: Value, s: Value, ms: Value,
                           dy: Value, dmo: Value, dd: Value, dh: Value, dmi: Value, ds: Value, dms: Value)
    requires DateTimePlan(y, mo, d, h, mi, s, ms, dy, dmo, dd, dh, dmi, ds, dms).Ok?
    ensures ApplySteps(b, DateTimePlan(y, mo, d, h, mi, s, ms, dy, dmo, dd, dh, dmi, ds, dms).value) ==
      Fields(Base(y, b.year, 0) + Delta(dy), Base(mo, b.month, -1) + Delta(dmo), Base(d, b.day, 0) + Delta(dd),
             Kept(h, b.hour) + Delta(dh), Kept(mi, b.minute) + Delta(dmi),
             Kept(s, b.second) + Delta(ds),
             KeptMillis(ms, b.millisecond) + Evaluate.TruncDiv(Delta(dms), 1000))
  {
    DateTimePlanPieces(y, mo, d, h, mi, s, ms, dy, dmo, dd, dh, dmi, ds, dms);
    DateTimeStages(b, y, mo, d, h, mi, s, ms, dy, dmo, dd, dh, dmi, ds, dms);
  }

  /** The setters' run, then the deltas' run. */
  lemma DateTimeStages(b: Fields, y: Value, mo: Value, d: Value, h: Value, mi: Value, s: Value, ms: Value,
                       dy: Value, dmo: Value, dd: Value, dh: Value, dmi: Value, ds: Value, dms: Value)
    requires DateTimeSetters(y, mo, d, h, mi, s, ms).Ok? && DateTimeDeltas(dy, dmo, dd, dh, dmi, ds, dms).Ok?
    ensures ApplySteps(b, DateTimeSetters(y, mo, d, h, mi, s, ms).value + DateTimeDeltas(dy, dmo, dd, dh, dmi, ds, dms).value) ==
      Fields(Base(y, b.year, 0) + Delta(dy), Base(mo, b.month, -1) + Delta(dmo), Base(d, b.day, 0) + Delta(dd),
             Kept(h, b.hour) + Delta(dh), Kept(mi, b.minute) + Delta(dmi),
             Kept(s, b.second) + Delta(ds),
             KeptMillis(ms, b.millisecond) + Evaluate.TruncDiv(Delta(dms), 1000))
  {
    DateTimeSettersThen(b, y, mo, d, h, mi, s, ms, dy, dmo, dd, dh, dmi, ds, dms);
    DateTimeDeltasFields(Base(y, b.year, 0), Base(mo, b.month, -1), Base(d, b.day, 0), Kept(h, b.hour),
                         Kept(mi, b.minute), Kept(s, b.second), KeptMillis(ms, b.millisecond),
                         dy, dmo, dd, dh, dmi, ds, dms);
  }

  /** DateTime's setters: date fields when truthy, clock fields unless null. */
  /** After the setters, the deltas run from the set fields. */
  lemma DateTimeSettersThen(b: Fields, y: Value, mo: Value, d: Value, h: Value, mi: Value, s: Value, ms: Value,
                            dy: Value, dmo: Value, dd: Value, dh: Value, dmi: Value, ds: Value, dms: Value)
    ensures DateTimeSetters(y, mo, d, h, mi, s, ms).Ok? && DateTimeDeltas(dy, dmo, dd, dh, dmi, ds, dms).Ok? ==>
      ApplySteps(b, DateTimeSetters(y, mo, d, h, mi, s, ms).value + DateTimeDeltas(dy, dmo, dd, dh, dmi, ds, dms).value) ==
      ApplySteps(Fields(Base(y, b.year, 0), Base(mo, b.month, -1), Base(d, b.day, 0),
                        Kept(h, b.hour), Kept(mi, b.minute), Kept(s, b.second), KeptMillis(ms, b.millisecond)),
                 DateTimeDeltas(dy, dmo, dd, dh, dmi, ds, dms).value)
  {
    if DateTimeSetters(y, mo, d, h, mi, s, ms).Ok? && DateTimeDeltas(dy, dmo, dd, dh, dmi, ds, dms).Ok? {
      ApplyStepsAppend(b, DateTimeSetters(y, mo, d, h, mi, s, ms).value, DateTimeDeltas(dy, dmo, dd, dh, dmi, ds, dms).value);
      DateTimeSettersFields(b, y, mo, d, h, mi, s, ms);
    }
  }

  lemma DateTimeSettersFields(b: Fields, y: Value, mo: Value, d: Value, h: Value, mi: Value, s: Value, ms: Value)
    requires DateTimeSetters(y, mo, d, h, mi, s, ms).Ok?
    ensures ApplySteps(b, DateTimeSetters(y, mo, d, h, mi, s, ms).value) ==
      Fields(Base(y, b.year, 0), Base(mo, b.month, -1), Base(d, b.day, 0),
             Kept(h, b.hour), Kept(mi, b.minute), Kept(s, b.second), KeptMillis(ms, b.millisecond))
  {
    DateTimeSettersPieces(y, mo, d, h, mi, s, ms);
    var g := b.(year := Base(y, b.year, 0), month := Base(mo, b.month, -1), day := Base(d, b.day, 0));
    DateSettersFields(b, y, mo, d);
    ClockSettersFields(g, h, mi, s, ms);
    Chain2(b, DateSetters(y, mo, d).value, ClockSetters(h, mi, s, ms).value, g, ApplySteps(g, ClockSetters(h, mi, s, ms).value));
  }

  lemma DateTimeSettersPieces(y: Value, mo: Value, d: Value, h: Value, mi: Value, s: Value, ms: Value)
    requires DateTimeSetters(y, mo, d, h, mi, s, ms).Ok?
    ensures DateSetters(y, mo, d).Ok? && ClockSetters(h, mi, s, ms).Ok?
    ensures DateTimeSetters(y, mo, d, h, mi, s, ms).value == DateSetters(y, mo, d).value + ClockSetters(h, mi, s, ms).value
  {
  }

  /** DateTime's deltas: every field moves by its delta. */
  lemma DateTimeDeltasFields(year: int, month: int, day: int, hour: int, minute: int, second: int, millisecond: int,
                             dy: Value, dmo: Value, dd: Value, dh: Value, dmi: Value, ds: Value, dms: Value)
    ensures DateTimeDeltas(dy, dmo, dd, dh, dmi, ds, dms).Ok? ==>
      ApplySteps(Fields(year, month, day, hour, minute, second, millisecond),
                 DateTimeDeltas(dy, dmo, dd, dh, dmi, ds, dms).value) ==
      Fields(year + Delta(dy), month + Delta(dmo), day + Delta(dd), hour + Delta(dh),
             minute + Delta(dmi), second + Delta(ds), millisecond + Evaluate.TruncDiv(Delta(dms), 1000))
  {
    if DateTimeDeltas(dy, dmo, dd, dh, dmi, ds, dms).Ok? {
      DateTimeDeltasPieces(dy, dmo, dd, dh, dmi, ds, dms);
      DateTimeDeltasRun(year, month, day, hour, minute, second, millisecond, dy, dmo, dd, dh, dmi, ds, dms);
    }
  }

  lemma DateTimeDeltasRun(year: int, month: int, day: int, hour: int, minute: int, second: int, millisecond: int,
                          dy: Value, dmo: Value, dd: Value, dh: Value, dmi: Value, ds: Value, dms: Value)
    requires DateDeltas(dy, dmo, dd).Ok? && ClockDeltas(dh, dmi, ds, dms).Ok?
    ensures ApplySteps(Fields(year, month, day, hour, minute, second, millisecond),
                       DateDeltas(dy, dmo, dd).value + ClockDeltas(dh, dmi, ds, dms).value) ==
      Fields(year + Delta(dy), month + Delta(dmo), day + Delta(dd), hour + Delta(dh),
             minute + Delta(dmi), second + Delta(ds), millisecond + Evaluate.TruncDiv(Delta(dms), 1000))
  {
    var g := Fields(year, month, day, hour, minute, second, millisecond);
    var a, b := DateDeltas(dy, dmo, dd).value, ClockDeltas(dh, dmi, ds, dms).value;
    var g1 := Fields(year + Delta(dy), month + Delta(dmo), day + Delta(dd), hour, minute, second, millisecond);
    var g2 := Fields(year + Delta(dy), month + Delta(dmo), day + Delta(dd), hour + Delta(dh),
                     minute + Delta(dmi), second + Delta(ds), millisecond + Evaluate.TruncDiv(Delta(dms), 1000));
    DatePartRun(g, g1, dy, dmo, dd);
    ClockPartRun(g1, g2, dh, dmi, ds, dms);
    Chain2(g, a, b, g1, g2);
  }

  lemma DatePartRun(g: Fields, g1: Fields, dy: Value, dmo: Value, dd: Value)
    requires DateDeltas(dy, dmo, dd).Ok?
    requires g1 == g.(year := g.year + Delta(dy), month := g.month + Delta(dmo), day := g.day + Delta(dd))
    ensures ApplySteps(g, DateDeltas(dy, dmo, dd).value) == g1
  {
    DateDeltasFields(g, dy, dmo, dd);
  }

  lemma ClockPartRun(g1: Fields, g2: Fields, dh: Value, dmi: Value, ds: Value, dms: Value)
    requires ClockDeltas(dh, dmi, ds, dms).Ok?
    requires g2 == g1.(hour := g1.hour + Delta(dh), minute := g1.minute + Delta(dmi), second := g1.second + Delta(ds),
                       millisecond := g1.millisecond + Evaluate.TruncDiv(Delta(dms), 1000))
    ensures ApplySteps(g1, ClockDeltas(dh, dmi, ds, dms).value) == g2
  {
    ClockDeltasFields(g1, dh, dmi, ds, dms);
  }

  lemma DateTimeDeltasPieces(dy: Value, dmo: Value, dd: Value, dh: Value, dmi: Value, ds: Value, dms: Value)
    requires DateTimeDeltas(dy, dmo, dd, dh, dmi, ds, dms).Ok?
    ensures DateDeltas(dy, dmo, dd).Ok? && ClockDeltas(dh, dmi, ds, dms).Ok?
    ensures DateTimeDeltas(dy, dmo, dd, dh, dmi, ds, dms).value == DateDeltas(dy, dmo, dd).value + ClockDeltas(dh, dmi, ds, dms).value
  {
  }

  /** The clock field a DateTime setter leaves: the set value unless null or undefined. */
  function Kept(v: Value, start: int): int
  {
    if !v.Null? && !v.Undefined? && ToNumber(v).Some? then ToNumber(v).value else start
  }

  /** The same for the millisecond field, set from microseconds divided by 1000. */
  function KeptMillis(v: Value, start: int): int
  {
    if !v.Null? && !v.Undefined? && ToNumber(v).Some? then Evaluate.TruncDiv(ToNumber(v).value, 1000) else start
  }

  // ---- the date object, mutated in place -----------------------------------

  /** The starting fields for a node of the given kind. */
  function StartFor(target: MomentKind, start: Value, clock: Clock): Fields
  {
    if target == DateKind then DateStart(start, clock) else DateTimeStart(start, clock)
  }

  /** The calls of a plan, one by one, on the date object. */
  method ApplyPlan(date: MomentCell, steps: seq<Step>)
    modifies date
    ensures date.kind == old(date.kind)
    ensures date.fields == ApplySteps(old(date.fields), steps)
  {
    for i := 0 to |steps|
      invariant date.kind == old(date.kind)
      invariant date.fields == ApplySteps(old(date.fields), steps[..i])
    {
      assert steps[..i + 1][..i] == steps[..i];
      match steps[i]
      case SetStep(name, x) => date.Set(name, x);
      case AddStep(u, n) => date.Add(u, n);
    }
    assert steps[..|steps|] == steps;
  }

  /** `Date.eval_` / `DateTime.eval_` as written: a start that already has the
      node's kind is the object the calls mutate, so the caller's moment
      changes. */
  method EvalInPlace(target: MomentKind, start: MomentCell?, steps: seq<Step>, clock: Clock) returns (date: MomentCell)
    requires target == DateKind || target == DateTimeKind
    modifies start
    ensures date.kind == target
    ensures start != null ==> date.fields == ApplySteps(StartFor(target, Moment(old(start.kind), old(start.fields)), clock), steps)
    ensures start == null ==> date.fields == ApplySteps(StartFor(target, Null, clock), steps)
    ensures start != null && old(start.kind) == target ==> date == start
  {
    if start != null && start.kind == target {
      date := start;
    } else {
      var f := StartFor(target, if start == null then Null else Moment(start.kind, start.fields), clock);
      date := new MomentCell(target, f);
    }
    ApplyPlan(date, steps);
  }

  /** The evidently intended evaluation: the calls run on a fresh object and
      the start is left alone. */
  method EvalFresh(target: MomentKind, start: MomentCell?, steps: seq<Step>, clock: Clock) returns (date: MomentCell)
    requires target == DateKind || target == DateTimeKind
    ensures fresh(date) && date.kind == target
    ensures date.fields == ApplySteps(StartFor(target, if start == null then Null else Moment(start.kind, start.fields), clock), steps)
  {
    var f := StartFor(target, if start == null then Null else Moment(start.kind, start.fields), clock);
    date := new MomentCell(target, f);
    ApplyPlan(date, steps);
  }

  /** The fresh evaluation agrees with `DateEval` on values. */
  lemma EvalFreshMatchesDateEval(start: Value, y: Value, mo: Value, d: Value, dy: Value, dmo: Value, dd: Value, clock: Clock)
    requires DatePlan(y, mo, d, dy, dmo, dd).Ok?
    ensures DateEval(start, y, mo, d, dy, dmo, dd, clock) ==
      Ok(Moment(DateKind, ApplySteps(StartFor(DateKind, start, clock), DatePlan(y, mo, d, dy, dmo, dd).value)))
  {
  }

  /** Evaluating `Date(start=Eval('date'), delta_days=1)` against a context
      whose `date` is 2000-01-01 leaves that context date at 2000-01-02. */
  method ContextDateAdvances(clock: Clock) returns (contextDate: MomentCell, result: MomentCell)
    ensures result == contextDate
    ensures contextDate.fields == Fields(2000, 0, 2, 0, 0, 0, 0)
  {
    contextDate := new MomentCell(DateKind, Fields(2000, 0, 1, 0, 0, 0, 0));
    var steps := DatePlan(Null, Null, Null, Number(0), Number(0), Number(1));
    assert Evaluate.TruncDiv(1, 1) == 1;
    assert AddIfTruthy(Number(1), Days, 1) == Ok([AddStep(Days, 1)]);
    assert [] + [] + [AddStep(Days, 1)] == [AddStep(Days, 1)];
    assert DateDeltas(Number(0), Number(0), Number(1)) == Ok([AddStep(Days, 1)]);
    assert DateSetters(Null, Null, Null) == Ok([]);
    assert [] + [AddStep(Days, 1)] == [AddStep(Days, 1)];
    assert steps == Ok([AddStep(Days, 1)]);
    assert ApplySteps(Fields(2000, 0, 1, 0, 0, 0, 0), [AddStep(Days, 1)]) == Fields(2000, 0, 2, 0, 0, 0, 0);
    result := EvalInPlace(DateKind, contextDate, steps.value, clock);
  }
}

=== FILE: decoder.dfy ===
/** `Decoder`: `JSON.parse` with a reviver that replaces every tagged record,
    innermost first, by its evaluation (or, in noeval mode, by the rebuilt
    node). The model walks a JSON tree rather than text. */
module Decoding {
  import opened Wrappers
  import opened Values
  import opened Calendar
  import opened Nodes
  import opened Evaluate
  import opened Dates
  import opened Encoding

  /** `context || {}`: a missing or falsy context is an empty object. */
  function DecoderContext(context: Value): (r: Value)
    ensures Truthy(context) ==> r == context
    ensures !Truthy(context) ==> r == Obj([])
  {
    if Truthy(context) then context else Obj([])
  }

  /** Names that `Sao.PYSON[...]` resolves to something other than a node
      class: its other members and the properties every object inherits. Their
      `eval_` and `init_from_object` are not functions. */
  const OtherMembers: set<string> := {"eval", "toString", "Encoder", "Decoder", "constructor",
    "hasOwnProperty", "isPrototypeOf", "propertyIsEnumerable", "toLocaleString", "valueOf", "__proto__",
    "__defineGetter__", "__defineSetter__", "__lookupGetter__", "__lookupSetter__"}

  /** `cls.eval_(v, context)` for a node class: the record's fields, already
      revived, are read by key. */
  function EvalRecord(tag: string, v: seq<(string, Value)>, ctx: Value, clock: Clock): Result<Value>
    requires tag in NodeTags
  {
    match tag
    case "Eval" => EvalValue(Lookup(v, "v"), Lookup(v, "d"), ctx)
    case "Not" => Ok(NotValue(Lookup(v, "v")))
    case "Bool" => Ok(Boolean(BoolValue(Lookup(v, "v"))))
    case "And" => AndValue(Lookup(v, "s"))
    case "Or" => OrValue(Lookup(v, "s"))
    case "Equal" => Ok(Boolean(EqualValues(Lookup(v, "s1"), Lookup(v, "s2"))))
    case "Greater" => Ok(Boolean(GreaterValue(Lookup(v, "s1"), Lookup(v, "s2"), Lookup(v, "e"))))
    case "Less" => Ok(Boolean(LessValue(Lookup(v, "s1"), Lookup(v, "s2"), Lookup(v, "e"))))
    case "If" => Ok(IfValue(Lookup(v, "c"), Lookup(v, "t"), Lookup(v, "e")))
    case "Get" => GetValue(Lookup(v, "v"), Lookup(v, "k"), Lookup(v, "d"))
    case "In" => InValue(Lookup(v, "k"), Lookup(v, "v"))
    case "Date" =>
      DateNodeValue(Lookup(v, "start"), Lookup(v, "y"), Lookup(v, "M"), Lookup(v, "d"),
                    Lookup(v, "dy"), Lookup(v, "dM"), Lookup(v, "dd"), clock)
    case "DateTime" =>
      DateTimeNodeValue(Lookup(v, "start"), Lookup(v, "y"), Lookup(v, "M"), Lookup(v, "d"), Lookup(v, "h"),
                        Lookup(v, "m"), Lookup(v, "s"), Lookup(v, "ms"), Lookup(v, "dy"), Lookup(v, "dM"),
                        Lookup(v, "dd"), Lookup(v, "dh"), Lookup(v, "dm"), Lookup(v, "ds"), Lookup(v, "dms"), clock)
    case "TimeDelta" => TimeDeltaValue(Lookup(v, "d"), Lookup(v, "s"), Lookup(v, "m"))
    case "Len" => LenValue(Lookup(v, "v"))
  }

  /** `delete args.__class__` on a copy of the record. */
  function WithoutKey(ms: seq<(string, Value)>, key: string): (r: seq<(string, Value)>)
    ensures forall i :: 0 <= i < |r| ==> r[i].0 != key
    ensures (forall i :: 0 <= i < |ms| ==> ms[i].0 != key) ==> r == ms
  {
    if ms == [] then []
    else if ms[0].0 == key then WithoutKey(ms[1..], key)
    else [ms[0]] + WithoutKey(ms[1..], key)
  }

  /** The reviver on a record whose `__class__` names a node class: in noeval
      mode the node rebuilt by `init_from_object`, otherwise its `eval_`. */
  function ReviveNode(tag: string, ms: seq<(string, Value)>, ctx: Value, noeval: bool, clock: Clock)
    : Result<Value>
    requires tag in NodeTags
  {
    if noeval then
      var n :- FromObject(tag, WithoutKey(ms, "__class__"));
      Ok(Expr(n))
    else EvalRecord(tag, ms, ctx, clock)
  }

  /** The class a record names: `Sao.PYSON[value.__class__]`, by its key. */
  function ClassOf(ms: seq<(string, Value)>): string
  {
    PropertyKey(Lookup(ms, "__class__"))
  }

  /** No name of a node class is another member of `Sao.PYSON`. */
  lemma OtherMembersAreNotNodes()
    ensures NodeTags * (OtherMembers + {"PYSON"}) == {}
  {
  }

  /** The reviver on an object whose members are already revived: a record
      naming a node class is replaced, one naming another member of
      `Sao.PYSON` throws, any other object is kept. */
  function Revive(ms: seq<(string, Value)>, ctx: Value, noeval: bool, clock: Clock): (r: Result<Value>)
    ensures ClassOf(ms) !in NodeTags && ClassOf(ms) !in OtherMembers && ClassOf(ms) != "PYSON" ==> r == Ok(Obj(ms))
    ensures ClassOf(ms) !in NodeTags && (ClassOf(ms) in OtherMembers || ClassOf(ms) == "PYSON") ==> r.Err?
  {
    var tag := ClassOf(ms);
    if tag in NodeTags then ReviveNode(tag, ms, ctx, noeval, clock)
    else if tag == "PYSON" then Err("NotImplementedError")
    else if tag in OtherMembers then Err("TypeError")
    else Ok(Obj(ms))
  }

  /** `decode` on a JSON tree: children first, then the reviver. An object
      member revived to undefined is deleted; an array keeps the slot. */
  function Decode(j: Json, ctx: Value, noeval: bool, clock: Clock): (r: Result<Value>)
    ensures j.JNull? ==> r == Ok(Null)
    ensures j.JArr? && r.Ok? ==> r.value.Arr? && |r.value.items| == |j.items|
    decreases j
  {
    match j
    case JNull => Ok(Null)
    case JBool(b) => Ok(Boolean(b))
    case JNum(n) => Ok(Number(n))
    case JStr(s) => Ok(Str(s))
    case JArr(items) =>
      var vs :- DecodeItems(items, ctx, noeval, clock);
      Ok(Arr(vs))
    case JObj(ms) =>
      var vms :- DecodeMembers(ms, ctx, noeval, clock);
      Revive(vms, ctx, noeval, clock)
  }

  function DecodeItems(items: seq<Json>, ctx: Value, noeval: bool, clock: Clock): (r: Result<seq<Value>>)
    ensures r.Ok? ==> |r.value| == |items|
    decreases items
  {
    if items == [] then Ok([])
    else
      var h :- Decode(items[0], ctx, noeval, clock);
      var t :- DecodeItems(items[1..], ctx, noeval, clock);
      Ok([h] + t)
  }

  function DecodeMembers(ms: seq<(string, Json)>, ctx: Value, noeval: bool, clock: Clock)
    : (r: Result<seq<(string, Value)>>)
    ensures r.Ok? ==> |r.value| <= |ms| && forall i :: 0 <= i < |r.value| ==> r.value[i].1 != Undefined
    decreases ms
  {
    if ms == [] then Ok([])
    else
      assert ms[0].1 < ms[0];
      var h :- Decode(ms[0].1, ctx, noeval, clock);
      var t :- DecodeMembers(ms[1..], ctx, noeval, clock);
      Ok(if h.Undefined? then t else [(ms[0].0, h)] + t)
  }

  /** The decoder's entry point: `new Decoder(context, noeval).decode(text)`. */
  function DecodeWith(j: Json, context: Value, noeval: bool, clock: Clock): Result<Value>
  {
    Decode(j, DecoderContext(context), noeval, clock)
  }

  // ---- round trip ---------------------------------------------------------

  /** A record the reviver keeps as a plain object. */
  predicate Plain(ms: seq<(string, Value)>)
  {
    ClassOf(ms) !in NodeTags && ClassOf(ms) !in OtherMembers && ClassOf(ms) != "PYSON"
  }

  /** A value that survives `encode` then noeval `decode`: JSON scalars,
      arrays, plain objects, and nodes whose record `init_from_object`
      rebuilds into the same node. Undefined, moments, durations and decimals
      come back as something else. */
  predicate Wire(v: Value)
  {
    match v
    case Null => true
    case Boolean(_) => true
    case Number(_) => true
    case Str(_) => true
    case Arr(items) => forall i :: 0 <= i < |items| ==> Wire(items[i])
    case Obj(ms) => (forall i :: 0 <= i < |ms| ==> Wire(ms[i].1)) && Plain(ms)
    case Expr(n) => NodeFieldsWire(n) && FromObject(Tag(n), Args(n)) == Ok(n)
    case _ => false
  }

  predicate NodeFieldsWire(n: Pyson)
  {
    match n
    case Eval(v, d) => Wire(v) && Wire(d)
    case Not(v) => Wire(v)
    case Bool(v) => Wire(v)
    case And(s) => forall i :: 0 <= i < |s| ==> Wire(s[i])
    case Or(s) => forall i :: 0 <= i < |s| ==> Wire(s[i])
    case Equal(s1, s2) => Wire(s1) && Wire(s2)
    case Greater(s1, s2, e) => Wire(s1) && Wire(s2) && Wire(e)
    case Less(s1, s2, e) => Wire(s1) && Wire(s2) && Wire(e)
    case If(c, t, e) => Wire(c) && Wire(t) && Wire(e)
    case Get(v, k, d) => Wire(v) && Wire(k) && Wire(d)
    case In(k, v) => Wire(k) && Wire(v)
    case Date(y, mo, d, dy, dmo, dd, start) =>
      Wire(y) && Wire(mo) && Wire(d) && Wire(dy) && Wire(dmo) && Wire(dd) && Wire(start)
    case DateTime(y, mo, d, h, mi, s, ms, dy, dmo, dd, dh, dmi, ds, dms, start) =>
      Wire(y) && Wire(mo) && Wire(d) && Wire(h) && Wire(mi) && Wire(s) && Wire(ms) &&
      Wire(dy) && Wire(dmo) && Wire(dd) && Wire(dh) && Wire(dmi) && Wire(ds) && Wire(dms) && Wire(start)
    case TimeDelta(days, seconds, micros) => Wire(days) && Wire(seconds) && Wire(micros)
    case Len(v) => Wire(v)
  }

  /** A value with no node inside: the reviver leaves it alone in either mode. */
  predicate NodeFree(v: Value)
  {
    match v
    case Arr(items) => forall i :: 0 <= i < |items| ==> NodeFree(items[i])
    case Obj(ms) => forall i :: 0 <= i < |ms| ==> NodeFree(ms[i].1)
    case Expr(_) => false
    case _ => true
  }

  /** Decoding an array item by item: each item decodes on its own. */
  lemma {:induction false} DecodeItemsPointwise(js: seq<Json>, vs: seq<Value>, ctx: Value, noeval: bool, clock: Clock)
    requires |js| == |vs|
    requires forall i :: 0 <= i < |js| ==> Decode(js[i], ctx, noeval, clock) == Ok(vs[i])
    ensures DecodeItems(js, ctx, noeval, clock) == Ok(vs)
    decreases js
  {
    if js != [] {
      DecodeItemsPointwise(js[1..], vs[1..], ctx, noeval, clock);
      assert [vs[0]] + vs[1..] == vs;
    }
  }

  /** Decoding an object member by member: keys are kept, and no member is
      dropped while none revives to undefined. */
  lemma {:induction false} DecodeMembersPointwise(js: seq<(string, Json)>, ms: seq<(string, Value)>,
                                                  ctx: Value, noeval: bool, clock: Clock)
    requires |js| == |ms|
    requires forall i :: 0 <= i < |js| ==> js[i].0 == ms[i].0 && ms[i].1 != Undefined
    requires forall i :: 0 <= i < |js| ==> Decode(js[i].1, ctx, noeval, clock) == Ok(ms[i].1)
    ensures DecodeMembers(js, ctx, noeval, clock) == Ok(ms)
    decreases js
  {
    if js != [] {
      DecodeMembersPointwise(js[1..], ms[1..], ctx, noeval, clock);
      assert [(js[0].0, ms[0].1)] + ms[1..] == ms;
    }
  }

  /** No field of a node's record is called `__class__`. */
  lemma ArgsKeys(n: Pyson)
    ensures forall j :: 0 <= j < |Args(n)| ==> Args(n)[j].0 != "__class__"
  {
  }

  /** The reviver rebuilds a node from its own record in noeval mode exactly
      when `init_from_object` does. */
  lemma ReviveProjection(n: Pyson, ctx: Value, clock: Clock)
    ensures Revive(Projection(n), ctx, true, clock) == Rebuilt(n)
  {
    var p := Projection(n);
    TagIsNodeTag(n);
    assert ClassOf(p) == Tag(n);
    ArgsKeys(n);
    assert WithoutKey(p, "__class__") == WithoutKey(Args(n), "__class__") by {
      assert p[1..] == Args(n);
    }
  }

  /** A value that comes back from its own JSON and is not dropped as a member. */
  predicate Survives(v: Value, ctx: Value, noeval: bool, clock: Clock)
  {
    v != Undefined && Decode(Write(v), ctx, noeval, clock) == Ok(v)
  }

  /** Every field of a wire node survives the round trip. */
  lemma {:induction false} FieldsRoundTrip(n: Pyson, ctx: Value, clock: Clock)
    requires NodeFieldsWire(n)
    ensures forall j :: 0 <= j < |Args(n)| ==> Survives(Args(n)[j].1, ctx, true, clock)
    decreases n, 3
  {
    match n
    case And(s) =>
      StatementsRoundTrip(s, ctx, true, clock);
    case Or(s) =>
      StatementsRoundTrip(s, ctx, true, clock);
    case Eval(_, _) | Equal(_, _) | In(_, _) => PairFieldsRoundTrip(n, ctx, clock);
    case Not(_) | Bool(_) | Len(_) => SingleFieldRoundTrip(n, ctx, clock);
    case Greater(_, _, _) | Less(_, _, _) | If(_, _, _) | Get(_, _, _) | TimeDelta(_, _, _) =>
      TripleFieldsRoundTrip(n, ctx, clock);
    case Date(_, _, _, _, _, _, _) => DateFieldsRoundTrip(n, ctx, clock);
    case DateTime(_, _, _, _, _, _, _, _, _, _, _, _, _, _, _) => DateTimeFieldsRoundTrip(n, ctx, clock);
  }

  lemma {:induction false} SingleFieldRoundTrip(n: Pyson, ctx: Value, clock: Clock)
    requires n.Not? || n.Bool? || n.Len?
    requires NodeFieldsWire(n)
    ensures forall j :: 0 <= j < |Args(n)| ==> Survives(Args(n)[j].1, ctx, true, clock)
    decreases n, 0
  {
    match n
    case Not(v) => RoundTrip(v, ctx, true, clock);
    case Bool(v) => RoundTrip(v, ctx, true, clock);
    case Len(v) => RoundTrip(v, ctx, true, clock);
  }

  lemma {:induction false} PairFieldsRoundTrip(n: Pyson, ctx: Value, clock: Clock)
    requires n.Eval? || n.Equal? || n.In?
    requires NodeFieldsWire(n)
    ensures forall j :: 0 <= j < |Args(n)| ==> Survives(Args(n)[j].1, ctx, true, clock)
    decreases n, 0
  {
    match n
    case Eval(v, d) => RoundTrip(v, ctx, true, clock); RoundTrip(d, ctx, true, clock);
    case Equal(s1, s2) => RoundTrip(s1, ctx, true, clock); RoundTrip(s2, ctx, true, clock);
    case In(k, v) => RoundTrip(k, ctx, true, clock); RoundTrip(v, ctx, true, clock);
  }

  lemma {:induction false} TripleFieldsRoundTrip(n: Pyson, ctx: Value, clock: Clock)
    requires n.Greater? || n.Less? || n.If? || n.Get? || n.TimeDelta?
    requires NodeFieldsWire(n)
    ensures forall j :: 0 <= j < |Args(n)| ==> Survives(Args(n)[j].1, ctx, true, clock)
    decreases n, 1
  {
    if n.Greater? || n.Less? { ComparisonFieldsRoundTrip(n, ctx, clock); } else { OtherTripleFieldsRoundTrip(n, ctx, clock); }
  }

  lemma {:induction false} ComparisonFieldsRoundTrip(n: Pyson, ctx: Value, clock: Clock)
    requires n.Greater? || n.Less?
    requires NodeFieldsWire(n)
    ensures forall j :: 0 <= j < |Args(n)| ==> Survives(Args(n)[j].1, ctx, true, clock)
    decreases n, 0
  {
    match n
    case Greater(s1, s2, e) =>
      RoundTrip(s1, ctx, true, clock); RoundTrip(s2, ctx, true, clock); RoundTrip(e, ctx, true, clock);
    case Less(s1, s2, e) =>
      RoundTrip(s1, ctx, true, clock); RoundTrip(s2, ctx, true, clock); RoundTrip(e, ctx, true, clock);
  }

  lemma {:induction false} OtherTripleFieldsRoundTrip(n: Pyson, ctx: Value, clock: Clock)
    requires n.If? || n.Get? || n.TimeDelta?
    requires NodeFieldsWire(n)
    ensures forall j :: 0 <= j < |Args(n)| ==> Survives(Args(n)[j].1, ctx, true, clock)
    decreases n, 0
  {
    match n
    case If(c, t, e) =>
      RoundTrip(c, ctx, true, clock); RoundTrip(t, ctx, true, clock); RoundTrip(e, ctx, true, clock);
    case Get(v, k, d) =>
      RoundTrip(v, ctx, true, clock); RoundTrip(k, ctx, true, clock); RoundTrip(d, ctx, true, clock);
    case TimeDelta(days, seconds, micros) =>
      RoundTrip(days, ctx, true, clock); RoundTrip(seconds, ctx, true, clock); RoundTrip(micros, ctx, true, clock);
  }

  lemma {:induction false} DateFieldsRoundTrip(n: Pyson, ctx: Value, clock: Clock)
    requires n.Date? && NodeFieldsWire(n)
    ensures forall j :: 0 <= j < |Args(n)| ==> Survives(Args(n)[j].1, ctx, true, clock)
    decreases n, 0
  {
    RoundTrip(n.y, ctx, true, clock); RoundTrip(n.mo, ctx, true, clock); RoundTrip(n.d, ctx, true, clock);
    RoundTrip(n.dy, ctx, true, clock); RoundTrip(n.dmo, ctx, true, clock); RoundTrip(n.dd, ctx, true, clock);
    RoundTrip(n.start, ctx, true, clock);
  }

  lemma {:induction false} DateTimeFieldsRoundTrip(n: Pyson, ctx: Value, clock: Clock)
    requires n.DateTime? && NodeFieldsWire(n)
    ensures forall j :: 0 <= j < |Args(n)| ==> Survives(Args(n)[j].1, ctx, true, clock)
    decreases n, 2
  {
    DateTimeDateFieldsRoundTrip(n, ctx, clock);
    DateTimeClockFieldsRoundTrip(n, ctx, clock);
    var a := [("y", n.y), ("M", n.mo), ("d", n.d), ("dy", n.dy), ("dM", n.dmo), ("dd", n.dd), ("start", n.start)];
    var b := [("h", n.h), ("m", n.mi), ("s", n.s), ("ms", n.ms), ("dh", n.dh), ("dm", n.dmi), ("ds", n.ds), ("dms", n.dms)];
    assert Args(n) == a + b;
    SurvivesConcat(a, b, ctx, clock);
  }

  /** Every field of two lists survives when every field of each does. */
  lemma SurvivesConcat(a: seq<(string, Value)>, b: seq<(string, Value)>, ctx: Value, clock: Clock)
    requires forall j :: 0 <= j < |a| ==> Survives(a[j].1, ctx, true, clock)
    requires forall j :: 0 <= j < |b| ==> Survives(b[j].1, ctx, true, clock)
    ensures forall j :: 0 <= j < |a + b| ==> Survives((a + b)[j].1, ctx, true, clock)
  {
    forall j | 0 <= j < |a + b| ensures Survives((a + b)[j].1, ctx, true, clock) {
      if j >= |a| { assert (a + b)[j] == b[j - |a|]; }
    }
  }

  lemma {:induction false} DateTimeDateFieldsRoundTrip(n: Pyson, ctx: Value, clock: Clock)
    requires n.DateTime? && NodeFieldsWire(n)
    ensures var a := [("y", n.y), ("M", n.mo), ("d", n.d), ("dy", n.dy), ("dM", n.dmo), ("dd", n.dd), ("start", n.start)];
      forall j :: 0 <= j < |a| ==> Survives(a[j].1, ctx, true, clock)
    decreases n, 0
  {
    RoundTrip(n.y, ctx, true, clock); RoundTrip(n.mo, ctx, true, clock); RoundTrip(n.d, ctx, true, clock);
    RoundTrip(n.dy, ctx, true, clock); RoundTrip(n.dmo, ctx, true, clock); RoundTrip(n.dd, ctx, true, clock);
    RoundTrip(n.start, ctx, true, clock);
  }

  lemma {:induction false} DateTimeClockFieldsRoundTrip(n: Pyson, ctx: Value, clock: Clock)
    requires n.DateTime? && NodeFieldsWire(n)
    ensures var b := [("h", n.h), ("m", n.mi), ("s", n.s), ("ms", n.ms), ("dh", n.dh), ("dm", n.dmi), ("ds", n.ds), ("dms", n.dms)];
      forall j :: 0 <= j < |b| ==> Survives(b[j].1, ctx, true, clock)
    decreases n, 1
  {
    DateTimeTimeFieldsRoundTrip(n, ctx, clock);
    DateTimeTimeDeltasRoundTrip(n, ctx, clock);
    var b1 := [("h", n.h), ("m", n.mi), ("s", n.s), ("ms", n.ms)];
    var b2 := [("dh", n.dh), ("dm", n.dmi), ("ds", n.ds), ("dms", n.dms)];
    SurvivesConcat(b1, b2, ctx, clock);
    assert b1 + b2 == [("h", n.h), ("m", n.mi), ("s", n.s), ("ms", n.ms), ("dh", n.dh), ("dm", n.dmi), ("ds", n.ds), ("dms", n.dms)];
  }

  lemma {:induction false} DateTimeTimeFieldsRoundTrip(n: Pyson, ctx: Value, clock: Clock)
    requires n.DateTime? && NodeFieldsWire(n)
    ensures var b := [("h", n.h), ("m", n.mi), ("s", n.s), ("ms", n.ms)];
      forall j :: 0 <= j < |b| ==> Survives(b[j].1, ctx, true, clock)
    decreases n, 0
  {
    RoundTrip(n.h, ctx, true, clock); RoundTrip(n.mi, ctx, true, clock);
    RoundTrip(n.s, ctx, true, clock); RoundTrip(n.ms, ctx, true, clock);
  }

  lemma {:induction false} DateTimeTimeDeltasRoundTrip(n: Pyson, ctx: Value, clock: Clock)
    requires n.DateTime? && NodeFieldsWire(n)
    ensures var b := [("dh", n.dh), ("dm", n.dmi), ("ds", n.ds), ("dms", n.dms)];
      forall j :: 0 <= j < |b| ==> Survives(b[j].1, ctx, true, clock)
    decreases n, 0
  {
    RoundTrip(n.dh, ctx, true, clock); RoundTrip(n.dmi, ctx, true, clock);
    RoundTrip(n.ds, ctx, true, clock); RoundTrip(n.dms, ctx, true, clock);
  }

  /** An array's items come back as the same array. */
  lemma {:induction false} StatementsRoundTrip(s: seq<Value>, ctx: Value, noeval: bool, clock: Clock)
    requires forall i :: 0 <= i < |s| ==> Wire(s[i]) && (noeval || NodeFree(s[i]))
    ensures Decode(Write(Arr(s)), ctx, noeval, clock) == Ok(Arr(s))
    decreases s
  {
    var v := Arr(s);
    assert forall i :: 0 <= i < |v.items| ==> v.items[i] != Undefined;
    WriteDefined(v);
    var js := seq(|s|, i requires 0 <= i < |s| => Write(s[i]));
    assert Write(v) == JArr(js);
    forall i | 0 <= i < |s| ensures Decode(js[i], ctx, noeval, clock) == Ok(s[i]) {
      RoundTrip(s[i], ctx, noeval, clock);
    }
    DecodeItemsPointwise(js, s, ctx, noeval, clock);
  }

  /** An object's members come back as the same members. */
  lemma {:induction false} MembersRoundTrip(ms: seq<(string, Value)>, ctx: Value, noeval: bool, clock: Clock)
    requires forall i :: 0 <= i < |ms| ==> Wire(ms[i].1) && (noeval || NodeFree(ms[i].1))
    ensures DecodeMembers(Write(Obj(ms)).members, ctx, noeval, clock) == Ok(ms)
    decreases ms
  {
    var v := Obj(ms);
    assert forall i :: 0 <= i < |v.members| ==> v.members[i].1 != Undefined;
    WriteDefined(v);
    var js := seq(|ms|, i requires 0 <= i < |ms| => (ms[i].0, Write(ms[i].1)));
    assert Write(v) == JObj(js);
    forall i | 0 <= i < |ms| ensures Decode(js[i].1, ctx, noeval, clock) == Ok(ms[i].1) {
      RoundTrip(ms[i].1, ctx, noeval, clock);
    }
    DecodeMembersPointwise(js, ms, ctx, noeval, clock);
  }

  /** Decoding undoes encoding: every wire value comes back unchanged in
      noeval mode, and so does one holding no node in eval mode. */
  lemma {:induction false} RoundTrip(v: Value, ctx: Value, noeval: bool, clock: Clock)
    requires Wire(v) && (noeval || NodeFree(v))
    ensures Decode(Write(v), ctx, noeval, clock) == Ok(v)
    decreases v, 2
  {
    match v
    case Arr(items) =>
      StatementsRoundTrip(items, ctx, noeval, clock);
    case Obj(ms) =>
      MembersRoundTrip(ms, ctx, noeval, clock);
    case Expr(n) =>
      WireNodeRoundTrip(n, ctx, clock);
    case _ =>
  }

  /** A wire node is rebuilt as itself. */
  lemma {:induction false} WireNodeRoundTrip(n: Pyson, ctx: Value, clock: Clock)
    requires Wire(Expr(n))
    ensures Decode(Write(Expr(n)), ctx, true, clock) == Ok(Expr(n))
    decreases Expr(n), 1
  {
    NodeRoundTrip(n, ctx, clock);
    assert FromObject(Tag(n), Args(n)) == Ok(n);
  }

  /** What `init_from_object` builds from a node's own fields. */
  function Rebuilt(n: Pyson): Result<Value>
  {
    TagIsNodeTag(n);
    var r :- FromObject(Tag(n), Args(n));
    Ok(Expr(r))
  }

  /** In noeval mode a node's record decodes to what `init_from_object`
      builds from the node's own fields. */
  lemma {:induction false} NodeRoundTrip(n: Pyson, ctx: Value, clock: Clock)
    requires NodeFieldsWire(n)
    ensures Decode(Write(Expr(n)), ctx, true, clock) == Rebuilt(n)
    decreases Expr(n), 0
  {
    WriteNodeIsProjection(n);
    FieldsRoundTrip(n, ctx, clock);
    RecordMembersRoundTrip(n, ctx, true, clock);
    ReviveProjection(n, ctx, clock);
  }

  /** The members of a node's record come back unchanged, `__class__` first,
      when each field does. */
  lemma RecordMembersRoundTrip(n: Pyson, ctx: Value, noeval: bool, clock: Clock)
    requires forall j :: 0 <= j < |Args(n)| ==> Survives(Args(n)[j].1, ctx, noeval, clock)
    ensures DecodeMembers(Write(Obj(Projection(n))).members, ctx, noeval, clock) == Ok(Projection(n))
  {
    TaggedRecordRoundTrip(Tag(n), Args(n), ctx, noeval, clock);
  }

  lemma TaggedRecordRoundTrip(tag: string, a: seq<(string, Value)>, ctx: Value, noeval: bool, clock: Clock)
    requires forall j :: 0 <= j < |a| ==> Survives(a[j].1, ctx, noeval, clock)
    ensures DecodeMembers(Write(Obj([("__class__", Str(tag))] + a)).members, ctx, noeval, clock)
      == Ok([("__class__", Str(tag))] + a)
  {
    KeepsAll(a);
    WriteTagged(tag, a);
    TaggedWrittenDecodes(tag, a, ctx, noeval, clock);
  }

  lemma TaggedWrittenDecodes(tag: string, a: seq<(string, Value)>, ctx: Value, noeval: bool, clock: Clock)
    requires forall j :: 0 <= j < |a| ==> Survives(a[j].1, ctx, noeval, clock)
    ensures DecodeMembers([("__class__", JStr(tag))] + WriteMembers(a), ctx, noeval, clock)
      == Ok([("__class__", Str(tag))] + a)
  {
    var js := [("__class__", JStr(tag))] + WriteMembers(a);
    var p := [("__class__", Str(tag))] + a;
    forall i | 1 <= i < |js|
      ensures js[i].0 == p[i].0 && p[i].1 != Undefined && Decode(js[i].1, ctx, noeval, clock) == Ok(p[i].1)
    {
      assert p[i] == a[i - 1];
      assert js[i] == (a[i - 1].0, Write(a[i - 1].1));
    }
    TaggedMembers(js, p, tag, ctx, noeval, clock);
  }

  /** The written members of a node's record: `__class__` and the tag, then
      each field `jQuery.extend` keeps, written in place. */
  lemma RecordMembersWritten(n: Pyson)
    ensures var e, js := ExtendObject(Args(n)), Write(Obj(Projection(n))).members;
      |js| == |e| + 1 && js[0] == ("__class__", JStr(Tag(n))) &&
      forall i :: 1 <= i < |js| ==> js[i] == (e[i - 1].0, Write(e[i - 1].1))
  {
    TaggedMembersWritten(Tag(n), Args(n));
  }

  lemma TaggedMembersWritten(tag: string, a: seq<(string, Value)>)
    ensures var e, js := ExtendObject(a), Write(Obj([("__class__", Str(tag))] + a)).members;
      |js| == |e| + 1 && js[0] == ("__class__", JStr(tag)) &&
      forall i :: 1 <= i < |js| ==> js[i] == (e[i - 1].0, Write(e[i - 1].1))
  {
    WriteTagged(tag, a);
    var e := ExtendObject(a);
    var h := ("__class__", JStr(tag));
    var w := WriteMembers(e);
    var js := Write(Obj([("__class__", Str(tag))] + a)).members;
    assert js == [h] + w;
    forall i | 1 <= i < |js| ensures js[i] == (e[i - 1].0, Write(e[i - 1].1)) {
      assert js[i] == w[i - 1];
    }
  }

  /** A record whose first member is `__class__` with a string tag decodes to
      `ms` when every later member decodes to its counterpart. */
  lemma TaggedMembers(js: seq<(string, Json)>, ms: seq<(string, Value)>, t: string, ctx: Value, noeval: bool, clock: Clock)
    requires |js| == |ms| >= 1 && js[0] == ("__class__", JStr(t)) && ms[0] == ("__class__", Str(t))
    requires forall i :: 1 <= i < |js| ==>
      js[i].0 == ms[i].0 && ms[i].1 != Undefined && Decode(js[i].1, ctx, noeval, clock) == Ok(ms[i].1)
    ensures DecodeMembers(js, ctx, noeval, clock) == Ok(ms)
  {
    assert Decode(js[0].1, ctx, noeval, clock) == Ok(ms[0].1);
    DecodeMembersPointwise(js, ms, ctx, noeval, clock);
  }

  /** In eval mode a node whose fields hold no node is replaced by its
      evaluation over its own record. */
  lemma EvalOfLiteralFields(n: Pyson, ctx: Value, clock: Clock)
    requires forall j :: 0 <= j < |Args(n)| ==> Wire(Args(n)[j].1) && NodeFree(Args(n)[j].1)
    ensures Decode(Write(Expr(n)), ctx, false, clock) == EvalRecord(Tag(n), Projection(n), ctx, clock)
  {
    WriteNodeIsProjection(n);
    forall j | 0 <= j < |Args(n)| ensures Survives(Args(n)[j].1, ctx, false, clock) {
      RoundTrip(Args(n)[j].1, ctx, false, clock);
    }
    RecordMembersRoundTrip(n, ctx, false, clock);
    TagIsNodeTag(n);
    assert ClassOf(Projection(n)) == Tag(n);
  }

  /** A node's record with each field it keeps replaced by what it decoded to. */
  function RevivedRecord(n: Pyson, ws: seq<Value>): (r: seq<(string, Value)>)
    requires |ws| == |ExtendObject(Args(n))|
    ensures |r| == |ws| + 1 && r[0] == ("__class__", Str(Tag(n)))
    ensures forall i :: 1 <= i < |r| ==> r[i] == (ExtendObject(Args(n))[i - 1].0, ws[i - 1])
  {
    Revived(Tag(n), ExtendObject(Args(n)), ws)
  }

  /** A record headed by `__class__` whose members `e` decoded to `ws`. */
  function Revived(tag: string, e: seq<(string, Value)>, ws: seq<Value>): (r: seq<(string, Value)>)
    requires |ws| == |e|
    ensures |r| == |ws| + 1 && r[0] == ("__class__", Str(tag))
    ensures forall i :: 1 <= i < |r| ==> r[i] == (e[i - 1].0, ws[i - 1])
  {
    [("__class__", Str(tag))] + seq(|ws|, j requires 0 <= j < |ws| => (e[j].0, ws[j]))
  }

  /** Decoding is bottom-up: a node's record is revived once the fields it
      keeps have been, whatever they decoded to. */
  lemma ChildrenFirst(n: Pyson, ws: seq<Value>, ctx: Value, noeval: bool, clock: Clock)
    requires |ws| == |ExtendObject(Args(n))|
    requires forall j :: 0 <= j < |ws| ==>
      ws[j] != Undefined && Decode(Write(ExtendObject(Args(n))[j].1), ctx, noeval, clock) == Ok(ws[j])
    ensures Decode(Write(Expr(n)), ctx, noeval, clock) == Revive(RevivedRecord(n, ws), ctx, noeval, clock)
  {
    var e := ExtendObject(Args(n));
    WriteNodeIsProjection(n);
    assert Projection(n) == [("__class__", Str(Tag(n)))] + Args(n);
    WriteTagged(Tag(n), Args(n));
    RevivedMembers(Tag(n), e, ws, ctx, noeval, clock);
  }

  /** The written members of a tagged record decode to the record revived
      from what each member decoded to. */
  lemma RevivedMembers(tag: string, e: seq<(string, Value)>, ws: seq<Value>, ctx: Value, noeval: bool, clock: Clock)
    requires |ws| == |e|
    requires forall j :: 0 <= j < |ws| ==>
      ws[j] != Undefined && Decode(Write(e[j].1), ctx, noeval, clock) == Ok(ws[j])
    ensures DecodeMembers([("__class__", JStr(tag))] + WriteMembers(e), ctx, noeval, clock) == Ok(Revived(tag, e, ws))
  {
    var js := [("__class__", JStr(tag))] + WriteMembers(e);
    var p := Revived(tag, e, ws);
    forall i | 1 <= i < |js|
      ensures js[i].0 == p[i].0 && p[i].1 != Undefined && Decode(js[i].1, ctx, noeval, clock) == Ok(p[i].1)
    {
      assert js[i] == WriteMembers(e)[i - 1];
      assert p[i] == (e[i - 1].0, ws[i - 1]);
    }
    TaggedMembers(js, p, tag, ctx, noeval, clock);
  }

  // ---- what noeval decoding changes ---------------------------------------

  /** TimeDelta's record stores the microseconds under `m`, but
      `init_from_object` reads `microseconds`: they come back as 0. */
  lemma TimeDeltaLosesMicroseconds(n: Pyson, ctx: Value, clock: Clock)
    requires n.TimeDelta? && n.days.Number? && n.seconds.Number? && n.micros.Number?
    ensures Decode(Write(Expr(n)), ctx, true, clock) == Ok(Expr(n.(micros := Number(0))))
  {
    NodeRoundTrip(n, ctx, clock);
    TimeDeltaRebuilt(n);
  }

  lemma TimeDeltaRebuilt(n: Pyson)
    requires n.TimeDelta? && n.days.Number? && n.seconds.Number? && n.micros.Number?
    ensures Rebuilt(n) == Ok(Expr(n.(micros := Number(0))))
  {
    var a := Args(n);
    assert a == [("d", n.days), ("s", n.seconds), ("m", n.micros)];
    assert Lookup(a, "microseconds") == Undefined;
    assert Lookup(a, "d") == n.days && Lookup(a, "s") == n.seconds;
    assert FromObject("TimeDelta", a) == MakeTimeDelta(n.days, n.seconds, Undefined);
  }

  /** DateTime's `init_from_object` passes no start: a decoded DateTime
      always counts from now. */
  lemma DateTimeLosesStart(n: Pyson, ctx: Value, clock: Clock)
    requires n.DateTime? && NodeFieldsWire(n)
    requires IntegerOrNone(n.y) && IntegerOrNone(n.mo) && IntegerOrNone(n.d)
    requires IntegerOrNone(n.h) && IntegerOrNone(n.mi) && IntegerOrNone(n.s) && IntegerOrNone(n.ms)
    requires IntegerOrNone(n.dy) && IntegerOrNone(n.dmo) && IntegerOrNone(n.dd)
    requires IntegerOrNone(n.dh) && IntegerOrNone(n.dmi) && IntegerOrNone(n.ds) && IntegerOrNone(n.dms)
    ensures Decode(Write(Expr(n)), ctx, true, clock) == Ok(Expr(n.(start := Null)))
  {
    NodeRoundTrip(n, ctx, clock);
    DateTimeRebuilt(n);
  }

  lemma DateTimeRebuilt(n: Pyson)
    requires n.DateTime? && NodeFieldsWire(n)
    requires IntegerOrNone(n.y) && IntegerOrNone(n.mo) && IntegerOrNone(n.d)
    requires IntegerOrNone(n.h) && IntegerOrNone(n.mi) && IntegerOrNone(n.s) && IntegerOrNone(n.ms)
    requires IntegerOrNone(n.dy) && IntegerOrNone(n.dmo) && IntegerOrNone(n.dd)
    requires IntegerOrNone(n.dh) && IntegerOrNone(n.dmi) && IntegerOrNone(n.ds) && IntegerOrNone(n.dms)
    ensures Rebuilt(n) == Ok(Expr(n.(start := Null)))
  {
    DateTimeFromArgs(n);
    DateTimeKeepsFields(n);
  }

  /** `init_from_object` hands DateTime's constructor the record's fields and no start. */
  lemma DateTimeFromArgs(n: Pyson)
    requires n.DateTime?
    ensures FromObject("DateTime", Args(n)) == MakeDateTime(n.y, n.mo, n.d, n.h, n.mi, n.s, n.ms, n.dy, n.dmo, n.dd,
                                                            n.dh, n.dmi, n.ds, n.dms, Undefined)
  {
    FromObjectDateTime(Args(n));
    DateTimeLookups(n);
  }

  lemma DateTimeLookups(n: Pyson)
    requires n.DateTime?
    ensures var a := Args(n);
      Lookup(a, "y") == n.y && Lookup(a, "M") == n.mo && Lookup(a, "d") == n.d &&
      Lookup(a, "dy") == n.dy && Lookup(a, "dM") == n.dmo && Lookup(a, "dd") == n.dd &&
      Lookup(a, "h") == n.h && Lookup(a, "m") == n.mi && Lookup(a, "s") == n.s && Lookup(a, "ms") == n.ms &&
      Lookup(a, "dh") == n.dh && Lookup(a, "dm") == n.dmi && Lookup(a, "ds") == n.ds && Lookup(a, "dms") == n.dms
  {
    var a := Args(n);
    ArgsDistinctKeys(n);
    LookupDistinct(a, 0); LookupDistinct(a, 1); LookupDistinct(a, 2); LookupDistinct(a, 3);
    LookupDistinct(a, 4); LookupDistinct(a, 5); LookupDistinct(a, 7); LookupDistinct(a, 8);
    LookupDistinct(a, 9); LookupDistinct(a, 10); LookupDistinct(a, 11); LookupDistinct(a, 12);
    LookupDistinct(a, 13); LookupDistinct(a, 14);
  }

  /** DateTime's constructor keeps integer or null fields as they are. */
  lemma DateTimeKeepsFields(n: Pyson)
    requires n.DateTime?
    requires IntegerOrNone(n.y) && IntegerOrNone(n.mo) && IntegerOrNone(n.d)
    requires IntegerOrNone(n.h) && IntegerOrNone(n.mi) && IntegerOrNone(n.s) && IntegerOrNone(n.ms)
    requires IntegerOrNone(n.dy) && IntegerOrNone(n.dmo) && IntegerOrNone(n.dd)
    requires IntegerOrNone(n.dh) && IntegerOrNone(n.dmi) && IntegerOrNone(n.ds) && IntegerOrNone(n.dms)
    ensures MakeDateTime(n.y, n.mo, n.d, n.h, n.mi, n.s, n.ms, n.dy, n.dmo, n.dd,
                         n.dh, n.dmi, n.ds, n.dms, Undefined) == Ok(n.(start := Null))
  {
  }

  lemma DateLookups(n: Pyson)
    requires n.Date?
    ensures var a := Args(n);
      Lookup(a, "y") == n.y && Lookup(a, "M") == n.mo && Lookup(a, "d") == n.d &&
      Lookup(a, "dy") == n.dy && Lookup(a, "dM") == n.dmo && Lookup(a, "dd") == n.dd && Lookup(a, "start") == n.start
  {
    var a := Args(n);
    ArgsDistinctKeys(n);
    LookupDistinct(a, 0); LookupDistinct(a, 1); LookupDistinct(a, 2); LookupDistinct(a, 3);
    LookupDistinct(a, 4); LookupDistinct(a, 5); LookupDistinct(a, 6);
  }

  /** Date's constructor keeps integer or null fields and a defined start as they are. */
  lemma DateKeepsFields(n: Pyson)
    requires n.Date? && !n.start.Undefined?
    requires IntegerOrNone(n.y) && IntegerOrNone(n.mo) && IntegerOrNone(n.d)
    requires IntegerOrNone(n.dy) && IntegerOrNone(n.dmo) && IntegerOrNone(n.dd)
    ensures MakeDate(n.y, n.mo, n.d, n.dy, n.dmo, n.dd, n.start) == Ok(n)
  {
  }

  // ---- init_from_object rebuilds what a date constructor built -------------

  /** A Date node as its constructor built it comes back whole. */
  lemma DateRebuilds(y: Value, mo: Value, d: Value, dy: Value, dmo: Value, dd: Value, start: Value)
    requires MakeDate(y, mo, d, dy, dmo, dd, start).Ok?
    ensures var n := MakeDate(y, mo, d, dy, dmo, dd, start).value; FromObject(Tag(n), Args(n)) == Ok(n)
  {
    var n := MakeDate(y, mo, d, dy, dmo, dd, start).value;
    var fs := DateChecks(Default(y, Null), Default(mo, Null), Default(d, Null),
                         Default(dy, Number(0)), Default(dmo, Number(0)), Default(dd, Number(0)));
    assert FieldError(fs).None?;
    assert n == Date(fs[0].1, fs[1].1, fs[2].1, fs[3].1, fs[5].1, fs[4].1, Default(start, Null));
    assert IntegerOrNone(fs[0].1) && IntegerOrNone(fs[1].1) && IntegerOrNone(fs[2].1);
    assert IntegerOrNone(fs[3].1) && IntegerOrNone(fs[4].1) && IntegerOrNone(fs[5].1);
    assert Tag(n) == "Date";
    FromObjectDate(Args(n));
    DateLookups(n);
    DateKeepsFields(n);
  }

  /** A DateTime node built with no start (or a null one) comes back whole;
      `DateTimeLosesStart` says what happens to any other start. */
  lemma DateTimeRebuilds(y: Value, mo: Value, d: Value, h: Value, mi: Value, s: Value, ms: Value,
                         dy: Value, dmo: Value, dd: Value, dh: Value, dmi: Value, ds: Value, dms: Value,
                         start: Value)
    requires MakeDateTime(y, mo, d, h, mi, s, ms, dy, dmo, dd, dh, dmi, ds, dms, start).Ok?
    requires Default(start, Null) == Null
    ensures var n := MakeDateTime(y, mo, d, h, mi, s, ms, dy, dmo, dd, dh, dmi, ds, dms, start).value;
      FromObject(Tag(n), Args(n)) == Ok(n)
  {
    var n := MakeDateTime(y, mo, d, h, mi, s, ms, dy, dmo, dd, dh, dmi, ds, dms, start).value;
    DateTimeFieldsChecked(y, mo, d, h, mi, s, ms, dy, dmo, dd, dh, dmi, ds, dms, start);
    assert Tag(n) == "DateTime";
    DateTimeFromArgs(n);
    DateTimeKeepsFields(n);
  }

  /** A DateTime the constructor accepts holds only integer or null fields and a null start. */
  lemma DateTimeFieldsChecked(y: Value, mo: Value, d: Value, h: Value, mi: Value, s: Value, ms: Value,
                              dy: Value, dmo: Value, dd: Value, dh: Value, dmi: Value, ds: Value, dms: Value,
                              start: Value)
    requires MakeDateTime(y, mo, d, h, mi, s, ms, dy, dmo, dd, dh, dmi, ds, dms, start).Ok?
    requires Default(start, Null) == Null
    ensures var n := MakeDateTime(y, mo, d, h, mi, s, ms, dy, dmo, dd, dh, dmi, ds, dms, start).value;
      && n.start == Null
      && IntegerOrNone(n.y) && IntegerOrNone(n.mo) && IntegerOrNone(n.d)
      && IntegerOrNone(n.h) && IntegerOrNone(n.mi) && IntegerOrNone(n.s) && IntegerOrNone(n.ms)
      && IntegerOrNone(n.dy) && IntegerOrNone(n.dmo) && IntegerOrNone(n.dd)
      && IntegerOrNone(n.dh) && IntegerOrNone(n.dmi) && IntegerOrNone(n.ds) && IntegerOrNone(n.dms)
  {
    var n := MakeDateTime(y, mo, d, h, mi, s, ms, dy, dmo, dd, dh, dmi, ds, dms, start).value;
    var checks := DateChecks(n.y, n.mo, n.d, n.dy, n.dmo, n.dd) +
      [("hour", n.h), ("minute", n.mi), ("second", n.s), ("microsecond", n.ms),
       ("delta_hours", n.dh), ("delta_minutes", n.dmi), ("delta_seconds", n.ds), ("delta_microseconds", n.dms)];
    assert FieldError(checks).None?;
    assert checks[0].1 == n.y && checks[1].1 == n.mo && checks[2].1 == n.d;
    assert checks[3].1 == n.dy && checks[4].1 == n.dd && checks[5].1 == n.dmo;
    assert checks[6].1 == n.h && checks[7].1 == n.mi && checks[8].1 == n.s && checks[9].1 == n.ms;
    assert checks[10].1 == n.dh && checks[11].1 == n.dmi && checks[12].1 == n.ds && checks[13].1 == n.dms;
  }

  /** A TimeDelta node as its constructor built it comes back with its
      microseconds set to 0 (and so whole exactly when they were 0). */
  lemma TimeDeltaRebuilds(days: Value, seconds: Value, micros: Value)
    requires MakeTimeDelta(days, seconds, micros).Ok?
    ensures var n := MakeTimeDelta(days, seconds, micros).value;
      FromObject(Tag(n), Args(n)) == Ok(n.(micros := Number(0)))
  {
    var n := MakeTimeDelta(days, seconds, micros).value;
    TimeDeltaAcceptsOnlyNumbers(days, seconds, micros);
    assert n == TimeDelta(Default(days, Number(0)), Default(seconds, Number(0)), Default(micros, Number(0)));
    TimeDeltaRebuilt(n);
    TagIsNodeTag(n);
    assert Rebuilt(n) == Ok(Expr(n.(micros := Number(0))));
  }
}

=== FILE: encoder.dfy ===
/** `Encoder`: `prepare` copies arrays and plain objects and replaces dates and
    decimals by their wire form; `encode` then writes the JSON tree, turning
    every node into its `pyson()` record and null or undefined into null. */
module Encoding {
  import opened Wrappers
  import opened Values
  import opened Calendar
  import opened Nodes

  /** A JSON tree, as `JSON.stringify` writes it and `JSON.parse` reads it. */
  datatype Json =
    | JNull
    | JBool(b: bool)
    | JNum(n: int)
    | JStr(s: string)
    | JArr(items: seq<Json>)
    | JObj(members: seq<(string, Json)>)

  // ---- prepare --------------------------------------------------------------

  /** The node a moment is written as: `Date(y, M + 1, d)` for a date, else
      `DateTime(y, M + 1, d, h, m, s, ms * 1000)`; every other field keeps its
      constructor default. */
  function MomentNode(kind: MomentKind, f: Fields): (r: Pyson)
    ensures kind == DateKind ==> r.Date? && r.start == Null
    ensures kind != DateKind ==> r.DateTime? && r.start == Null
  {
    if kind == DateKind then
      Date(Number(f.year), Number(f.month + 1), Number(f.day), Number(0), Number(0), Number(0), Null)
    else
      DateTime(Number(f.year), Number(f.month + 1), Number(f.day), Number(f.hour), Number(f.minute),
               Number(f.second), Number(f.millisecond * 1000),
               Number(0), Number(0), Number(0), Number(0), Number(0), Number(0), Number(0), Null)
  }

  /** The moment's node is what its constructor builds from those arguments. */
  lemma MomentNodeConstructed(kind: MomentKind, f: Fields)
    ensures kind == DateKind ==>
      MakeDate(Number(f.year), Number(f.month + 1), Number(f.day), Undefined, Undefined, Undefined, Undefined)
        == Ok(MomentNode(kind, f))
    ensures kind != DateKind ==>
      MakeDateTime(Number(f.year), Number(f.month + 1), Number(f.day), Number(f.hour), Number(f.minute),
                   Number(f.second), Number(f.millisecond * 1000),
                   Undefined, Undefined, Undefined, Undefined, Undefined, Undefined, Undefined, Undefined)
        == Ok(MomentNode(kind, f))
  {
    if kind == DateKind { MomentNodeDate(f); } else { MomentNodeDateTime(kind, f); }
  }

  lemma MomentNodeDate(f: Fields)
    ensures MakeDate(Number(f.year), Number(f.month + 1), Number(f.day), Undefined, Undefined, Undefined, Undefined)
      == Ok(MomentNode(DateKind, f))
  {
    var n := Number(0);
    assert FirstBadField(DateChecks(Number(f.year), Number(f.month + 1), Number(f.day), n, n, n)) == None;
  }

  lemma MomentNodeDateTime(kind: MomentKind, f: Fields)
    requires kind != DateKind
    ensures MakeDateTime(Number(f.year), Number(f.month + 1), Number(f.day), Number(f.hour), Number(f.minute),
                         Number(f.second), Number(f.millisecond * 1000),
                         Undefined, Undefined, Undefined, Undefined, Undefined, Undefined, Undefined, Undefined)
      == Ok(MomentNode(kind, f))
  {
    var n := Number(0);
    var dateChecks := DateChecks(Number(f.year), Number(f.month + 1), Number(f.day), n, n, n);
    var clockChecks := [("hour", Number(f.hour)), ("minute", Number(f.minute)), ("second", Number(f.second)),
       ("microsecond", Number(f.millisecond * 1000)),
       ("delta_hours", n), ("delta_minutes", n), ("delta_seconds", n), ("delta_microseconds", n)];
    NoBadFieldAppend(dateChecks, clockChecks);
  }

  /** Two runs of checks that pass pass together. */
  lemma NoBadFieldAppend(a: seq<(string, Value)>, b: seq<(string, Value)>)
    requires forall i :: 0 <= i < |a| ==> a[i].1.Number?
    requires forall i :: 0 <= i < |b| ==> b[i].1.Number?
    ensures FirstBadField(a + b) == None
  {
    forall i | 0 <= i < |a + b|
      ensures IntegerOrNone((a + b)[i].1)
    {
      if i < |a| { assert (a + b)[i] == a[i]; } else { assert (a + b)[i] == b[i - |a|]; }
    }
  }

  /** What `prepare` leaves in place of a value: arrays and plain objects are
      copied with `jQuery.extend`, which skips undefined entries, and their
      children prepared; a moment becomes its node's record, a decimal its
      number; nodes and everything else are kept. */
  function Prepared(v: Value): (r: Value)
    ensures r.Undefined? <==> v.Undefined?
    ensures v.Arr? ==> r.Arr? && |r.items| == |ExtendArray(v.items)| && (r.items == [] || r.items[|r.items| - 1] != Undefined)
    ensures v.Obj? ==> r.Obj? && |r.members| == |ExtendObject(v.members)|
    ensures v.Obj? ==> forall i :: 0 <= i < |r.members| ==>
      r.members[i].0 == ExtendObject(v.members)[i].0 && r.members[i].1 != Undefined
  {
    match v
    case Arr(items) =>
      var kept := ExtendArray(items);
      Arr(seq(|kept|, i requires 0 <= i < |kept| => Prepared(items[i])))
    case Obj(ms) =>
      var kept := ExtendObject(ms);
      Obj(seq(|kept|, i requires 0 <= i < |kept| => (kept[i].0, Prepared(kept[i].1))))
    case Moment(k, f) => Obj(Projection(MomentNode(k, f)))
    case Decimal(a) => Number(a)
    case _ => v
  }

  /** A value `prepare` leaves unchanged: no moment or decimal outside a node,
      no undefined member and no array ending in undefined. */
  predicate IsPrepared(v: Value)
  {
    match v
    case Arr(items) =>
      (items == [] || items[|items| - 1] != Undefined) && forall i :: 0 <= i < |items| ==> IsPrepared(items[i])
    case Obj(ms) => forall i :: 0 <= i < |ms| ==> ms[i].1 != Undefined && IsPrepared(ms[i].1)
    case Moment(_, _) => false
    case Decimal(_) => false
    case _ => true
  }

  /** `prepare` reaches a fixed point in one pass. */
  lemma {:induction false} PreparedIsPrepared(v: Value)
    ensures IsPrepared(Prepared(v))
    ensures IsPrepared(v) ==> Prepared(v) == v
    decreases v, 1
  {
    match v
    case Arr(items) => PreparedItemsArePrepared(items);
    case Obj(ms) => PreparedMembersArePrepared(ms);
    case Moment(k, f) =>
      var p := Projection(MomentNode(k, f));
      MomentRecordScalar(k, f);
      assert forall i :: 0 <= i < |p| ==> IsPrepared(p[i].1) && p[i].1 != Undefined;
    case _ =>
  }

  lemma {:induction false} PreparedItemsArePrepared(items: seq<Value>)
    ensures IsPrepared(Prepared(Arr(items)))
    ensures IsPrepared(Arr(items)) ==> Prepared(Arr(items)) == Arr(items)
    decreases items, 0
  {
    var kept := ExtendArray(items);
    forall i | 0 <= i < |kept|
      ensures IsPrepared(Prepared(items[i])) && (IsPrepared(items[i]) ==> Prepared(items[i]) == items[i])
    {
      PreparedIsPrepared(items[i]);
    }
    if IsPrepared(Arr(items)) {
      assert kept == items;
      assert Prepared(Arr(items)).items == items;
    }
  }

  lemma {:induction false} PreparedMembersArePrepared(ms: seq<(string, Value)>)
    ensures IsPrepared(Prepared(Obj(ms)))
    ensures IsPrepared(Obj(ms)) ==> Prepared(Obj(ms)) == Obj(ms)
    decreases ms, 0
  {
    var kept := ExtendObject(ms);
    forall i | 0 <= i < |kept|
      ensures IsPrepared(Prepared(kept[i].1)) && (IsPrepared(kept[i].1) ==> Prepared(kept[i].1) == kept[i].1)
    {
      PreparedIsPrepared(kept[i].1);
    }
    if IsPrepared(Obj(ms)) {
      assert kept == ms;
      assert Prepared(Obj(ms)).members == ms;
    }
  }

  /** `prepare` over an array: `jQuery.extend([], value)` makes the copy, then
      each slot of the copy is overwritten with its prepared item; the
      caller's array is only read. */
  method PrepareItems(a: array<Value>) returns (copy: array<Value>)
    ensures fresh(copy)
    ensures copy[..] == Prepared(Arr(a[..])).items
    ensures a[..] == old(a[..])
  {
    copy := CopyArray(a[..]);
    ghost var kept := copy[..];
    for i := 0 to copy.Length
      invariant forall k :: 0 <= k < i ==> copy[k] == Prepared(kept[k])
      invariant forall k :: i <= k < copy.Length ==> copy[k] == kept[k]
    {
      copy[i] := Prepared(copy[i]);
    }
  }

  /** `prepare` over a plain object: `jQuery.extend({}, value)` makes the copy,
      then each property of the copy is prepared, in key order. */
  method PrepareMembers(a: array<(string, Value)>) returns (copy: array<(string, Value)>)
    ensures fresh(copy)
    ensures copy[..] == Prepared(Obj(a[..])).members
    ensures a[..] == old(a[..])
  {
    copy := CopyMembers(a[..]);
    ghost var kept := copy[..];
    for i := 0 to copy.Length
      invariant forall k :: 0 <= k < i ==> copy[k] == (kept[k].0, Prepared(kept[k].1))
      invariant forall k :: i <= k < copy.Length ==> copy[k] == kept[k]
    {
      copy[i] := (copy[i].0, Prepared(copy[i].1));
    }
  }

  // ---- encode ---------------------------------------------------------------

  /** The values whose JSON the model knows: a duration is written through its
      library's internal fields, which are not modelled. */
  predicate Encodable(v: Value)
  {
    match v
    case Duration(_) => false
    case Arr(items) => forall i :: 0 <= i < |items| ==> Encodable(items[i])
    case Obj(ms) => forall i :: 0 <= i < |ms| ==> Encodable(ms[i].1)
    case Expr(n) => NodeEncodable(n)
    case _ => true
  }

  predicate NodeEncodable(n: Pyson)
  {
    match n
    case Eval(v, d) => Encodable(v) && Encodable(d)
    case Not(v) => Encodable(v)
    case Bool(v) => Encodable(v)
    case And(s) => forall i :: 0 <= i < |s| ==> Encodable(s[i])
    case Or(s) => forall i :: 0 <= i < |s| ==> Encodable(s[i])
    case Equal(s1, s2) => Encodable(s1) && Encodable(s2)
    case Greater(s1, s2, e) => Encodable(s1) && Encodable(s2) && Encodable(e)
    case Less(s1, s2, e) => Encodable(s1) && Encodable(s2) && Encodable(e)
    case If(c, t, e) => Encodable(c) && Encodable(t) && Encodable(e)
    case Get(v, k, d) => Encodable(v) && Encodable(k) && Encodable(d)
    case In(k, v) => Encodable(k) && Encodable(v)
    case Date(y, mo, d, dy, dmo, dd, start) =>
      Encodable(y) && Encodable(mo) && Encodable(d) && Encodable(dy) && Encodable(dmo) && Encodable(dd) &&
      Encodable(start)
    case DateTime(y, mo, d, h, mi, s, ms, dy, dmo, dd, dh, dmi, ds, dms, start) =>
      Encodable(y) && Encodable(mo) && Encodable(d) && Encodable(h) && Encodable(mi) && Encodable(s) &&
      Encodable(ms) && Encodable(dy) && Encodable(dmo) && Encodable(dd) && Encodable(dh) &&
      Encodable(dmi) && Encodable(ds) && Encodable(dms) && Encodable(start)
    case TimeDelta(days, seconds, micros) => Encodable(days) && Encodable(seconds) && Encodable(micros)
    case Len(v) => Encodable(v)
  }

  /** A number, string, boolean, null or undefined as JSON. */
  function WriteScalar(v: Value): Json
  {
    match v
    case Boolean(b) => JBool(b)
    case Number(x) => JNum(x)
    case Str(s) => JStr(s)
    case _ => JNull
  }

  /** What `encode` writes for a value: `prepare`'s copies leave out undefined
      members and the undefined items that end an array, then `JSON.stringify`
      with the encoder's replacer writes the rest, null and undefined as
      null, a node as its prepared record, a moment as its node's record, a
      decimal as its number. A duration, which `encode` refuses, is written
      as null. */
  function Write(v: Value): (r: Json)
    ensures v.Arr? ==> r.JArr? && |r.items| == |ExtendArray(v.items)|
    ensures v.Obj? ==> r.JObj? && |r.members| == |ExtendObject(v.members)|
  {
    match v
    case Arr(items) =>
      var kept := ExtendArray(items);
      JArr(seq(|kept|, i requires 0 <= i < |kept| => Write(items[i])))
    case Obj(ms) =>
      var kept := ExtendObject(ms);
      JObj(seq(|kept|, i requires 0 <= i < |kept| => (kept[i].0, Write(kept[i].1))))
    case Moment(k, f) =>
      var p := Projection(MomentNode(k, f));
      JObj(seq(|p|, i requires 0 <= i < |p| => (p[i].0, WriteScalar(p[i].1))))
    case Decimal(a) => JNum(a)
    case Expr(n) => JObj([("__class__", JStr(Tag(n)))] + WriteArgs(n))
    case _ => WriteScalar(v)
  }

  /** A node's fields as written, in `pyson()` order, without the undefined
      ones; And's and Or's statements form an array. */
  function WriteArgs(n: Pyson): seq<(string, Json)>
    decreases n, 1
  {
    match n
    case And(s) =>
      var kept := ExtendArray(s);
      [("s", JArr(seq(|kept|, i requires 0 <= i < |kept| => Write(s[i]))))]
    case Or(s) =>
      var kept := ExtendArray(s);
      [("s", JArr(seq(|kept|, i requires 0 <= i < |kept| => Write(s[i]))))]
    case _ => Kept(Args(n), WriteFields(n))
  }

  /** Every field of a node other than And and Or, written. */
  function WriteFields(n: Pyson): (r: seq<(string, Json)>)
    requires !n.And? && !n.Or?
    ensures |r| == |Args(n)|
    decreases n, 0
  {
    var a := Args(n);
    seq(|a|, i requires 0 <= i < |a| => (a[i].0, Write(a[i].1)))
  }

  /** The entries of `w` that stand beside the members `jQuery.extend({}, a)`
      keeps. */
  function Kept<T>(a: seq<(string, Value)>, w: seq<T>): (r: seq<T>)
    requires |w| == |a|
    ensures |r| == |ExtendObject(a)|
    ensures forall i :: 0 <= i < |r| ==> r[i] == w[KeptIndices(a)[i]]
  {
    var k := KeptIndices(a);
    seq(|k|, i requires 0 <= i < |k| => w[k[i]])
  }

  /** `encode`: `prepare`, then write; an error for a duration. Copying changes
      nothing that is written. */
  function Encode(v: Value): (r: Result<Json>)
    ensures r.Ok? <==> Encodable(v)
    ensures r.Ok? ==> r.value == Write(v)
  {
    if Encodable(v) then
      WritePrepared(v);
      Ok(Write(Prepared(v)))
    else Err("a duration has no modelled JSON form")
  }

  /** With nothing undefined to leave out, an array or an object is written
      item by item and member by member. */
  lemma WriteDefined(v: Value)
    requires v.Arr? ==> forall i :: 0 <= i < |v.items| ==> v.items[i] != Undefined
    requires v.Obj? ==> forall i :: 0 <= i < |v.members| ==> v.members[i].1 != Undefined
    ensures v.Arr? ==> Write(v) == JArr(seq(|v.items|, i requires 0 <= i < |v.items| => Write(v.items[i])))
    ensures v.Obj? ==> Write(v) == JObj(seq(|v.members|, i requires 0 <= i < |v.members| => (v.members[i].0, Write(v.members[i].1))))
  {
    if v.Arr? && v.items != [] {
      assert v.items[|v.items| - 1] != Undefined;
    }
  }

  /** Undefined members are left out and an array stops at its last defined
      item, while an undefined item before that is written as null. */
  lemma EncodeLeavesOutUndefined(k: string)
    ensures Encode(Obj([(k, Undefined)])) == Ok(JObj([]))
    ensures Encode(Arr([Number(1), Undefined])) == Ok(JArr([JNum(1)]))
    ensures Encode(Arr([Undefined, Number(1)])) == Ok(JArr([JNull, JNum(1)]))
  {
    var o := Obj([(k, Undefined)]);
    assert Encodable(o);
    assert ExtendObject(o.members) == [];
    WriteObject(o.members);
    var a := Arr([Number(1), Undefined]);
    assert Encodable(a);
    assert ExtendArray(a.items) == [Number(1)];
    assert Write(a).items[0] == JNum(1);
    assert Write(a).items == [JNum(1)];
    var b := Arr([Undefined, Number(1)]);
    assert Encodable(b);
    assert ExtendArray(b.items) == b.items;
    assert Write(b).items[0] == JNull && Write(b).items[1] == JNum(1);
    assert Write(b).items == [JNull, JNum(1)];
  }

  /** Members written one by one, in order. */
  function WriteMembers(ms: seq<(string, Value)>): (r: seq<(string, Json)>)
    ensures |r| == |ms|
  {
    seq(|ms|, i requires 0 <= i < |ms| => (ms[i].0, Write(ms[i].1)))
  }

  /** An object is written as the members `jQuery.extend` keeps. */
  lemma WriteObject(ms: seq<(string, Value)>)
    ensures Write(Obj(ms)) == JObj(WriteMembers(ExtendObject(ms)))
  {
  }

  /** A node's fields are written as the fields `jQuery.extend` keeps. */
  lemma WriteArgsKept(n: Pyson)
    ensures WriteArgs(n) == WriteMembers(ExtendObject(Args(n)))
  {
    if n.And? || n.Or? {
      WriteStatementsKept(n);
    } else {
      WriteFieldsKept(n);
    }
  }

  lemma WriteStatementsKept(n: Pyson)
    requires n.And? || n.Or?
    ensures WriteArgs(n) == WriteMembers(ExtendObject(Args(n)))
  {
    var a := Args(n);
    assert a == [("s", Arr(n.statements))];
    assert ExtendObject(a) == a;
  }

  lemma WriteFieldsKept(n: Pyson)
    requires !n.And? && !n.Or?
    ensures WriteArgs(n) == WriteMembers(ExtendObject(Args(n)))
  {
    var a := Args(n);
    var w := WriteFields(n);
    var e := ExtendObject(a);
    var k := KeptIndices(a);
    assert WriteArgs(n) == Kept(a, w);
    forall i | 0 <= i < |e| ensures Kept(a, w)[i] == WriteMembers(e)[i] {
      assert e[i] == a[k[i]];
    }
  }

  /** A node is written as its `pyson()` record, field for field. */
  lemma WriteNodeIsProjection(n: Pyson)
    ensures Write(Expr(n)) == Write(Obj(Projection(n)))
  {
    var c := ("__class__", Str(Tag(n)));
    assert Projection(n) == [c] + Args(n);
    assert Write(Expr(n)) == JObj([("__class__", JStr(Tag(n)))] + WriteArgs(n));
    WriteArgsKept(n);
    WriteTagged(Tag(n), Args(n));
  }

  /** A record headed by `__class__` is written with that member first. */
  lemma WriteTagged(tag: string, a: seq<(string, Value)>)
    ensures Write(Obj([("__class__", Str(tag))] + a))
      == JObj([("__class__", JStr(tag))] + WriteMembers(ExtendObject(a)))
  {
    var c := ("__class__", Str(tag));
    var e := ExtendObject(a);
    ExtendTagged(c, a);
    WriteObject([c] + a);
    WriteMembersAppend([c], e);
    WriteTagMember(tag);
  }

  lemma ExtendTagged(c: (string, Value), a: seq<(string, Value)>)
    requires c.1 != Undefined
    ensures ExtendObject([c] + a) == [c] + ExtendObject(a)
  {
    ExtendObjectAppend([c], a);
    assert [c][..0] == [];
  }

  lemma WriteTagMember(tag: string)
    ensures WriteMembers([("__class__", Str(tag))]) == [("__class__", JStr(tag))]
  {
  }

  lemma WriteMembersAppend(x: seq<(string, Value)>, y: seq<(string, Value)>)
    ensures WriteMembers(x + y) == WriteMembers(x) + WriteMembers(y)
  {
    forall i | 0 <= i < |x| + |y| ensures WriteMembers(x + y)[i] == (WriteMembers(x) + WriteMembers(y))[i] {
      if i >= |x| { assert (x + y)[i] == y[i - |x|]; }
    }
  }

  /** A number, string, boolean or null is written as itself. */
  lemma WriteScalarAgrees(v: Value)
    requires v.Null? || v.Number? || v.Str? || v.Boolean?
    ensures Encodable(v) && Write(v) == WriteScalar(v)
  {
  }

  /** A record whose every member is a number, string, boolean or null. */
  predicate ScalarRecord(p: seq<(string, Value)>)
  {
    forall i :: 0 <= i < |p| ==> p[i].1.Null? || p[i].1.Number? || p[i].1.Str? || p[i].1.Boolean?
  }

  /** A record of scalars is written member by member. */
  lemma WriteScalarRecord(p: seq<(string, Value)>)
    requires ScalarRecord(p)
    ensures Encodable(Obj(p))
    ensures Write(Obj(p)) == JObj(seq(|p|, i requires 0 <= i < |p| => (p[i].0, WriteScalar(p[i].1))))
  {
    forall i | 0 <= i < |p| ensures Encodable(p[i].1) && Write(p[i].1) == WriteScalar(p[i].1) {
      WriteScalarAgrees(p[i].1);
    }
    WriteDefined(Obj(p));
  }

  /** A moment is written as the `pyson()` record of its node. */
  lemma WriteMomentIsRecord(k: MomentKind, f: Fields)
    ensures Encodable(Obj(Projection(MomentNode(k, f))))
    ensures Write(Moment(k, f)) == Write(Obj(Projection(MomentNode(k, f))))
  {
    MomentRecordScalar(k, f);
    WriteScalarRecord(Projection(MomentNode(k, f)));
  }

  lemma MomentRecordScalar(k: MomentKind, f: Fields)
    ensures ScalarRecord(Projection(MomentNode(k, f)))
  {
    var p := Projection(MomentNode(k, f));
    assert forall i :: 0 <= i < |p| ==> p[i].1.Null? || p[i].1.Number? || p[i].1.Str?;
  }

  lemma MomentNodeEncodable(k: MomentKind, f: Fields)
    ensures NodeEncodable(MomentNode(k, f))
  {
    assert Encodable(Null) && forall x :: Encodable(Number(x));
    var z := Number(0);
    if k == DateKind {
      assert MomentNode(k, f) == Date(Number(f.year), Number(f.month + 1), Number(f.day), z, z, z, Null);
    } else {
      assert MomentNode(k, f) == DateTime(Number(f.year), Number(f.month + 1), Number(f.day), Number(f.hour),
        Number(f.minute), Number(f.second), Number(f.millisecond * 1000), z, z, z, z, z, z, z, Null);
    }
  }

  /** A moment is written exactly like the node the encoder builds for it. */
  lemma WriteMomentIsNode(k: MomentKind, f: Fields)
    ensures NodeEncodable(MomentNode(k, f))
    ensures Write(Moment(k, f)) == Write(Expr(MomentNode(k, f)))
  {
    MomentNodeEncodable(k, f);
    WriteMomentIsRecord(k, f);
    WriteNodeIsProjection(MomentNode(k, f));
  }

  /** `prepare` does not change what is written: its copies leave out what
      the writer leaves out, so copying only protects the caller's value. */
  lemma {:induction false} WritePrepared(v: Value)
    requires Encodable(v)
    ensures Encodable(Prepared(v))
    ensures Write(Prepared(v)) == Write(v)
    decreases v, 1
  {
    match v
    case Arr(items) => WritePreparedItems(items);
    case Obj(ms) => WritePreparedMembers(ms);
    case Moment(k, f) => WriteMomentIsRecord(k, f);
    case _ =>
  }

  lemma {:induction false} WritePreparedItems(items: seq<Value>)
    requires Encodable(Arr(items))
    ensures Encodable(Prepared(Arr(items)))
    ensures Write(Prepared(Arr(items))) == Write(Arr(items))
    decreases items, 0
  {
    var kept := ExtendArray(items);
    var p := Prepared(Arr(items)).items;
    forall i | 0 <= i < |kept|
      ensures Encodable(Prepared(items[i])) && Write(Prepared(items[i])) == Write(items[i])
    {
      WritePrepared(items[i]);
    }
    assert ExtendArray(p) == p;
  }

  lemma {:induction false} WritePreparedMembers(ms: seq<(string, Value)>)
    requires Encodable(Obj(ms))
    ensures Encodable(Prepared(Obj(ms)))
    ensures Write(Prepared(Obj(ms))) == Write(Obj(ms))
    decreases ms, 0
  {
    var kept := ExtendObject(ms);
    var p := Prepared(Obj(ms)).members;
    forall i | 0 <= i < |kept|
      ensures Encodable(Prepared(kept[i].1)) && Write(Prepared(kept[i].1)) == Write(kept[i].1)
    {
      var j :| 0 <= j < |ms| && ms[j] == kept[i];
      WritePrepared(kept[i].1);
    }
    assert ExtendObject(p) == p;
    WriteObject(ms);
    WriteObject(p);
    assert WriteMembers(p) == WriteMembers(kept);
  }
}

=== FILE: evaluate.dfy ===
/** The static `eval_` of every node except Date and DateTime: each works on
    the node's already-evaluated fields (and, for Eval, the context). A
    JavaScript TypeError is the error `"TypeError"`. */
module Evaluate {
  import opened Wrappers
  import opened Values
  import opened Calendar

  // ---- Eval ---------------------------------------------------------------

  /** `s.indexOf(c)`: the first position of c in s, or -1. */
  function CharIndex(s: string, c: char): (r: int)
    ensures -1 <= r < |s|
    ensures r == -1 <==> c !in s
    ensures r >= 0 ==> s[r] == c && c !in s[..r] && forall j :: 0 <= j < r ==> s[j] != c
  {
    if s == [] then -1
    else if s[0] == c then 0
    else
      var k := CharIndex(s[1..], c);
      if k == -1 then -1
      else
        assert s[..k + 1] == [s[0]] + s[1..][..k];
        k + 1
  }

  /** `Eval.eval_` on a path string: `v in context` throws unless the context
      is an object; a dotted path whose whole text is not a key descends into
      `context[head] || {}` with the rest of the path. */
  function EvalPath(path: string, d: Value, ctx: Value): (r: Result<Value>)
    decreases |path|
    ensures !IsObject(ctx) ==> r == Err("TypeError")
    ensures IsObject(ctx) && HasProperty(ctx, path) && GetProperty(ctx, path) != Undefined ==>
      r == Ok(GetProperty(ctx, path))
    ensures IsObject(ctx) && '.' !in path && !(HasProperty(ctx, path) && GetProperty(ctx, path) != Undefined) ==>
      r == Ok(d)
  {
    if !IsObject(ctx) then Err("TypeError")
    else
      var idx := CharIndex(path, '.');
      if idx >= 0 && !HasProperty(ctx, path) then
        var sub := GetProperty(ctx, path[..idx]);
        EvalPath(path[idx + 1..], d, if Truthy(sub) then sub else Obj([]))
      else if HasProperty(ctx, path) && GetProperty(ctx, path) != Undefined then Ok(GetProperty(ctx, path))
      else Ok(d)
  }

  /** `Eval.eval_` on a revived record. A string path is looked up as above.
      An array also has `indexOf`: it is looked up whole, under its joined
      text, with no descent, and an item equal to "." sends it to `substring`,
      which arrays lack, unless the key is present. Any other path has no
      `indexOf` and throws. */
  function EvalValue(v: Value, d: Value, ctx: Value): (r: Result<Value>)
    ensures !v.Str? && !v.Arr? ==> r == Err("TypeError")
    ensures v.Str? ==> r == EvalPath(v.s, d, ctx)
    ensures v.Arr? ==> (r.Err? <==> !IsObject(ctx) || (Str(".") in v.items && !HasProperty(ctx, PropertyKey(v))))
    ensures v.Arr? && r.Ok? ==>
      r.value == (if HasProperty(ctx, PropertyKey(v)) && GetProperty(ctx, PropertyKey(v)) != Undefined
                  then GetProperty(ctx, PropertyKey(v)) else d)
  {
    match v
    case Str(path) => EvalPath(path, d, ctx)
    case Arr(items) =>
      var key := PropertyKey(v);
      if !IsObject(ctx) then Err("TypeError")
      else if ArrayIndexOf(items, Str(".")) >= 0 && !HasProperty(ctx, key) then Err("TypeError")
      else if HasProperty(ctx, key) && GetProperty(ctx, key) != Undefined then Ok(GetProperty(ctx, key))
      else Ok(d)
    case _ => Err("TypeError")
  }

  /** An array path whose joined text has no dot reads the context exactly as
      that text would as a string path: the items are joined, never walked. */
  lemma ArrayPathIsJoinedKey(items: seq<Value>, d: Value, ctx: Value)
    requires JoinText(items).Some? && '.' !in JoinText(items).value
    ensures EvalValue(Arr(items), d, ctx) == EvalPath(JoinText(items).value, d, ctx)
  {
    if Str(".") in items {
      DotItemInText(items);
    }
  }

  /** An item "." puts a dot in the joined text. */
  lemma {:induction false} DotItemInText(items: seq<Value>)
    requires JoinText(items).Some? && Str(".") in items
    ensures '.' in JoinText(items).value
    decreases items
  {
    if |items| == 1 {
      assert items[0] == Str(".");
    } else if items[0] == Str(".") {
      assert JoinText(items).value == "." + "," + JoinText(items[1..]).value;
      assert JoinText(items).value[0] == '.';
    } else {
      assert Str(".") in items[1..] by {
        var i :| 0 <= i < |items| && items[i] == Str(".");
        assert i > 0 && items[1..][i - 1] == Str(".");
      }
      DotItemInText(items[1..]);
      var h, t := ItemText(items[0]).value, JoinText(items[1..]).value;
      assert JoinText(items).value == h + "," + t;
      var k :| 0 <= k < |t| && t[k] == '.';
      assert JoinText(items).value[|h| + 1 + k] == '.';
    }
  }

  /** `Eval(['a'], 0)` reads `context.a`; `Eval(['.'], 0)` throws when "." is
      not a key. */
  lemma ArrayPathScenario()
    ensures EvalValue(Arr([Str("a")]), Number(0), Obj([("a", Number(1))])) == Ok(Number(1))
    ensures EvalValue(Arr([Str(".")]), Number(0), Obj([("a", Number(1))])) == Err("TypeError")
  {
    var ms := [("a", Number(1))];
    assert JoinText([Str("a")]) == Some("a");
    assert PropertyKey(Arr([Str("a")])) == "a";
    assert ms[0].0 == "a";
    assert "a" in Keys(ms);
    assert Lookup(ms, "a") == Number(1);
    assert ArrayIndexOf([Str("a")], Str(".")) == -1;
    assert JoinText([Str(".")]) == Some(".");
    assert "." !in Keys(ms);
    assert Str(".") in [Str(".")];
  }

  /** The path of nested field names joined with dots. */
  function JoinDots(segs: seq<string>): string
    requires |segs| > 0
  {
    if |segs| == 1 then segs[0] else segs[0] + "." + JoinDots(segs[1..])
  }

  /** No key of any object reachable from v holds a dot. */
  predicate DotFree(v: Value)
  {
    match v
    case Obj(ms) => forall i :: 0 <= i < |ms| ==> '.' !in ms[i].0 && DotFree(ms[i].1)
    case Arr(items) => forall i :: 0 <= i < |items| ==> DotFree(items[i])
    case _ => true
  }

  /** The sub-context a path descends into: `context[head] || {}`. */
  function Descend(ctx: Value, key: string): Value
  {
    var sub := GetProperty(ctx, key);
    if Truthy(sub) then sub else Obj([])
  }

  /** Reference reading of a dotted path, one field name at a time. */
  function Walk(segs: seq<string>, d: Value, ctx: Value): Result<Value>
    requires |segs| > 0
  {
    if !IsObject(ctx) then Err("TypeError")
    else if |segs| == 1 then
      (if HasProperty(ctx, segs[0]) && GetProperty(ctx, segs[0]) != Undefined
       then Ok(GetProperty(ctx, segs[0])) else Ok(d))
    else Walk(segs[1..], d, Descend(ctx, segs[0]))
  }

  lemma DescendDotFree(ctx: Value, key: string)
    requires DotFree(ctx)
    ensures DotFree(Descend(ctx, key))
  {
    var sub := GetProperty(ctx, key);
    if ctx.Obj? && sub != Undefined {
      var i :| 0 <= i < |ctx.members| && ctx.members[i] == (key, sub);
    }
  }

  /** A joined path splits at its first dot into the first name and the rest. */
  lemma SplitAtFirstDot(segs: seq<string>)
    requires |segs| > 1 && '.' !in segs[0]
    ensures var path, idx := JoinDots(segs), |segs[0]|;
      '.' in path && CharIndex(path, '.') == idx &&
      path[..idx] == segs[0] && path[idx + 1..] == JoinDots(segs[1..])
  {
    var path := JoinDots(segs);
    assert path == segs[0] + "." + JoinDots(segs[1..]);
    assert path[..|segs[0]|] == segs[0];
    assert path[|segs[0]|] == '.';
    assert forall j :: 0 <= j < |segs[0]| ==> path[j] != '.' by {
      assert forall j :: 0 <= j < |segs[0]| ==> path[j] == segs[0][j];
    }
  }

  /** A dotted key is never an own property of a dot-free context. */
  lemma NoDottedProperty(ctx: Value, key: string)
    requires IsObject(ctx) && DotFree(ctx) && '.' in key
    ensures !HasProperty(ctx, key)
  {
    if ctx.Obj? {
      assert forall i :: 0 <= i < |ctx.members| ==> ctx.members[i].0 != key;
    } else if ctx.Arr? {
      var j :| 0 <= j < |key| && key[j] == '.';
      assert !AllDigits(key) by { assert !IsDigit(key[j]); }
    }
  }

  /** With no dotted keys anywhere, Eval reads a dotted path field by field:
      nesting is a plain walk down the context. */
  lemma {:induction false} EvalPathWalks(segs: seq<string>, d: Value, ctx: Value)
    requires |segs| > 0 && forall i :: 0 <= i < |segs| ==> '.' !in segs[i]
    requires DotFree(ctx)
    ensures EvalPath(JoinDots(segs), d, ctx) == Walk(segs, d, ctx)
    decreases |segs|
  {
    if |segs| > 1 && IsObject(ctx) {
      var path := JoinDots(segs);
      SplitAtFirstDot(segs);
      NoDottedProperty(ctx, path);
      DescendDotFree(ctx, segs[0]);
      forall i | 0 <= i < |segs[1..]| ensures '.' !in segs[1..][i] {
        assert segs[1..][i] == segs[i + 1];
      }
      EvalPathWalks(segs[1..], d, Descend(ctx, segs[0]));
    }
  }

  // ---- Not, Bool, If ------------------------------------------------------

  /** `!v`. */
  function NotValue(v: Value): (r: Value)
    ensures r.Boolean? && (r.b <==> !Truthy(v))
  {
    Boolean(!Truthy(v))
  }

  /** `Bool.eval_`: the first matching rule decides. A time is true when any of
      its clock fields is non-zero, a duration or decimal when non-zero, an
      array or dict when non-empty, any other object always; the rest follow
      JavaScript truthiness. */
  function BoolValue(v: Value): (r: bool)
    ensures IsPrimitive(v) ==> (r <==> Truthy(v))
    ensures v.Arr? ==> (r <==> |v.items| > 0)
    ensures v.Obj? ==> (r <==> |v.members| > 0)
  {
    match v
    case Moment(TimeKind, f) => f.hour != 0 || f.minute != 0 || f.second != 0 || f.millisecond != 0
    case Duration(ms) => ms != 0
    case Decimal(a) => a != 0
    case Arr(items) => items != []
    case Obj(ms) => ms != []
    case _ => Truthy(v)
  }

  /** `Bool` and `!!` part ways exactly on the objects that count as empty or zero:
      these are truthy in JavaScript and false for Bool. */
  lemma BoolStricterThanTruthy(v: Value)
    ensures BoolValue(v) ==> Truthy(v)
    ensures Truthy(v) && !BoolValue(v) <==>
      v == Arr([]) || v == Obj([]) || v == Duration(0) || v == Decimal(0) ||
      (v.Moment? && v.kind == TimeKind && Midnight(v.fields) == v.fields)
  {
  }

  /** `If.eval_`. */
  function IfValue(c: Value, t: Value, e: Value): (r: Value)
    ensures Truthy(c) ==> r == t
    ensures !Truthy(c) ==> r == e
  {
    if Truthy(c) then t else e
  }

  /** Negating the condition swaps the branches. */
  lemma IfNotSwaps(c: Value, t: Value, e: Value)
    ensures IfValue(NotValue(c), t, e) == IfValue(c, e, t)
  {
  }

  // ---- And, Or ------------------------------------------------------------

  /** `for (const statement of s)`: an array's items or a string's characters;
      anything else is not iterable. */
  function Statements(s: Value): (r: Result<seq<Value>>)
    ensures r.Ok? <==> s.Arr? || s.Str?
    ensures s.Arr? ==> r == Ok(s.items)
    ensures s.Str? ==> (r.Ok? && |r.value| == |s.s| &&
      forall i :: 0 <= i < |s.s| ==> r.value[i] == Str([s.s[i]]))
  {
    match s
    case Arr(items) => Ok(items)
    case Str(chars) => Ok(seq(|chars|, i requires 0 <= i < |chars| => Str([chars[i]])))
    case _ => Err("TypeError")
  }

  /** The accumulator of And's loop after each statement: `acc && s[0] && …`. */
  function AndFold(acc: Value, s: seq<Value>): Value
    decreases |s|
  {
    if s == [] then acc else AndFold(if Truthy(acc) then s[0] else acc, s[1..])
  }

  function OrFold(acc: Value, s: seq<Value>): Value
    decreases |s|
  {
    if s == [] then acc else OrFold(if Truthy(acc) then acc else s[0], s[1..])
  }

  /** Reference meaning of `s[0] && s[1] && …`: the first falsy statement, or
      the last one when all are truthy. */
  function Conjunction(s: seq<Value>): (r: Value)
    requires |s| > 0
    ensures Truthy(r) <==> forall i :: 0 <= i < |s| ==> Truthy(s[i])
    ensures r in s
  {
    if |s| == 1 || !Truthy(s[0]) then s[0] else Conjunction(s[1..])
  }

  /** Reference meaning of `s[0] || s[1] || …`: the first truthy statement, or
      the last one when all are falsy. */
  function Disjunction(s: seq<Value>): (r: Value)
    requires |s| > 0
    ensures Truthy(r) <==> exists i :: 0 <= i < |s| && Truthy(s[i])
    ensures r in s
  {
    if |s| == 1 || Truthy(s[0]) then s[0] else Disjunction(s[1..])
  }

  /** The left fold from a truthy start equals the short-circuit reading; from a
      falsy start it stays at the start. */
  lemma {:induction false} AndFoldIsConjunction(acc: Value, s: seq<Value>)
    ensures !Truthy(acc) ==> AndFold(acc, s) == acc
    ensures Truthy(acc) && |s| > 0 ==> AndFold(acc, s) == Conjunction(s)
    decreases |s|
  {
    if s != [] {
      AndFoldIsConjunction(if Truthy(acc) then s[0] else acc, s[1..]);
    }
  }

  lemma {:induction false} OrFoldIsDisjunction(acc: Value, s: seq<Value>)
    ensures Truthy(acc) ==> OrFold(acc, s) == acc
    ensures !Truthy(acc) && |s| > 0 ==> OrFold(acc, s) == Disjunction(s)
    decreases |s|
  {
    if s != [] {
      OrFoldIsDisjunction(if Truthy(acc) then acc else s[0], s[1..]);
    }
  }

  /** `And.eval_`. */
  function AndValue(s: Value): (r: Result<Value>)
    ensures r.Ok? <==> s.Arr? || s.Str?
  {
    var items :- Statements(s);
    Ok(AndFold(Boolean(true), items))
  }

  /** `Or.eval_`. */
  function OrValue(s: Value): (r: Result<Value>)
    ensures r.Ok? <==> s.Arr? || s.Str?
  {
    var items :- Statements(s);
    Ok(OrFold(Boolean(false), items))
  }

  /** And is true for no statements, else the first falsy statement or the last. */
  lemma AndValueMeaning(items: seq<Value>)
    ensures AndValue(Arr(items)) == Ok(if items == [] then Boolean(true) else Conjunction(items))
    ensures Truthy(AndValue(Arr(items)).value) <==> forall i :: 0 <= i < |items| ==> Truthy(items[i])
  {
    AndFoldIsConjunction(Boolean(true), items);
  }

  /** Or is false for no statements, else the first truthy statement or the last. */
  lemma OrValueMeaning(items: seq<Value>)
    ensures OrValue(Arr(items)) == Ok(if items == [] then Boolean(false) else Disjunction(items))
    ensures Truthy(OrValue(Arr(items)).value) <==> exists i :: 0 <= i < |items| && Truthy(items[i])
  {
    OrFoldIsDisjunction(Boolean(false), items);
  }

  /** De Morgan through the evaluators: Not(And(s)) and Or of the negations agree. */
  lemma AndOrDuality(items: seq<Value>)
    ensures NotValue(AndValue(Arr(items)).value) ==
      NotValue(NotValue(OrValue(Arr(seq(|items|, i requires 0 <= i < |items| => NotValue(items[i])))).value))
  {
    var negs := seq(|items|, i requires 0 <= i < |items| => NotValue(items[i]));
    AndValueMeaning(items);
    OrValueMeaning(negs);
    assert (exists i :: 0 <= i < |negs| && Truthy(negs[i])) <==>
      !(forall i :: 0 <= i < |items| ==> Truthy(items[i])) by {
      assert forall i :: 0 <= i < |items| ==> (Truthy(negs[i]) <==> !Truthy(items[i]));
    }
  }

  /** And's loop, accumulator by accumulator. */
  method AndLoop(s: seq<Value>) returns (result: Value)
    ensures result == (if s == [] then Boolean(true) else Conjunction(s))
  {
    result := Boolean(true);
    for i := 0 to |s|
      invariant AndFold(result, s[i..]) == AndFold(Boolean(true), s)
    {
      assert s[i..][1..] == s[i + 1..];
      result := if Truthy(result) then s[i] else result;
    }
    assert s[|s|..] == [];
    AndFoldIsConjunction(Boolean(true), s);
  }

  /** Or's loop, accumulator by accumulator. */
  method OrLoop(s: seq<Value>) returns (result: Value)
    ensures result == (if s == [] then Boolean(false) else Disjunction(s))
  {
    result := Boolean(false);
    for i := 0 to |s|
      invariant OrFold(result, s[i..]) == OrFold(Boolean(false), s)
    {
      assert s[i..][1..] == s[i + 1..];
      result := if Truthy(result) then result else s[i];
    }
    assert s[|s|..] == [];
    OrFoldIsDisjunction(Boolean(false), s);
  }

  // ---- Equal --------------------------------------------------------------

  /** `Equal.eval_`: arrays compare structurally, two dates compare their
      `isDate`/`isDateTime` flags and their instants, the rest use `==`. */
  predicate EqualValues(a: Value, b: Value)
  {
    if a.Arr? && b.Arr? then a == b
    else if a.Moment? && b.Moment? then
      (a.kind == DateKind) == (b.kind == DateKind) &&
      (a.kind == DateTimeKind) == (b.kind == DateTimeKind) &&
      Instant(a.fields) == Instant(b.fields)
    else LooseEquals(a, b)
  }

  /** Equal is symmetric, and reflexive except on the objects `==` compares by
      identity (dicts, durations, decimals, nodes). */
  lemma EqualSymmetricReflexive(a: Value, b: Value)
    ensures EqualValues(a, b) == EqualValues(b, a)
    ensures EqualValues(a, a) <==> !(a.Obj? || a.Duration? || a.Decimal? || a.Expr?)
  {
    if !IsObject(a) && !a.Undefined? && !a.Null? && !a.Str? {
      assert ToNumber(a).Some?;
    }
  }

  /** A date and a datetime at the same instant are not equal. */
  lemma EqualDistinguishesDateFromDateTime(f: Fields)
    ensures !EqualValues(Moment(DateKind, f), Moment(DateTimeKind, f))
  {
  }

  /** An array or a dict meets a primitive through its text: `[] == ''`,
      `[] == false` and `[n] == n` hold, `{}` equals "[object Object]", and an
      array equals a string exactly when its items join to it. */
  lemma ObjectsCompareByText(n: int, items: seq<Value>, s: string)
    ensures EqualValues(Arr([]), Str("")) && EqualValues(Arr([]), Boolean(false))
    ensures EqualValues(Arr([Number(n)]), Number(n))
    ensures EqualValues(Obj([]), Str("[object Object]")) && !EqualValues(Obj([]), Number(0))
    ensures EqualValues(Arr(items), Str(s)) <==> JoinText(items) == Some(s)
  {
    EmptyArrayComparesAsText();
    SingletonComparesAsText(n);
    EmptyDictComparesAsText();
    ArrayComparesAsText(items, s);
  }

  lemma EmptyArrayComparesAsText()
    ensures EqualValues(Arr([]), Str("")) && EqualValues(Arr([]), Boolean(false))
  {
  }

  lemma SingletonComparesAsText(n: int)
    ensures EqualValues(Arr([Number(n)]), Number(n))
  {
    IntToStringRoundTrip(n);
    assert JoinText([Number(n)]) == Some(IntToString(n));
  }

  lemma EmptyDictComparesAsText()
    ensures EqualValues(Obj([]), Str("[object Object]")) && !EqualValues(Obj([]), Number(0))
  {
  }

  lemma ArrayComparesAsText(items: seq<Value>, s: string)
    ensures EqualValues(Arr(items), Str(s)) <==> JoinText(items) == Some(s)
  {
  }

  // ---- Greater, Less ------------------------------------------------------

  predicate Nullish(v: Value)
  {
    v.Null? || v.Undefined?
  }

  /** `Greater._convert`: both operands rewritten through a two-slot array,
      dates to their instant, the rest through `Number` (None is NaN). */
  method Convert(s1: Value, s2: Value) returns (values: array<Option<int>>)
    ensures fresh(values) && values.Length == 2
    ensures values[0] == ToNumber(s1) && values[1] == ToNumber(s2)
  {
    var operands := [s1, s2];
    values := new Option<int>[2];
    for i := 0 to 2
      invariant forall k :: 0 <= k < i ==> values[k] == ToNumber(operands[k])
    {
      values[i] := if operands[i].Moment? then Some(Instant(operands[i].fields)) else ToNumber(operands[i]);
    }
  }

  /** `Greater.eval_`: false when either side is null or undefined or converts
      to NaN; otherwise `>=` when e is truthy and `>` when it is not. */
  predicate GreaterValue(s1: Value, s2: Value, e: Value)
  {
    !Nullish(s1) && !Nullish(s2) && Ordered(ToNumber(s2), ToNumber(s1), Truthy(e))
  }

  /** `Less.eval_`. */
  predicate LessValue(s1: Value, s2: Value, e: Value)
  {
    !Nullish(s1) && !Nullish(s2) && Ordered(ToNumber(s1), ToNumber(s2), Truthy(e))
  }

  /** JavaScript's `<` (or `<=` when equality is allowed) on two converted
      operands: false as soon as either is NaN. */
  predicate Ordered(lo: Option<int>, hi: Option<int>, orEqual: bool)
  {
    lo.Some? && hi.Some? && (if orEqual then lo.value <= hi.value else lo.value < hi.value)
  }

  method GreaterEval(s1: Value, s2: Value, e: Value) returns (r: bool)
    ensures r == GreaterValue(s1, s2, e)
  {
    if Nullish(s1) || Nullish(s2) {
      return false;
    }
    var values := Convert(s1, s2);
    r := Ordered(values[1], values[0], Truthy(e));
  }

  method LessEval(s1: Value, s2: Value, e: Value) returns (r: bool)
    ensures r == LessValue(s1, s2, e)
  {
    if Nullish(s1) || Nullish(s2) {
      return false;
    }
    var values := Convert(s1, s2);
    r := Ordered(values[0], values[1], Truthy(e));
  }

  /** Less is Greater with the operands swapped; strict Greater is
      asymmetric; with `e` set, Greater also holds on equal values. */
  lemma GreaterLessLaws(a: Value, b: Value, e: Value)
    ensures LessValue(a, b, e) == GreaterValue(b, a, e)
    ensures GreaterValue(a, b, Boolean(false)) ==> !GreaterValue(b, a, Boolean(false))
    ensures GreaterValue(a, b, Boolean(true)) <==>
      GreaterValue(a, b, Boolean(false)) || (GreaterValue(a, b, Boolean(true)) && GreaterValue(b, a, Boolean(true)))
    ensures !Nullish(a) && !Nullish(b) && ToNumber(a).Some? && ToNumber(b).Some? ==>
      GreaterValue(a, b, Boolean(true)) || LessValue(a, b, Boolean(false))
  {
  }

  /** `Number()` reads an array through its text: `[]` is 0, `[n]` is n, a dict
      is NaN; so `[] > -1` and `[5] > 3` hold. */
  lemma ArraysCompareAsNumbers(n: int)
    ensures ToNumber(Arr([])) == Some(0) && ToNumber(Arr([Number(n)])) == Some(n) && ToNumber(Obj([])) == None
    ensures GreaterValue(Arr([]), Number(-1), Boolean(false))
    ensures GreaterValue(Arr([Number(5)]), Number(3), Boolean(false))
  {
    SingletonAsNumber(n);
    SingletonAsNumber(5);
    DictAsNumber();
  }

  lemma SingletonAsNumber(n: int)
    ensures ToNumber(Arr([Number(n)])) == Some(n)
  {
    IntToStringRoundTrip(n);
    assert JoinText([Number(n)]) == Some(IntToString(n));
  }

  lemma DictAsNumber()
    ensures ToNumber(Obj([])) == None
  {
    assert ParseNumber("[object Object]") == None;
  }

  // ---- Get, In ------------------------------------------------------------

  /** `Get.eval_`: `k in v` throws unless v is an object; a present key
      gives its value (even an undefined one), an absent key the default. */
  function GetValue(v: Value, k: Value, d: Value): (r: Result<Value>)
    ensures !IsObject(v) <==> r.Err?
    ensures v.Obj? && PropertyKey(k) in Keys(v.members) ==> r == Ok(Lookup(v.members, PropertyKey(k)))
    ensures v.Obj? && PropertyKey(k) !in Keys(v.members) ==> r == Ok(d)
  {
    if !IsObject(v) then Err("TypeError")
    else if HasProperty(v, PropertyKey(k)) then Ok(GetProperty(v, PropertyKey(k)))
    else Ok(d)
  }

  /** A key present with an undefined value: Get returns undefined where
      Eval falls back to its default. */
  lemma GetKeepsUndefinedEvalDoesNot(key: string, d: Value)
    requires '.' !in key
    ensures GetValue(Obj([(key, Undefined)]), Str(key), d) == Ok(Undefined)
    ensures EvalPath(key, d, Obj([(key, Undefined)])) == Ok(d)
  {
    assert [(key, Undefined)][0].0 == key;
  }

  /** Occurrence of t in s at position i. */
  predicate OccursAt(s: string, t: string, i: int)
  {
    0 <= i && i + |t| <= |s| && forall j :: 0 <= j < |t| ==> s[i + j] == t[j]
  }

  /** `s.indexOf(t)`. */
  function StringIndexOf(s: string, t: string): (r: int)
    ensures -1 <= r <= |s|
    ensures r == -1 <==> forall i :: 0 <= i <= |s| ==> !OccursAt(s, t, i)
    ensures r >= 0 ==> OccursAt(s, t, r) && forall i :: 0 <= i < r ==> !OccursAt(s, t, i)
    decreases |s|
  {
    if |t| > |s| then -1
    else if OccursAt(s, t, 0) then 0
    else
      var k := StringIndexOf(s[1..], t);
      assert forall i :: 1 <= i <= |s| ==> (OccursAt(s, t, i) <==> OccursAt(s[1..], t, i - 1)) by {
        forall i | 1 <= i <= |s| ensures OccursAt(s, t, i) <==> OccursAt(s[1..], t, i - 1) {
          if OccursAt(s, t, i) {
            forall j | 0 <= j < |t| ensures s[1..][i - 1 + j] == t[j] {
              assert s[1..][i - 1 + j] == s[i + j];
            }
          }
          if OccursAt(s[1..], t, i - 1) {
            forall j | 0 <= j < |t| ensures s[i + j] == t[j] {
              assert s[1..][i - 1 + j] == s[i + j];
            }
          }
        }
      }
      if k == -1 then -1
      else
        assert OccursAt(s, t, k + 1);
        k + 1
  }

  /** `a.indexOf(x)`: strict equality. Model values carry no identity, so an
      object is never taken to be the same object as an item. */
  function ArrayIndexOf(items: seq<Value>, x: Value): (r: int)
    ensures -1 <= r < |items|
    ensures r == -1 <==> forall i :: 0 <= i < |items| ==> !StrictEquals(items[i], x)
    ensures r >= 0 ==> StrictEquals(items[r], x) && forall i :: 0 <= i < r ==> !StrictEquals(items[i], x)
  {
    if items == [] then -1
    else if StrictEquals(items[0], x) then 0
    else
      var k := ArrayIndexOf(items[1..], x);
      if k == -1 then -1 else k + 1
  }

  /** `In.eval_`: false for a falsy container; `indexOf` membership for a
      string or an array; a dict whose `indexOf` member is truthy throws (it
      is not a function); otherwise the truthiness of `v[k]`. */
  function InValue(k: Value, v: Value): (r: Result<Value>)
    ensures r.Ok? ==> r.value.Boolean?
    ensures r.Err? <==> v.Obj? && Truthy(Lookup(v.members, "indexOf"))
    ensures !Truthy(v) ==> r == Ok(Boolean(false))
    ensures v.Arr? ==> r == Ok(Boolean(exists i :: 0 <= i < |v.items| && StrictEquals(v.items[i], k)))
    ensures v.Str? && v.s != "" ==>
      r == Ok(Boolean(exists i :: 0 <= i <= |v.s| && OccursAt(v.s, PropertyKey(k), i)))
    ensures v.Obj? && !Truthy(Lookup(v.members, "indexOf")) ==>
      r == Ok(Boolean(Truthy(Lookup(v.members, PropertyKey(k)))))
  {
    if !Truthy(v) then Ok(Boolean(false))
    else match v
      case Arr(items) => Ok(Boolean(ArrayIndexOf(items, k) != -1))
      case Str(s) => Ok(Boolean(StringIndexOf(s, PropertyKey(k)) != -1))
      case Obj(ms) =>
        if Truthy(Lookup(ms, "indexOf")) then Err("TypeError")
        else Ok(Boolean(Truthy(Lookup(ms, PropertyKey(k)))))
      case _ => Ok(Boolean(Truthy(GetProperty(v, PropertyKey(k)))))
  }

  /** In on a dict tests the truthiness of the stored value, not the key's presence. */
  lemma InTestsValueNotKey(key: string)
    requires key != "indexOf"
    ensures InValue(Str(key), Obj([(key, Number(0))])) == Ok(Boolean(false))
    ensures GetValue(Obj([(key, Number(0))]), Str(key), Null) == Ok(Number(0))
  {
    assert [(key, Number(0))][0].0 == key;
  }

  // ---- Len, TimeDelta -----------------------------------------------------

  /** `Len.eval_`: `Object.keys(v).length` for objects (null throws), `.length`
      otherwise (undefined throws, a number or boolean has none; a string
      counts UTF-16 code units). Own
      properties of dates, durations, decimals and nodes are not modelled. */
  function LenValue(v: Value): (r: Result<Value>)
    ensures v.Arr? ==> r == Ok(Number(|v.items|))
    ensures v.Obj? ==> r == Ok(Number(|Keys(v.members)|))
    ensures v.Str? ==> r == Ok(Number(Utf16Length(v.s)))
    ensures v.Str? && (forall i :: 0 <= i < |v.s| ==> v.s[i] as int < 0x1_0000) ==> r == Ok(Number(|v.s|))
    ensures v.Null? || v.Undefined? ==> r == Err("TypeError")
    ensures v.Number? || v.Boolean? ==> r == Ok(Undefined)
  {
    match v
    case Null => Err("TypeError")
    case Undefined => Err("TypeError")
    case Arr(items) => Ok(Number(|items|))
    case Obj(ms) => Ok(Number(|Keys(ms)|))
    case Str(s) => Ok(Number(Utf16Length(s)))
    case Number(_) => Ok(Undefined)
    case Boolean(_) => Ok(Undefined)
    case _ => Err("own properties of a host object")
  }

  /** The length Len reports for an array or a string is its `length` property. */
  lemma LenIsLength(v: Value)
    requires v.Arr? || v.Str?
    ensures LenValue(v) == Ok(GetProperty(v, "length"))
  {
  }

  /** A dict with n distinct keys has length n. */
  lemma LenCountsDistinctKeys(ms: seq<(string, Value)>)
    requires forall i, j :: 0 <= i < j < |ms| ==> ms[i].0 != ms[j].0
    ensures LenValue(Obj(ms)) == Ok(Number(|ms|))
  {
    InjectiveImageSize(ms);
  }

  lemma {:induction false} InjectiveImageSize(ms: seq<(string, Value)>)
    requires forall i, j :: 0 <= i < j < |ms| ==> ms[i].0 != ms[j].0
    ensures |Keys(ms)| == |ms|
  {
    if ms != [] {
      InjectiveImageSize(ms[1..]);
      assert Keys(ms) == {ms[0].0} + Keys(ms[1..]) by {
        forall k | k in Keys(ms) ensures k in {ms[0].0} + Keys(ms[1..]) {
          var i :| 0 <= i < |ms| && ms[i].0 == k;
          if i > 0 { assert ms[1..][i - 1].0 == k; }
        }
      }
      assert ms[0].0 !in Keys(ms[1..]) by {
        assert forall i :: 0 <= i < |ms[1..]| ==> ms[1..][i].0 == ms[i + 1].0 != ms[0].0;
      }
    }
  }

  /** JavaScript's `/` followed by truncation toward zero. */
  function TruncDiv(a: int, b: int): int
    requires b > 0
  {
    if a >= 0 then a / b else -((-a) / b)
  }

  const MillisPerDay := 86_400_000
  const MillisPerSecond := 1000

  /** `TimeDelta.eval_`: a duration of d days, s seconds and m microseconds,
      kept in whole milliseconds (m/1000 truncated toward zero). */
  function TimeDeltaValue(d: Value, s: Value, m: Value): (r: Result<Value>)
    ensures r.Ok? <==> d.Number? && s.Number? && m.Number?
    ensures r.Ok? ==> r.value.Duration?
  {
    if d.Number? && s.Number? && m.Number? then
      Ok(Duration(d.n * MillisPerDay + s.n * MillisPerSecond + TruncDiv(m.n, 1000)))
    else Err("TimeDelta fields must be numbers")
  }

  /** The evaluated duration: one second is 1000 ms, the days and seconds add
      up field by field, and microseconds become milliseconds truncated toward
      zero, so together they pin down every duration. */
  lemma TimeDeltaMillis(d1: int, s1: int, d2: int, s2: int, m: int)
    ensures TimeDeltaValue(Number(0), Number(1), Number(0)) == Ok(Duration(1000))
    ensures TimeDeltaValue(Number(d1 + d2), Number(s1 + s2), Number(m)).value.millis ==
      TimeDeltaValue(Number(d1), Number(s1), Number(m)).value.millis +
      TimeDeltaValue(Number(d2), Number(s2), Number(0)).value.millis
    ensures var x := TimeDeltaValue(Number(0), Number(0), Number(m)).value.millis;
      (m >= 0 ==> 1000 * x <= m < 1000 * x + 1000) && (m <= 0 ==> 1000 * x - 1000 < m <= 1000 * x)
  {
  }

  /** A day is 86400 seconds, a second 10^6 microseconds, and negation
      distributes over the three fields. */
  lemma TimeDeltaUnits(d: int, s: int, m: int)
    ensures TimeDeltaValue(Number(1), Number(0), Number(0)) == TimeDeltaValue(Number(0), Number(86400), Number(0))
    ensures TimeDeltaValue(Number(0), Number(1), Number(0)) == TimeDeltaValue(Number(0), Number(0), Number(1_000_000))
    ensures TimeDeltaValue(Number(-d), Number(-s), Number(-m)).value.millis ==
      -TimeDeltaValue(Number(d), Number(s), Number(m)).value.millis
  {
  }
}

=== FILE: examples.dfy ===
/** Concrete cases of the encoder, decoder and text rendering, taken from
    the behaviour `sao/tests/sao.js` expects of them. */
module Scenarios {
  import opened Wrappers
  import opened Values
  import opened Calendar
  import opened Nodes
  import opened Evaluate
  import opened Dates
  import opened Encoding
  import opened Decoding
  import opened Rendering

  /** `Len([1, 2, 3]).toString()` */
  lemma LenText(host: Value -> string)
    ensures Render(Expr(Len(Arr([Number(1), Number(2), Number(3)]))), host) == Some("Len([1, 2, 3])")
  {
    var items := [Number(1), Number(2), Number(3)];
    OneTwoThreeText(host);
    var n := Len(Arr(items));
    NodeText(n, host);
    assert StringParams(n) == [Arr(items)];
    assert Texts(StringParams(n), host) == ["[1, 2, 3]"];
    assert Join(["[1, 2, 3]"]) == "[1, 2, 3]";
    assert Text(Expr(n), host) == "Len" + "(" + "[1, 2, 3]" + ")" == "Len([1, 2, 3])";
  }

  lemma OneTwoThreeText(host: Value -> string)
    ensures Text(Arr([Number(1), Number(2), Number(3)]), host) == "[1, 2, 3]"
  {
    var items := [Number(1), Number(2), Number(3)];
    assert Texts(items, host) == ["1", "2", "3"];
    ArrText(items, host);
    JoinThree("1", "2", "3");
    assert Join(Texts(items, host)) == "1, 2, 3";
  }

  /** `Sao.PYSON.toString` of a plain object holding an array and a node. */
  lemma ObjectText(host: Value -> string)
    ensures Render(Obj([("test", Arr([Str("foo"), Str("bar")])), ("pyson", Expr(Eval(Str("test"), Str(""))))]), host)
      == Some("{\"test\": [\"foo\", \"bar\"], \"pyson\": Eval(\"test\", \"\")}")
  {
    var fb := Arr([Str("foo"), Str("bar")]);
    var ev := Expr(Eval(Str("test"), Str("")));
    QuotePlain("test");
    QuotePlain("pyson");
    assert Quote("test") == "\"test\"";
    assert Quote("pyson") == "\"pyson\"";
    FooBarText(host);
    EvalTestText(host);
    PairText("test", fb, "pyson", ev, host);
    ObjectTextSpelled();
    assert Text(Obj([("test", fb), ("pyson", ev)]), host)
      == "{\"test\": [\"foo\", \"bar\"], \"pyson\": Eval(\"test\", \"\")}";
  }

  /** The concatenation `PairText` leaves, as one literal: a solver step
      only, kept apart from `ObjectText` so that the sequence reasoning stays small. */
  lemma ObjectTextSpelled()
    ensures "{" + (("\"test\"" + ": " + "[\"foo\", \"bar\"]") + ", " + ("\"pyson\"" + ": " + "Eval(\"test\", \"\")")) + "}"
      == "{\"test\": [\"foo\", \"bar\"], \"pyson\": Eval(\"test\", \"\")}"
  {
    var t := "\"test\"" + ": " + "[\"foo\", \"bar\"]";
    var p := "\"pyson\"" + ": " + "Eval(\"test\", \"\")";
    assert "{" + (t + ", " + p) + "}" == "{" + t + ", " + p + "}";
    assert "{" + t == "{\"test\": [\"foo\", \"bar\"]";
    assert "{" + t + ", " == "{\"test\": [\"foo\", \"bar\"], ";
    assert "{" + t + ", " + p == "{\"test\": [\"foo\", \"bar\"], \"pyson\": Eval(\"test\", \"\")";
  }

  lemma FooBarText(host: Value -> string)
    ensures Text(Arr([Str("foo"), Str("bar")]), host) == "[\"foo\", \"bar\"]"
  {
    QuotePlain("foo");
    QuotePlain("bar");
    assert Text(Str("foo"), host) == "\"foo\"";
    assert Text(Str("bar"), host) == "\"bar\"";
    TwoItemsText(Str("foo"), Str("bar"), host);
    FooBarSpelled();
  }

  /** The concatenation `TwoItemsText` leaves, as one literal: a solver step
      only, kept apart from `FooBarText` so that the sequence reasoning stays small. */
  lemma FooBarSpelled()
    ensures "[" + ("\"foo\"" + ", " + "\"bar\"") + "]" == "[\"foo\", \"bar\"]"
  {
    var t := "\"foo\"" + ", " + "\"bar\"";
    assert t == "\"foo\", \"bar\"";
    assert "[" + t == "[\"foo\", \"bar\"";
  }

  lemma EvalTestText(host: Value -> string)
    ensures Text(Expr(Eval(Str("test"), Str(""))), host) == "Eval(\"test\", \"\")"
  {
    var n := Eval(Str("test"), Str(""));
    QuotePlain("test");
    QuotePlain("");
    assert StringParams(n) == [Str("test"), Str("")];
    assert Text(Str("test"), host) == "\"test\"" && Text(Str(""), host) == "\"\"";
    TwoParamsText(n, host);
    EvalTestSpelled();
  }

  /** The concatenation `TwoParamsText` leaves, as one literal: a solver step
      only, kept apart from `EvalTestText` for the same reason. */
  lemma EvalTestSpelled()
    ensures "Eval" + "(" + ("\"test\"" + ", " + "\"\"") + ")" == "Eval(\"test\", \"\")"
  {
  }

  lemma TwoItemsText(a: Value, b: Value, host: Value -> string)
    ensures Text(Arr([a, b]), host) == "[" + (Text(a, host) + ", " + Text(b, host)) + "]"
  {
    ArrText([a, b], host);
    assert Texts([a, b], host) == [Text(a, host), Text(b, host)];
    JoinTwo(Text(a, host), Text(b, host));
  }

  lemma TwoParamsText(n: Pyson, host: Value -> string)
    requires |StringParams(n)| == 2
    ensures Text(Expr(n), host)
      == Tag(n) + "(" + (Text(StringParams(n)[0], host) + ", " + Text(StringParams(n)[1], host)) + ")"
  {
    NodeText(n, host);
    var ps := StringParams(n);
    assert Texts(ps, host) == [Text(ps[0], host), Text(ps[1], host)];
    JoinTwo(Text(ps[0], host), Text(ps[1], host));
  }

  lemma PairText(k1: string, v1: Value, k2: string, v2: Value, host: Value -> string)
    requires v1 != Undefined && v2 != Undefined
    ensures Text(Obj([(k1, v1), (k2, v2)]), host)
      == "{" + ((Quote(k1) + ": " + Text(v1, host)) + ", " + (Quote(k2) + ": " + Text(v2, host))) + "}"
  {
    var ms := [(k1, v1), (k2, v2)];
    ObjText(ms, host);
    var t := Quote(k1) + ": " + Text(v1, host);
    var p := Quote(k2) + ": " + Text(v2, host);
    var mt := MemberTexts(ms, host);
    assert mt[0] == t;
    assert mt[1] == p;
    assert mt == [t, p];
    JoinTwo(t, p);
  }

  // ---- encoding ------------------------------------------------------------

  /** Nothing and null encode as null; 2002-01-01 is written as the node
      `Date(2002, 1, 1)` and 2002-01-01 12:30 as `DateTime(2002, 1, 1, 12, 30, 0, 0)`
      (see `WriteMomentIsNode`). */
  lemma EncoderScenario()
    ensures Encode(Undefined) == Ok(JNull) && Encode(Null) == Ok(JNull)
    ensures MomentNode(DateKind, Fields(2002, 0, 1, 0, 0, 0, 0)) ==
      Date(Number(2002), Number(1), Number(1), Number(0), Number(0), Number(0), Null)
    ensures MomentNode(DateTimeKind, Fields(2002, 0, 1, 12, 30, 0, 0)) ==
      DateTime(Number(2002), Number(1), Number(1), Number(12), Number(30), Number(0), Number(0),
               Number(0), Number(0), Number(0), Number(0), Number(0), Number(0), Number(0), Null)
  {
  }

  // ---- decoding ------------------------------------------------------------

  /** A wire value holding no node decodes in eval mode to itself. */
  lemma LiteralDecodes(v: Value, ctx: Value, clock: Clock)
    requires Wire(v) && NodeFree(v)
    ensures DecodesTo(v, v, ctx, clock)
  {
    RoundTrip(v, ctx, false, clock);
  }

  /** Decoding `Len(v)` with evaluation gives `Len.eval_` of v. */
  lemma LenEvaluates(v: Value, context: Value, clock: Clock)
    requires Wire(v) && NodeFree(v)
    ensures DecodeWith(Write(Expr(Len(v))), context, false, clock) == LenValue(v)
  {
    var ctx := DecoderContext(context);
    LiteralDecodes(v, ctx, clock);
    assert Tag(Len(v)) == "Len" && Args(Len(v)) == [("v", v)];
    OneChild(Len(v), v, ctx, clock);
    LenRecord(v, ctx, clock);
  }

  lemma LenRecord(v: Value, ctx: Value, clock: Clock)
    ensures EvalRecord("Len", [("__class__", Str("Len")), ("v", v)], ctx, clock) == LenValue(v)
  {
    var r := [("__class__", Str("Len")), ("v", v)];
    assert EvalRecord("Len", r, ctx, clock) == LenValue(Lookup(r, "v"));
    assert Lookup([("__class__", Str("Len")), ("v", v)], "v") == v;
  }

  /** Decoding `Eval(path, d)` with evaluation looks the path up in the context. */
  lemma EvalEvaluates(path: string, d: Value, context: Value, clock: Clock)
    requires Wire(d) && NodeFree(d)
    ensures DecodeWith(Write(Expr(Eval(Str(path), d))), context, false, clock)
      == EvalPath(path, d, DecoderContext(context))
  {
    var ctx := DecoderContext(context);
    LiteralDecodes(Str(path), ctx, clock);
    LiteralDecodes(d, ctx, clock);
    assert Tag(Eval(Str(path), d)) == "Eval" && Args(Eval(Str(path), d)) == [("v", Str(path)), ("d", d)];
    TwoChildren(Eval(Str(path), d), Str(path), d, ctx, clock);
    EvalRecordOfEval(Str(path), d, ctx, clock);
  }

  /** A name the context binds to a defined value reads as that value. */
  lemma KeyFoundEvaluates(p: string, v: Value, d: Value, clock: Clock)
    requires Wire(d) && NodeFree(d) && v != Undefined
    ensures DecodeWith(Write(Expr(Eval(Str(p), d))), Obj([(p, v)]), false, clock) == Ok(v)
  {
    EvalEvaluates(p, d, Obj([(p, v)]), clock);
    NameFound(p, d, v);
  }

  /** Without a context every plain name reads as the default. */
  lemma NoContextEvaluates(p: string, d: Value, clock: Clock)
    requires Wire(d) && NodeFree(d) && '.' !in p
    ensures DecodeWith(Write(Expr(Eval(Str(p), d))), Undefined, false, clock) == Ok(d)
  {
    EvalEvaluates(p, d, Undefined, clock);
    NameMissing(p, d, []);
  }

  /** A name bound to undefined reads as the default. */
  lemma KeyUndefinedEvaluates(p: string, d: Value, clock: Clock)
    requires Wire(d) && NodeFree(d) && '.' !in p
    ensures DecodeWith(Write(Expr(Eval(Str(p), d))), Obj([(p, Undefined)]), false, clock) == Ok(d)
  {
    EvalEvaluates(p, d, Obj([(p, Undefined)]), clock);
    assert Lookup([(p, Undefined)], p) == Undefined;
  }

  /** `Eval('test', 0)` decoded against `{test: 1}`, no context, and `{test: undefined}`. */
  lemma EvalScenario(clock: Clock)
    ensures DecodeWith(Write(Expr(Eval(Str("test"), Number(0)))), Obj([("test", Number(1))]), false, clock) == Ok(Number(1))
    ensures DecodeWith(Write(Expr(Eval(Str("test"), Number(0)))), Undefined, false, clock) == Ok(Number(0))
    ensures DecodeWith(Write(Expr(Eval(Str("test"), Number(0)))), Obj([("test", Undefined)]), false, clock) == Ok(Number(0))
  {
    KeyFoundEvaluates("test", Number(1), Number(0), clock);
    NoContextEvaluates("test", Number(0), clock);
    KeyUndefinedEvaluates("test", Number(0), clock);
  }

  /** `Len('foo bar')` decodes to 7. */
  lemma LenStringScenario(clock: Clock)
    ensures DecodeWith(Write(Expr(Len(Str("foo bar")))), Undefined, false, clock) == Ok(Number(7))
  {
    LenEvaluates(Str("foo bar"), Undefined, clock);
  }

  /** `Len([1, 2, 3])` decodes to 3. */
  lemma LenArrayScenario(clock: Clock)
    ensures DecodeWith(Write(Expr(Len(Arr([Number(1), Number(2), Number(3)])))), Undefined, false, clock) == Ok(Number(3))
  {
    LenEvaluates(Arr([Number(1), Number(2), Number(3)]), Undefined, clock);
  }

  /** `Len({1: 2, 3: 4})` decodes to 2. */
  lemma LenObjectScenario(clock: Clock)
    ensures DecodeWith(Write(Expr(Len(Obj([("1", Number(2)), ("3", Number(4))])))), Undefined, false, clock) == Ok(Number(2))
  {
    var ms := [("1", Number(2)), ("3", Number(4))];
    assert Plain(ms);
    LenEvaluates(Obj(ms), Undefined, clock);
    LenCountsDistinctKeys(ms);
  }

  // ---- dot notation ----------------------------------------------------------

  /** One step down a dotted path: when the whole path is not a key, Eval
      reads the rest of it in `context[first] || {}`. */
  lemma DotStep(a: string, rest: string, d: Value, ctx: Value)
    requires '.' !in a && IsObject(ctx) && DotFree(ctx)
    ensures EvalPath(a + "." + rest, d, ctx) == EvalPath(rest, d, Descend(ctx, a))
    ensures DotFree(Descend(ctx, a))
  {
    assert [a, rest][1..] == [rest];
    assert JoinDots([a, rest]) == a + "." + rest;
    SplitAtFirstDot([a, rest]);
    NoDottedProperty(ctx, a + "." + rest);
    DescendDotFree(ctx, a);
  }

  /** Eval of a path decodes against an object context to the path's reading there. */
  lemma PathEvaluates(path: string, d: Value, outer: seq<(string, Value)>, clock: Clock)
    requires Wire(d) && NodeFree(d)
    ensures DecodeWith(Write(Expr(Eval(Str(path), d))), Obj(outer), false, clock)
      == EvalPath(path, d, Obj(outer))
  {
    EvalEvaluates(path, d, Obj(outer), clock);
    assert DecoderContext(Obj(outer)) == Obj(outer);
  }

  /** A name found with a defined value reads as that value. */
  lemma NameFound(b: string, d: Value, v: Value)
    requires v != Undefined
    ensures EvalPath(b, d, Obj([(b, v)])) == Ok(v)
  {
    assert Lookup([(b, v)], b) == v;
    assert b in Keys([(b, v)]);
  }

  /** A name absent from the context reads as the default. */
  lemma NameMissing(b: string, d: Value, ms: seq<(string, Value)>)
    requires '.' !in b && forall i :: 0 <= i < |ms| ==> ms[i].0 != b
    ensures EvalPath(b, d, Obj(ms)) == Ok(d)
  {
    assert b !in Keys(ms);
  }

  /** Walking into a name the context lacks descends into `{}`. */
  lemma DescendMissing(a: string, ms: seq<(string, Value)>)
    requires forall i :: 0 <= i < |ms| ==> ms[i].0 != a
    ensures Descend(Obj(ms), a) == Obj([])
  {
  }

  /** Walking into a name bound to an object descends into that object. */
  lemma DescendFound(a: string, inner: seq<(string, Value)>)
    ensures Descend(Obj([(a, Obj(inner))]), a) == Obj(inner)
  {
    assert Lookup([(a, Obj(inner))], a) == Obj(inner);
  }

  /** A key holding the whole dotted path wins over walking down. */
  lemma DottedKeyFound(path: string, v: Value, rest: seq<(string, Value)>, d: Value)
    requires v != Undefined
    ensures EvalPath(path, d, Obj([(path, v)] + rest)) == Ok(v)
  {
    var ms := [(path, v)] + rest;
    assert ms[0] == (path, v);
    assert Lookup(ms, path) == v;
    assert path in Keys(ms);
  }

  /** The path `a.b` read in `{a: {b: v}}` is v. */
  lemma NestedPathFound(a: string, b: string, v: Value, d: Value)
    requires '.' !in a && '.' !in b && v != Undefined && DotFree(v)
    ensures EvalPath(a + "." + b, d, Obj([(a, Obj([(b, v)]))])) == Ok(v)
  {
    DotStep(a, b, d, Obj([(a, Obj([(b, v)]))]));
    DescendFound(a, [(b, v)]);
    NameFound(b, d, v);
  }

  /** The path `a.b` read in `{a: {k: v}}`, k other than b, is the default. */
  lemma NestedPathMissing(a: string, b: string, k: string, v: Value, d: Value)
    requires '.' !in a && '.' !in b && '.' !in k && k != b && DotFree(v)
    ensures EvalPath(a + "." + b, d, Obj([(a, Obj([(k, v)]))])) == Ok(d)
  {
    DotStep(a, b, d, Obj([(a, Obj([(k, v)]))]));
    DescendFound(a, [(k, v)]);
    NameMissing(b, d, [(k, v)]);
  }

  /** The path `a.b` read in `{k: w}`, k other than a, is the default. */
  lemma OuterPathMissing(a: string, b: string, k: string, w: Value, d: Value)
    requires '.' !in a && '.' !in b && '.' !in k && k != a && DotFree(w)
    ensures EvalPath(a + "." + b, d, Obj([(k, w)])) == Ok(d)
  {
    DotStep(a, b, d, Obj([(k, w)]));
    DescendMissing(a, [(k, w)]);
    NameMissing(b, d, []);
  }

  /** The path `a.b.c` read in `{a: {b: {c: v}}}` is v. */
  lemma TwiceNestedPathFound(a: string, b: string, c: string, v: Value, d: Value)
    requires '.' !in a && '.' !in b && '.' !in c && v != Undefined && DotFree(v)
    ensures EvalPath(a + "." + (b + "." + c), d, Obj([(a, Obj([(b, Obj([(c, v)]))]))])) == Ok(v)
  {
    var inner := Obj([(b, Obj([(c, v)]))]);
    DotStep(a, b + "." + c, d, Obj([(a, inner)]));
    DescendFound(a, inner.members);
    NestedPathFound(b, c, v, d);
  }

  /** The path `a.b.c` read in `{a: {k: v}}`, k other than b, is the default. */
  lemma TwiceNestedPathMissing(a: string, b: string, c: string, k: string, v: Value, d: Value)
    requires '.' !in a && '.' !in b && '.' !in c && '.' !in k && k != b && DotFree(v)
    ensures EvalPath(a + "." + (b + "." + c), d, Obj([(a, Obj([(k, v)]))])) == Ok(d)
  {
    DotStep(a, b + "." + c, d, Obj([(a, Obj([(k, v)]))]));
    DescendFound(a, [(k, v)]);
    OuterPathMissing(b, c, k, v, d);
  }

  /** `a.b` against `{a: {b: v}}` gives v. */
  lemma NestedFound(a: string, b: string, v: Value, d: Value, clock: Clock)
    requires '.' !in a && '.' !in b && v != Undefined && DotFree(v) && Wire(d) && NodeFree(d)
    ensures DecodeWith(Write(Expr(Eval(Str(a + "." + b), d))), Obj([(a, Obj([(b, v)]))]), false, clock) == Ok(v)
  {
    PathEvaluates(a + "." + b, d, [(a, Obj([(b, v)]))], clock);
    NestedPathFound(a, b, v, d);
  }

  /** `a.b` against `{a: {k: v}}` with k other than b gives the default. */
  lemma NestedMissing(a: string, b: string, k: string, v: Value, d: Value, clock: Clock)
    requires '.' !in a && '.' !in b && '.' !in k && k != b && DotFree(v) && Wire(d) && NodeFree(d)
    ensures DecodeWith(Write(Expr(Eval(Str(a + "." + b), d))), Obj([(a, Obj([(k, v)]))]), false, clock) == Ok(d)
  {
    PathEvaluates(a + "." + b, d, [(a, Obj([(k, v)]))], clock);
    NestedPathMissing(a, b, k, v, d);
  }

  /** `a.b` against `{k: w}` with k other than a gives the default. */
  lemma OuterMissing(a: string, b: string, k: string, w: Value, d: Value, clock: Clock)
    requires '.' !in a && '.' !in b && '.' !in k && k != a && DotFree(w) && Wire(d) && NodeFree(d)
    ensures DecodeWith(Write(Expr(Eval(Str(a + "." + b), d))), Obj([(k, w)]), false, clock) == Ok(d)
  {
    PathEvaluates(a + "." + b, d, [(k, w)], clock);
    OuterPathMissing(a, b, k, w, d);
  }

  /** `a.b.c` against `{a: {b: {c: v}}}` gives v. */
  lemma TwiceNestedFound(a: string, b: string, c: string, v: Value, d: Value, clock: Clock)
    requires '.' !in a && '.' !in b && '.' !in c && v != Undefined && DotFree(v) && Wire(d) && NodeFree(d)
    ensures DecodeWith(Write(Expr(Eval(Str(a + "." + (b + "." + c)), d))),
                       Obj([(a, Obj([(b, Obj([(c, v)]))]))]), false, clock) == Ok(v)
  {
    PathEvaluates(a + "." + (b + "." + c), d, [(a, Obj([(b, Obj([(c, v)]))]))], clock);
    TwiceNestedPathFound(a, b, c, v, d);
  }

  /** `a.b.c` against `{a: {k: v}}` with k other than b gives the default. */
  lemma TwiceNestedMissing(a: string, b: string, c: string, k: string, v: Value, d: Value, clock: Clock)
    requires '.' !in a && '.' !in b && '.' !in c && '.' !in k && k != b && DotFree(v) && Wire(d) && NodeFree(d)
    ensures DecodeWith(Write(Expr(Eval(Str(a + "." + (b + "." + c)), d))),
                       Obj([(a, Obj([(k, v)]))]), false, clock) == Ok(d)
  {
    PathEvaluates(a + "." + (b + "." + c), d, [(a, Obj([(k, v)]))], clock);
    TwiceNestedPathMissing(a, b, c, k, v, d);
  }

  /** A key holding the whole dotted path wins over walking down. */
  lemma DottedKeyWins(path: string, v: Value, rest: seq<(string, Value)>, d: Value, clock: Clock)
    requires v != Undefined && Wire(d) && NodeFree(d)
    ensures DecodeWith(Write(Expr(Eval(Str(path), d))), Obj([(path, v)] + rest), false, clock) == Ok(v)
  {
    PathEvaluates(path, d, [(path, v)] + rest, clock);
    DottedKeyFound(path, v, rest, d);
  }

  /** `Eval('foo.bar', 0)` against `{foo: {bar: 1}}` gives 1, against
      `{foo: {foo: 1}}` and `{bar: {bar: 1}}` the default 0. */
  lemma DottedScenario(clock: Clock)
    ensures DecodeWith(Write(Expr(Eval(Str("foo.bar"), Number(0)))),
                       Obj([("foo", Obj([("bar", Number(1))]))]), false, clock) == Ok(Number(1))
    ensures DecodeWith(Write(Expr(Eval(Str("foo.bar"), Number(0)))),
                       Obj([("foo", Obj([("foo", Number(1))]))]), false, clock) == Ok(Number(0))
    ensures DecodeWith(Write(Expr(Eval(Str("foo.bar"), Number(0)))),
                       Obj([("bar", Obj([("bar", Number(1))]))]), false, clock) == Ok(Number(0))
  {
    assert "foo.bar" == "foo" + "." + "bar";
    NestedFound("foo", "bar", Number(1), Number(0), clock);
    NestedMissing("foo", "bar", "foo", Number(1), Number(0), clock);
    OuterMissing("foo", "bar", "bar", Obj([("bar", Number(1))]), Number(0), clock);
  }

  /** `Eval('foo.bar.test', 0)` against `{foo: {bar: {test: 1}}}` gives 1,
      against `{foo: {foo: 1}}` the default 0. */
  lemma TwiceDottedScenario(clock: Clock)
    ensures DecodeWith(Write(Expr(Eval(Str("foo.bar.test"), Number(0)))),
                       Obj([("foo", Obj([("bar", Obj([("test", Number(1))]))]))]), false, clock) == Ok(Number(1))
    ensures DecodeWith(Write(Expr(Eval(Str("foo.bar.test"), Number(0)))),
                       Obj([("foo", Obj([("foo", Number(1))]))]), false, clock) == Ok(Number(0))
  {
    assert "foo.bar.test" == "foo" + "." + ("bar" + "." + "test");
    TwiceNestedFound("foo", "bar", "test", Number(1), Number(0), clock);
    TwiceNestedMissing("foo", "bar", "test", "foo", Number(1), Number(0), clock);
  }

  /** `Eval('foo.bar', 0)` against `{'foo.bar': 1, foo: {bar: 0}}` gives 1. */
  lemma DottedKeyScenario(clock: Clock)
    ensures DecodeWith(Write(Expr(Eval(Str("foo.bar"), Number(0)))),
                       Obj([("foo.bar", Number(1)), ("foo", Obj([("bar", Number(0))]))]), false, clock) == Ok(Number(1))
  {
    assert [("foo.bar", Number(1)), ("foo", Obj([("bar", Number(0))]))]
        == [("foo.bar", Number(1))] + [("foo", Obj([("bar", Number(0))]))];
    DottedKeyWins("foo.bar", Number(1), [("foo", Obj([("bar", Number(0))]))], Number(0), clock);
  }

  // ---- noeval -----------------------------------------------------------------

  /** A node whose fields are wire values and that `init_from_object` rebuilds
      as it is decodes in noeval mode to itself. */
  lemma NoevalKeeps(n: Pyson, context: Value, clock: Clock)
    requires NodeFieldsWire(n) && FromObject(Tag(n), Args(n)) == Ok(n)
    ensures DecodeWith(Write(Expr(n)), context, true, clock) == Ok(Expr(n))
  {
    RoundTrip(Expr(n), DecoderContext(context), true, clock);
  }

  lemma GetFromArgs(n: Pyson)
    requires n.Get?
    ensures FromObject("Get", Args(n)) == MakeGet(n.obj, n.key, n.dflt)
  {
    ArgsDistinctKeys(n);
    LookupDistinct(Args(n), 0); LookupDistinct(Args(n), 1); LookupDistinct(Args(n), 2);
  }

  /** A DateTime whose start is already null loses nothing in noeval decoding. */
  lemma DateTimeNoevalKeeps(n: Pyson, context: Value, clock: Clock)
    requires n.DateTime? && NodeFieldsWire(n) && n.start == Null
    requires IntegerOrNone(n.y) && IntegerOrNone(n.mo) && IntegerOrNone(n.d)
    requires IntegerOrNone(n.h) && IntegerOrNone(n.mi) && IntegerOrNone(n.s) && IntegerOrNone(n.ms)
    requires IntegerOrNone(n.dy) && IntegerOrNone(n.dmo) && IntegerOrNone(n.dd)
    requires IntegerOrNone(n.dh) && IntegerOrNone(n.dmi) && IntegerOrNone(n.ds) && IntegerOrNone(n.dms)
    ensures DecodeWith(Write(Expr(n)), context, true, clock) == Ok(Expr(n))
  {
    DateTimeLosesStart(n, DecoderContext(context), clock);
  }

  /** And and Or over booleans keep their statements as they are. */
  lemma BooleansKept(s: seq<Value>)
    requires forall i :: 0 <= i < |s| ==> s[i].Boolean?
    ensures CoerceAll(s) == s
  {
  }

  /** `Eval('test', 0)` builds the node shown, and `init_from_object` rebuilds it from its record. */
  lemma EvalBuilt()
    ensures MakeEval(Str("test"), Number(0)) == Eval(Str("test"), Number(0))
    ensures NodeFieldsWire(Eval(Str("test"), Number(0))) && FromObject(Tag(Eval(Str("test"), Number(0))), Args(Eval(Str("test"), Number(0)))) == Ok(Eval(Str("test"), Number(0)))
  {
  }

  /** `Eval('test', 0)` comes back from encoding and noeval decoding. */
  lemma NoevalEvalScenario(clock: Clock)
    ensures DecodeWith(Write(Expr(Eval(Str("test"), Number(0)))), Obj([]), true, clock) == Ok(Expr(Eval(Str("test"), Number(0))))
  {
    EvalBuilt();
    NoevalKeeps(Eval(Str("test"), Number(0)), Obj([]), clock);
  }

  /** `Not(true)` builds the node shown, and `init_from_object` rebuilds it from its record. */
  lemma NotBuilt()
    ensures MakeNot(Boolean(true)) == Not(Boolean(true))
    ensures NodeFieldsWire(Not(Boolean(true))) && FromObject(Tag(Not(Boolean(true))), Args(Not(Boolean(true)))) == Ok(Not(Boolean(true)))
  {
  }

  /** `Not(true)` comes back from encoding and noeval decoding. */
  lemma NoevalNotScenario(clock: Clock)
    ensures DecodeWith(Write(Expr(Not(Boolean(true)))), Obj([]), true, clock) == Ok(Expr(Not(Boolean(true))))
  {
    NotBuilt();
    NoevalKeeps(Not(Boolean(true)), Obj([]), clock);
  }

  /** `Bool('test')` builds the node shown, and `init_from_object` rebuilds it from its record. */
  lemma BoolBuilt()
    ensures MakeBool(Str("test")) == Bool(Str("test"))
    ensures NodeFieldsWire(Bool(Str("test"))) && FromObject(Tag(Bool(Str("test"))), Args(Bool(Str("test")))) == Ok(Bool(Str("test")))
  {
  }

  /** `Bool('test')` comes back from encoding and noeval decoding. */
  lemma NoevalBoolScenario(clock: Clock)
    ensures DecodeWith(Write(Expr(Bool(Str("test")))), Obj([]), true, clock) == Ok(Expr(Bool(Str("test"))))
  {
    BoolBuilt();
    NoevalKeeps(Bool(Str("test")), Obj([]), clock);
  }

  /** `And(true, false, true)` builds the node shown, and `init_from_object` rebuilds it from its record. */
  lemma AndBuilt()
    ensures MakeAnd([Boolean(true), Boolean(false), Boolean(true)]) == Ok(And([Boolean(true), Boolean(false), Boolean(true)]))
    ensures NodeFieldsWire(And([Boolean(true), Boolean(false), Boolean(true)])) && FromObject(Tag(And([Boolean(true), Boolean(false), Boolean(true)])), Args(And([Boolean(true), Boolean(false), Boolean(true)]))) == Ok(And([Boolean(true), Boolean(false), Boolean(true)]))
  {
    BooleansKept([Boolean(true), Boolean(false), Boolean(true)]);
  }

  /** `And(true, false, true)` comes back from encoding and noeval decoding. */
  lemma NoevalAndScenario(clock: Clock)
    ensures DecodeWith(Write(Expr(And([Boolean(true), Boolean(false), Boolean(true)]))), Obj([]), true, clock) == Ok(Expr(And([Boolean(true), Boolean(false), Boolean(true)])))
  {
    AndBuilt();
    NoevalKeeps(And([Boolean(true), Boolean(false), Boolean(true)]), Obj([]), clock);
  }

  /** `Or(false, true, true)` builds the node shown, and `init_from_object` rebuilds it from its record. */
  lemma OrBuilt()
    ensures MakeOr([Boolean(false), Boolean(true), Boolean(true)]) == Ok(Or([Boolean(false), Boolean(true), Boolean(true)]))
    ensures NodeFieldsWire(Or([Boolean(false), Boolean(true), Boolean(true)])) && FromObject(Tag(Or([Boolean(false), Boolean(true), Boolean(true)])), Args(Or([Boolean(false), Boolean(true), Boolean(true)]))) == Ok(Or([Boolean(false), Boolean(true), Boolean(true)]))
  {
    BooleansKept([Boolean(false), Boolean(true), Boolean(true)]);
  }

  /** `Or(false, true, true)` comes back from encoding and noeval decoding. */
  lemma NoevalOrScenario(clock: Clock)
    ensures DecodeWith(Write(Expr(Or([Boolean(false), Boolean(true), Boolean(true)]))), Obj([]), true, clock) == Ok(Expr(Or([Boolean(false), Boolean(true), Boolean(true)])))
  {
    OrBuilt();
    NoevalKeeps(Or([Boolean(false), Boolean(true), Boolean(true)]), Obj([]), clock);
  }

  /** `Equal('foo', 'bar')` builds the node shown, and `init_from_object` rebuilds it from its record. */
  lemma EqualBuilt()
    ensures MakeEqual(Str("foo"), Str("bar")) == Ok(Equal(Str("foo"), Str("bar")))
    ensures NodeFieldsWire(Equal(Str("foo"), Str("bar"))) && FromObject(Tag(Equal(Str("foo"), Str("bar"))), Args(Equal(Str("foo"), Str("bar")))) == Ok(Equal(Str("foo"), Str("bar")))
  {
  }

  /** `Equal('foo', 'bar')` comes back from encoding and noeval decoding. */
  lemma NoevalEqualScenario(clock: Clock)
    ensures DecodeWith(Write(Expr(Equal(Str("foo"), Str("bar")))), Obj([]), true, clock) == Ok(Expr(Equal(Str("foo"), Str("bar"))))
  {
    EqualBuilt();
    NoevalKeeps(Equal(Str("foo"), Str("bar")), Obj([]), clock);
  }

  /** `Greater(1, 0)` builds the node shown, and `init_from_object` rebuilds it from its record. */
  lemma GreaterBuilt()
    ensures MakeGreater(Number(1), Number(0), Undefined) == Ok(Greater(Number(1), Number(0), Boolean(false)))
    ensures NodeFieldsWire(Greater(Number(1), Number(0), Boolean(false))) && FromObject(Tag(Greater(Number(1), Number(0), Boolean(false))), Args(Greater(Number(1), Number(0), Boolean(false)))) == Ok(Greater(Number(1), Number(0), Boolean(false)))
  {
  }

  /** `Greater(1, 0)` comes back from encoding and noeval decoding. */
  lemma NoevalGreaterScenario(clock: Clock)
    ensures DecodeWith(Write(Expr(Greater(Number(1), Number(0), Boolean(false)))), Obj([]), true, clock) == Ok(Expr(Greater(Number(1), Number(0), Boolean(false))))
  {
    GreaterBuilt();
    NoevalKeeps(Greater(Number(1), Number(0), Boolean(false)), Obj([]), clock);
  }

  /** `Less(0, 1)` builds the node shown, and `init_from_object` rebuilds it from its record. */
  lemma LessBuilt()
    ensures MakeLess(Number(0), Number(1), Undefined) == Ok(Less(Number(0), Number(1), Boolean(false)))
    ensures NodeFieldsWire(Less(Number(0), Number(1), Boolean(false))) && FromObject(Tag(Less(Number(0), Number(1), Boolean(false))), Args(Less(Number(0), Number(1), Boolean(false)))) == Ok(Less(Number(0), Number(1), Boolean(false)))
  {
  }

  /** `Less(0, 1)` comes back from encoding and noeval decoding. */
  lemma NoevalLessScenario(clock: Clock)
    ensures DecodeWith(Write(Expr(Less(Number(0), Number(1), Boolean(false)))), Obj([]), true, clock) == Ok(Expr(Less(Number(0), Number(1), Boolean(false))))
  {
    LessBuilt();
    NoevalKeeps(Less(Number(0), Number(1), Boolean(false)), Obj([]), clock);
  }

  /** `If(true, 'foo', 'bar')` builds the node shown, and `init_from_object` rebuilds it from its record. */
  lemma IfBuilt()
    ensures MakeIf(Boolean(true), Str("foo"), Str("bar")) == If(Boolean(true), Str("foo"), Str("bar"))
    ensures NodeFieldsWire(If(Boolean(true), Str("foo"), Str("bar"))) && FromObject(Tag(If(Boolean(true), Str("foo"), Str("bar"))), Args(If(Boolean(true), Str("foo"), Str("bar")))) == Ok(If(Boolean(true), Str("foo"), Str("bar")))
  {
  }

  /** `If(true, 'foo', 'bar')` comes back from encoding and noeval decoding. */
  lemma NoevalIfScenario(clock: Clock)
    ensures DecodeWith(Write(Expr(If(Boolean(true), Str("foo"), Str("bar")))), Obj([]), true, clock) == Ok(Expr(If(Boolean(true), Str("foo"), Str("bar"))))
  {
    IfBuilt();
    NoevalKeeps(If(Boolean(true), Str("foo"), Str("bar")), Obj([]), clock);
  }

  /** `Get({'foo': 'bar'}, 'foo', 'default')` builds the node shown, and `init_from_object` rebuilds it from its record. */
  lemma GetBuilt()
    ensures MakeGet(Obj([("foo", Str("bar"))]), Str("foo"), Str("default")) == Ok(Get(Obj([("foo", Str("bar"))]), Str("foo"), Str("default")))
    ensures NodeFieldsWire(Get(Obj([("foo", Str("bar"))]), Str("foo"), Str("default"))) && FromObject(Tag(Get(Obj([("foo", Str("bar"))]), Str("foo"), Str("default"))), Args(Get(Obj([("foo", Str("bar"))]), Str("foo"), Str("default")))) == Ok(Get(Obj([("foo", Str("bar"))]), Str("foo"), Str("default")))
  {
    GetMade();
    GetRebuilt();
  }

  lemma GetRebuilt()
    ensures NodeFieldsWire(Get(Obj([("foo", Str("bar"))]), Str("foo"), Str("default")))
    ensures FromObject("Get", Args(Get(Obj([("foo", Str("bar"))]), Str("foo"), Str("default")))) == Ok(Get(Obj([("foo", Str("bar"))]), Str("foo"), Str("default")))
  {
    GetWire();
    GetRevived();
  }

  lemma GetWire()
    ensures NodeFieldsWire(Get(Obj([("foo", Str("bar"))]), Str("foo"), Str("default")))
  {
  }

  lemma GetRevived()
    ensures FromObject("Get", Args(Get(Obj([("foo", Str("bar"))]), Str("foo"), Str("default")))) == Ok(Get(Obj([("foo", Str("bar"))]), Str("foo"), Str("default")))
  {
    GetMade();
    GetFromArgs(Get(Obj([("foo", Str("bar"))]), Str("foo"), Str("default")));
  }

  lemma GetMade()
    ensures MakeGet(Obj([("foo", Str("bar"))]), Str("foo"), Str("default")) == Ok(Get(Obj([("foo", Str("bar"))]), Str("foo"), Str("default")))
  {
  }

  /** `Get({'foo': 'bar'}, 'foo', 'default')` comes back from encoding and noeval decoding. */
  lemma NoevalGetScenario(clock: Clock)
    ensures DecodeWith(Write(Expr(Get(Obj([("foo", Str("bar"))]), Str("foo"), Str("default")))), Obj([]), true, clock) == Ok(Expr(Get(Obj([("foo", Str("bar"))]), Str("foo"), Str("default"))))
  {
    GetBuilt();
    NoevalKeeps(Get(Obj([("foo", Str("bar"))]), Str("foo"), Str("default")), Obj([]), clock);
  }

  /** `In('foo', ['foo', 'bar'])` builds the node shown, and `init_from_object` rebuilds it from its record. */
  lemma InBuilt()
    ensures MakeIn(Str("foo"), Arr([Str("foo"), Str("bar")])) == Ok(In(Str("foo"), Arr([Str("foo"), Str("bar")])))
    ensures NodeFieldsWire(In(Str("foo"), Arr([Str("foo"), Str("bar")]))) && FromObject(Tag(In(Str("foo"), Arr([Str("foo"), Str("bar")]))), Args(In(Str("foo"), Arr([Str("foo"), Str("bar")])))) == Ok(In(Str("foo"), Arr([Str("foo"), Str("bar")])))
  {
  }

  /** `In('foo', ['foo', 'bar'])` comes back from encoding and noeval decoding. */
  lemma NoevalInScenario(clock: Clock)
    ensures DecodeWith(Write(Expr(In(Str("foo"), Arr([Str("foo"), Str("bar")])))), Obj([]), true, clock) == Ok(Expr(In(Str("foo"), Arr([Str("foo"), Str("bar")]))))
  {
    InBuilt();
    NoevalKeeps(In(Str("foo"), Arr([Str("foo"), Str("bar")])), Obj([]), clock);
  }

  /** `Date()` builds the node shown, and `init_from_object` rebuilds it from its record. */
  lemma DateBuilt()
    ensures MakeDate(Undefined, Undefined, Undefined, Undefined, Undefined, Undefined, Undefined) == Ok(Date(Null, Null, Null, Number(0), Number(0), Number(0), Null))
    ensures NodeFieldsWire(Date(Null, Null, Null, Number(0), Number(0), Number(0), Null)) && FromObject(Tag(Date(Null, Null, Null, Number(0), Number(0), Number(0), Null)), Args(Date(Null, Null, Null, Number(0), Number(0), Number(0), Null))) == Ok(Date(Null, Null, Null, Number(0), Number(0), Number(0), Null))
  {
    var n := Date(Null, Null, Null, Number(0), Number(0), Number(0), Null);
    FromObjectDate(Args(n));
    DateLookups(n);
    DateKeepsFields(n);
  }

  /** `Date()` comes back from encoding and noeval decoding. */
  lemma NoevalDateScenario(clock: Clock)
    ensures DecodeWith(Write(Expr(Date(Null, Null, Null, Number(0), Number(0), Number(0), Null))), Obj([]), true, clock) == Ok(Expr(Date(Null, Null, Null, Number(0), Number(0), Number(0), Null)))
  {
    DateBuilt();
    NoevalKeeps(Date(Null, Null, Null, Number(0), Number(0), Number(0), Null), Obj([]), clock);
  }

  /** `Len([1, 2, 3])` builds the node shown, and `init_from_object` rebuilds it from its record. */
  lemma LenBuilt()
    ensures MakeLen(Arr([Number(1), Number(2), Number(3)])) == Ok(Len(Arr([Number(1), Number(2), Number(3)])))
    ensures NodeFieldsWire(Len(Arr([Number(1), Number(2), Number(3)]))) && FromObject(Tag(Len(Arr([Number(1), Number(2), Number(3)]))), Args(Len(Arr([Number(1), Number(2), Number(3)])))) == Ok(Len(Arr([Number(1), Number(2), Number(3)])))
  {
  }

  /** `Len([1, 2, 3])` comes back from encoding and noeval decoding. */
  lemma NoevalLenScenario(clock: Clock)
    ensures DecodeWith(Write(Expr(Len(Arr([Number(1), Number(2), Number(3)])))), Obj([]), true, clock) == Ok(Expr(Len(Arr([Number(1), Number(2), Number(3)]))))
  {
    LenBuilt();
    NoevalKeeps(Len(Arr([Number(1), Number(2), Number(3)])), Obj([]), clock);
  }

  /** `DateTime()` is built with null fields, zero deltas and a null start. */
  lemma DefaultDateTime()
    ensures MakeDateTime(Undefined, Undefined, Undefined, Undefined, Undefined, Undefined, Undefined, Undefined, Undefined, Undefined, Undefined, Undefined, Undefined, Undefined, Undefined) == Ok(DateTime(Null, Null, Null, Null, Null, Null, Null, Number(0), Number(0), Number(0), Number(0), Number(0), Number(0), Number(0), Null))
  {
  }

  /** `DateTime()` comes back from encoding and noeval decoding. */
  lemma NoevalDateTimeScenario(clock: Clock)
    ensures DecodeWith(Write(Expr(DateTime(Null, Null, Null, Null, Null, Null, Null, Number(0), Number(0), Number(0), Number(0), Number(0), Number(0), Number(0), Null))), Obj([]), true, clock) == Ok(Expr(DateTime(Null, Null, Null, Null, Null, Null, Null, Number(0), Number(0), Number(0), Number(0), Number(0), Number(0), Number(0), Null)))
  {
    DateTimeNoevalKeeps(DateTime(Null, Null, Null, Null, Null, Null, Null, Number(0), Number(0), Number(0), Number(0), Number(0), Number(0), Number(0), Null), Obj([]), clock);
  }

  // ---- PYSON Composite -------------------------------------------------------

  /** What a value decodes to in eval mode: `w`, and never undefined. */
  predicate DecodesTo(v: Value, w: Value, ctx: Value, clock: Clock)
  {
    v != Undefined && w != Undefined && Decode(Write(v), ctx, false, clock) == Ok(w)
  }

  /** `Eval('context', {})`, used twice in the domain below. */
  function ContextEval(): Value
  {
    Expr(Eval(Str("context"), Obj([])))
  }

  /** The domain of the source's composite example:
      `['id', If(Not(In('company', Eval('context', {}))), '=', '!='),
      Get(Eval('context', {}), 'company', -1)]`. */
  function CompositeDomain(): Value
  {
    Arr([Str("id"), CompanyCondition(), CompanyValue()])
  }

  function CompanyCondition(): Value
  {
    Expr(If(Expr(Not(Expr(In(Str("company"), ContextEval())))), Str("="), Str("!=")))
  }

  function CompanyValue(): Value
  {
    Expr(Get(ContextEval(), Str("company"), Number(-1)))
  }

  /** With `{context: c}` as context, the domain decodes to the clause
      `['id', op, value]` where op is `'!='` when c has a truthy company and
      value is c's company, -1 without one. */
  lemma CompositeDecodes(c: seq<(string, Value)>, clock: Clock)
    requires Wire(Obj(c)) && NodeFree(Obj(c)) && !Truthy(Lookup(c, "indexOf"))
    requires GetValue(Obj(c), Str("company"), Number(-1)).value != Undefined
    ensures DecodeWith(Write(CompositeDomain()), Obj([("context", Obj(c))]), false, clock)
      == Ok(Arr([Str("id"),
                 if Truthy(Lookup(c, "company")) then Str("!=") else Str("="),
                 GetValue(Obj(c), Str("company"), Number(-1)).value]))
  {
    var ctx := Obj([("context", Obj(c))]);
    assert DecoderContext(ctx) == ctx;
    ClauseDecodes(c, ctx, clock);
  }

  /** The facts about the context `{company: 1}` the clause depends on. */
  lemma CompanyOneContext()
    ensures var c := [("company", Number(1))];
      Wire(Obj(c)) && NodeFree(Obj(c)) && !Truthy(Lookup(c, "indexOf")) && Truthy(Lookup(c, "company")) &&
      GetValue(Obj(c), Str("company"), Number(-1)) == Ok(Number(1))
  {
    var c := [("company", Number(1))];
    assert Lookup(c, "company") == Number(1);
    assert "company" in Keys(c);
    assert Plain(c);
  }

  /** With a company in the context the clause is `['id', '!=', 1]`. */
  lemma CompositeWithCompany(clock: Clock)
    ensures DecodeWith(Write(CompositeDomain()), Obj([("context", Obj([("company", Number(1))]))]), false, clock)
      == Ok(Arr([Str("id"), Str("!="), Number(1)]))
  {
    CompanyOneContext();
    CompositeDecodes([("company", Number(1))], clock);
  }

  /** The facts about the empty context the clause depends on. */
  lemma EmptyContext()
    ensures Wire(Obj([])) && NodeFree(Obj([])) && !Truthy(Lookup([], "indexOf")) && !Truthy(Lookup([], "company")) &&
      GetValue(Obj([]), Str("company"), Number(-1)) == Ok(Number(-1))
  {
    assert Plain([]);
  }

  /** Without one it is `['id', '=', -1]`. */
  lemma CompositeWithoutCompany(clock: Clock)
    ensures DecodeWith(Write(CompositeDomain()), Obj([("context", Obj([]))]), false, clock)
      == Ok(Arr([Str("id"), Str("="), Number(-1)]))
  {
    EmptyContext();
    CompositeDecodes([], clock);
  }

  lemma ClauseDecodes(c: seq<(string, Value)>, ctx: Value, clock: Clock)
    requires ctx == Obj([("context", Obj(c))])
    requires Wire(Obj(c)) && NodeFree(Obj(c)) && !Truthy(Lookup(c, "indexOf"))
    requires GetValue(Obj(c), Str("company"), Number(-1)).value != Undefined
    ensures Decode(Write(Arr([Str("id"), CompanyCondition(), CompanyValue()])), ctx, false, clock)
      == Ok(Arr([Str("id"),
                 if Truthy(Lookup(c, "company")) then Str("!=") else Str("="),
                 GetValue(Obj(c), Str("company"), Number(-1)).value]))
  {
    var op := if Truthy(Lookup(c, "company")) then Str("!=") else Str("=");
    var got := GetValue(Obj(c), Str("company"), Number(-1)).value;
    ScalarDecodes(Str("id"), ctx, clock);
    ConditionDecodes(c, clock);
    CompanyDecodes(c, clock);
    ThreeItemsDecode(Str("id"), CompanyCondition(), CompanyValue(), Str("id"), op, got, ctx, clock);
  }

  /** An array decodes item by item. */
  lemma ItemsDecode(items: seq<Value>, ws: seq<Value>, ctx: Value, clock: Clock)
    requires |ws| == |items|
    requires forall i :: 0 <= i < |items| ==> DecodesTo(items[i], ws[i], ctx, clock)
    ensures Decode(Write(Arr(items)), ctx, false, clock) == Ok(Arr(ws))
  {
    var v := Arr(items);
    assert forall i :: 0 <= i < |v.items| ==> v.items[i] != Undefined;
    WriteDefined(v);
    var js := seq(|items|, i requires 0 <= i < |items| => Write(items[i]));
    assert Write(v) == JArr(js);
    DecodeItemsPointwise(js, ws, ctx, false, clock);
  }

  lemma ThreeItemsDecode(a: Value, b: Value, c: Value, wa: Value, wb: Value, wc: Value, ctx: Value, clock: Clock)
    requires DecodesTo(a, wa, ctx, clock) && DecodesTo(b, wb, ctx, clock) && DecodesTo(c, wc, ctx, clock)
    ensures Decode(Write(Arr([a, b, c])), ctx, false, clock) == Ok(Arr([wa, wb, wc]))
  {
    ItemsDecode([a, b, c], [wa, wb, wc], ctx, clock);
  }

  lemma ScalarDecodes(v: Value, ctx: Value, clock: Clock)
    requires v.Str? || v.Number? || v == Obj([])
    ensures DecodesTo(v, v, ctx, clock)
  {
    RoundTrip(v, ctx, false, clock);
  }

  /** `Eval('context', {})` decodes to the context's `context` member. */
  lemma ContextDecodes(c: seq<(string, Value)>, clock: Clock)
    ensures DecodesTo(ContextEval(), Obj(c), Obj([("context", Obj(c))]), clock)
  {
    var ctx := Obj([("context", Obj(c))]);
    ScalarDecodes(Str("context"), ctx, clock);
    ScalarDecodes(Obj([]), ctx, clock);
    EvalDecodes(Str("context"), Obj([]), Str("context"), Obj([]), ctx, clock);
    OnlyMemberLookup("context", Obj([]), Obj(c));
  }

  /** Eval of a context's only key finds its value. */
  lemma OnlyMemberLookup(path: string, d: Value, v: Value)
    requires v != Undefined
    ensures EvalValue(Str(path), d, Obj([(path, v)])) == Ok(v)
  {
    var ms := [(path, v)];
    assert Lookup(ms, path) == v;
    assert path in Keys(ms);
  }

  /** `In('company', Eval('context', {}))` decodes to whether the context
      has a truthy company. */
  lemma InCompanyDecodes(c: seq<(string, Value)>, clock: Clock)
    requires !Truthy(Lookup(c, "indexOf"))
    ensures DecodesTo(Expr(In(Str("company"), ContextEval())), Boolean(Truthy(Lookup(c, "company"))),
                      Obj([("context", Obj(c))]), clock)
  {
    var ctx := Obj([("context", Obj(c))]);
    ContextDecodes(c, clock);
    ScalarDecodes(Str("company"), ctx, clock);
    InDecodes(Str("company"), ContextEval(), Str("company"), Obj(c), ctx, clock);
    InCompanyValue(c);
  }

  lemma InCompanyValue(c: seq<(string, Value)>)
    requires !Truthy(Lookup(c, "indexOf"))
    ensures InValue(Str("company"), Obj(c)) == Ok(Boolean(Truthy(Lookup(c, "company"))))
  {
    assert PropertyKey(Str("company")) == "company";
  }

  /** The condition decodes to `'!='` exactly when the company is set. */
  lemma ConditionDecodes(c: seq<(string, Value)>, clock: Clock)
    requires !Truthy(Lookup(c, "indexOf"))
    ensures DecodesTo(CompanyCondition(), if Truthy(Lookup(c, "company")) then Str("!=") else Str("="),
                      Obj([("context", Obj(c))]), clock)
  {
    var ctx := Obj([("context", Obj(c))]);
    var inn := Expr(In(Str("company"), ContextEval()));
    var b := Boolean(Truthy(Lookup(c, "company")));
    InCompanyDecodes(c, clock);
    ScalarDecodes(Str("="), ctx, clock);
    ScalarDecodes(Str("!="), ctx, clock);
    NotDecodes(inn, b, ctx, clock);
    IfDecodes(Expr(Not(inn)), Str("="), Str("!="), NotValue(b), Str("="), Str("!="), ctx, clock);
  }

  /** The value decodes to the company, or -1. */
  lemma CompanyDecodes(c: seq<(string, Value)>, clock: Clock)
    requires GetValue(Obj(c), Str("company"), Number(-1)).value != Undefined
    ensures DecodesTo(CompanyValue(), GetValue(Obj(c), Str("company"), Number(-1)).value,
                      Obj([("context", Obj(c))]), clock)
  {
    var ctx := Obj([("context", Obj(c))]);
    ContextDecodes(c, clock);
    ScalarDecodes(Str("company"), ctx, clock);
    ScalarDecodes(Number(-1), ctx, clock);
    GetDecodes(ContextEval(), Str("company"), Number(-1), Obj(c), Str("company"), Number(-1), ctx, clock);
  }

  /** In eval mode a record naming a node class is replaced by its evaluation. */
  lemma RecordEvaluates(r: seq<(string, Value)>, ctx: Value, clock: Clock)
    requires ClassOf(r) in NodeTags
    ensures Revive(r, ctx, false, clock) == EvalRecord(ClassOf(r), r, ctx, clock)
  {
  }

  lemma EvalDecodes(p: Value, d: Value, wp: Value, wd: Value, ctx: Value, clock: Clock)
    requires DecodesTo(p, wp, ctx, clock) && DecodesTo(d, wd, ctx, clock)
    ensures Decode(Write(Expr(Eval(p, d))), ctx, false, clock) == EvalValue(wp, wd, ctx)
  {
    assert Tag(Eval(p, d)) == "Eval" && Args(Eval(p, d)) == [("v", p), ("d", d)];
    TwoChildren(Eval(p, d), wp, wd, ctx, clock);
    EvalRecordOfEval(wp, wd, ctx, clock);
  }

  lemma EvalRecordOfEval(p: Value, d: Value, ctx: Value, clock: Clock)
    ensures EvalRecord("Eval", [("__class__", Str("Eval")), ("v", p), ("d", d)], ctx, clock) == EvalValue(p, d, ctx)
  {
    var r := [("__class__", Str("Eval")), ("v", p), ("d", d)];
    assert EvalRecord("Eval", r, ctx, clock) == EvalValue(Lookup(r, "v"), Lookup(r, "d"), ctx);
    assert DistinctKeys(r);
    LookupDistinct(r, 1);
    LookupDistinct(r, 2);
  }

  lemma InDecodes(k: Value, v: Value, wk: Value, wv: Value, ctx: Value, clock: Clock)
    requires DecodesTo(k, wk, ctx, clock) && DecodesTo(v, wv, ctx, clock)
    ensures Decode(Write(Expr(In(k, v))), ctx, false, clock) == InValue(wk, wv)
  {
    var n := In(k, v);
    assert Tag(n) == "In" && Args(n) == [("k", k), ("v", v)];
    TwoChildren(n, wk, wv, ctx, clock);
    InRecord(wk, wv, ctx, clock);
  }

  lemma InRecord(k: Value, v: Value, ctx: Value, clock: Clock)
    ensures EvalRecord("In", [("__class__", Str("In")), ("k", k), ("v", v)], ctx, clock) == InValue(k, v)
  {
    var r := [("__class__", Str("In")), ("k", k), ("v", v)];
    assert EvalRecord("In", r, ctx, clock) == InValue(Lookup(r, "k"), Lookup(r, "v"));
    assert DistinctKeys(r);
    LookupDistinct(r, 1);
    LookupDistinct(r, 2);
  }

  lemma NotDecodes(v: Value, wv: Value, ctx: Value, clock: Clock)
    requires DecodesTo(v, wv, ctx, clock)
    ensures Decode(Write(Expr(Not(v))), ctx, false, clock) == Ok(NotValue(wv))
  {
    assert Tag(Not(v)) == "Not" && Args(Not(v)) == [("v", v)];
    OneChild(Not(v), wv, ctx, clock);
    NotRecord(wv, ctx, clock);
  }

  lemma NotRecord(v: Value, ctx: Value, clock: Clock)
    ensures EvalRecord("Not", [("__class__", Str("Not")), ("v", v)], ctx, clock) == Ok(NotValue(v))
  {
    var r := [("__class__", Str("Not")), ("v", v)];
    assert EvalRecord("Not", r, ctx, clock) == Ok(NotValue(Lookup(r, "v")));
    assert Lookup([("__class__", Str("Not")), ("v", v)], "v") == v;
  }

  /** Two records that agree member by member are the same record. */
  lemma SpelledOut(r: seq<(string, Value)>, q: seq<(string, Value)>)
    requires |r| == |q| && forall i :: 0 <= i < |r| ==> r[i] == q[i]
    ensures r == q
  {
  }

  /** The revived record of a one-field node, spelled out. */
  lemma RevivedOfOne(tag: string, e: seq<(string, Value)>, a: Value)
    requires |e| == 1
    ensures Revived(tag, e, [a]) == [("__class__", Str(tag)), (e[0].0, a)]
    ensures ClassOf(Revived(tag, e, [a])) == tag
  {
    var ws := [a];
    var r := Revived(tag, e, ws);
    var q := [("__class__", Str(tag)), (e[0].0, a)];
    assert ws[0] == a;
    assert r[1] == q[1];
    SpelledOut(r, q);
    assert Lookup(q, "__class__") == Str(tag);
  }

  /** The revived record of a two-field node, spelled out. */
  lemma RevivedOfTwo(tag: string, e: seq<(string, Value)>, a: Value, b: Value)
    requires |e| == 2
    ensures Revived(tag, e, [a, b]) == [("__class__", Str(tag)), (e[0].0, a), (e[1].0, b)]
    ensures ClassOf(Revived(tag, e, [a, b])) == tag
  {
    var ws := [a, b];
    var r := Revived(tag, e, ws);
    var q := [("__class__", Str(tag)), (e[0].0, a), (e[1].0, b)];
    assert ws[0] == a && ws[1] == b;
    assert r[1] == q[1] && r[2] == q[2];
    SpelledOut(r, q);
    assert Lookup(q, "__class__") == Str(tag);
  }

  /** The revived record of a three-field node, spelled out. */
  lemma RevivedOfThree(tag: string, e: seq<(string, Value)>, a: Value, b: Value, c: Value)
    requires |e| == 3
    ensures Revived(tag, e, [a, b, c]) == [("__class__", Str(tag)), (e[0].0, a), (e[1].0, b), (e[2].0, c)]
    ensures ClassOf(Revived(tag, e, [a, b, c])) == tag
  {
    var ws := [a, b, c];
    var r := Revived(tag, e, ws);
    var q := [("__class__", Str(tag)), (e[0].0, a), (e[1].0, b), (e[2].0, c)];
    assert ws[0] == a && ws[1] == b && ws[2] == c;
    assert r[1] == q[1] && r[2] == q[2] && r[3] == q[3];
    SpelledOut(r, q);
    assert Lookup(q, "__class__") == Str(tag);
  }

  /** `ChildrenFirst` in eval mode for a node none of whose fields is undefined. */
  lemma ChildrenDecodeFirst(n: Pyson, ws: seq<Value>, ctx: Value, clock: Clock)
    requires |ws| == |Args(n)|
    requires forall j :: 0 <= j < |ws| ==> DecodesTo(Args(n)[j].1, ws[j], ctx, clock)
    ensures ExtendObject(Args(n)) == Args(n)
    ensures Decode(Write(Expr(n)), ctx, false, clock) == Revive(RevivedRecord(n, ws), ctx, false, clock)
  {
    var a := Args(n);
    assert forall j :: 0 <= j < |a| ==> a[j].1 != Undefined;
    KeepsAll(a);
    ChildrenFirst(n, ws, ctx, false, clock);
  }

  /** A one-field node decodes in eval mode to the evaluation of the record
      of its decoded field. */
  lemma OneChild(n: Pyson, a: Value, ctx: Value, clock: Clock)
    requires |Args(n)| == 1
    requires DecodesTo(Args(n)[0].1, a, ctx, clock)
    ensures Tag(n) in NodeTags
    ensures Decode(Write(Expr(n)), ctx, false, clock)
      == EvalRecord(Tag(n), [("__class__", Str(Tag(n))), (Args(n)[0].0, a)], ctx, clock)
  {
    TagIsNodeTag(n);
    ChildrenDecodeFirst(n, [a], ctx, clock);
    RevivedOfOne(Tag(n), Args(n), a);
    RecordEvaluates(Revived(Tag(n), Args(n), [a]), ctx, clock);
  }

  /** A two-field node decodes in eval mode to the evaluation of the record
      of its decoded fields. */
  lemma TwoChildren(n: Pyson, a: Value, b: Value, ctx: Value, clock: Clock)
    requires |Args(n)| == 2
    requires DecodesTo(Args(n)[0].1, a, ctx, clock) && DecodesTo(Args(n)[1].1, b, ctx, clock)
    ensures Tag(n) in NodeTags
    ensures Decode(Write(Expr(n)), ctx, false, clock)
      == EvalRecord(Tag(n), [("__class__", Str(Tag(n))), (Args(n)[0].0, a), (Args(n)[1].0, b)], ctx, clock)
  {
    TagIsNodeTag(n);
    ChildrenDecodeFirst(n, [a, b], ctx, clock);
    RevivedOfTwo(Tag(n), Args(n), a, b);
    RecordEvaluates(Revived(Tag(n), Args(n), [a, b]), ctx, clock);
  }

  /** A three-field node decodes in eval mode to the evaluation of the record
      of its decoded fields. */
  lemma ThreeChildren(n: Pyson, a: Value, b: Value, c: Value, ctx: Value, clock: Clock)
    requires |Args(n)| == 3
    requires DecodesTo(Args(n)[0].1, a, ctx, clock) && DecodesTo(Args(n)[1].1, b, ctx, clock)
    requires DecodesTo(Args(n)[2].1, c, ctx, clock)
    ensures Tag(n) in NodeTags
    ensures Decode(Write(Expr(n)), ctx, false, clock)
      == EvalRecord(Tag(n), [("__class__", Str(Tag(n))), (Args(n)[0].0, a), (Args(n)[1].0, b), (Args(n)[2].0, c)],
                    ctx, clock)
  {
    TagIsNodeTag(n);
    ChildrenDecodeFirst(n, [a, b, c], ctx, clock);
    RevivedOfThree(Tag(n), Args(n), a, b, c);
    RecordEvaluates(Revived(Tag(n), Args(n), [a, b, c]), ctx, clock);
  }

  lemma IfDecodes(c: Value, t: Value, e: Value, wc: Value, wt: Value, we: Value, ctx: Value, clock: Clock)
    requires DecodesTo(c, wc, ctx, clock) && DecodesTo(t, wt, ctx, clock) && DecodesTo(e, we, ctx, clock)
    ensures Decode(Write(Expr(If(c, t, e))), ctx, false, clock) == Ok(IfValue(wc, wt, we))
  {
    var n := If(c, t, e);
    var r := [("__class__", Str("If")), ("c", wc), ("t", wt), ("e", we)];
    assert Decode(Write(Expr(n)), ctx, false, clock) == EvalRecord("If", r, ctx, clock) by {
      assert Tag(n) == "If" && Args(n) == [("c", c), ("t", t), ("e", e)];
      ThreeChildren(n, wc, wt, we, ctx, clock);
      assert [("__class__", Str(Tag(n))), (Args(n)[0].0, wc), (Args(n)[1].0, wt), (Args(n)[2].0, we)] == r;
    }
    IfRecord(wc, wt, we, ctx, clock);
  }

  lemma IfRecord(c: Value, t: Value, e: Value, ctx: Value, clock: Clock)
    ensures EvalRecord("If", [("__class__", Str("If")), ("c", c), ("t", t), ("e", e)], ctx, clock) == Ok(IfValue(c, t, e))
  {
    var r := [("__class__", Str("If")), ("c", c), ("t", t), ("e", e)];
    assert EvalRecord("If", r, ctx, clock) == Ok(IfValue(Lookup(r, "c"), Lookup(r, "t"), Lookup(r, "e")));
    FourLookups("If", "c", "t", "e", c, t, e);
  }

  /** The three fields of a four-member record, each under its own key. */
  lemma FourLookups(tag: string, a: string, b: string, c: string, x: Value, y: Value, z: Value)
    requires |{"__class__", a, b, c}| == 4
    ensures var r := [("__class__", Str(tag)), (a, x), (b, y), (c, z)];
      Lookup(r, a) == x && Lookup(r, b) == y && Lookup(r, c) == z
  {
    var r := [("__class__", Str(tag)), (a, x), (b, y), (c, z)];
    assert DistinctKeys(r);
    LookupDistinct(r, 1);
    LookupDistinct(r, 2);
    LookupDistinct(r, 3);
  }

  lemma GetDecodes(v: Value, k: Value, d: Value, wv: Value, wk: Value, wd: Value, ctx: Value, clock: Clock)
    requires DecodesTo(v, wv, ctx, clock) && DecodesTo(k, wk, ctx, clock) && DecodesTo(d, wd, ctx, clock)
    ensures Decode(Write(Expr(Get(v, k, d))), ctx, false, clock) == GetValue(wv, wk, wd)
  {
    assert Tag(Get(v, k, d)) == "Get" && Args(Get(v, k, d)) == [("v", v), ("k", k), ("d", d)];
    ThreeChildren(Get(v, k, d), wv, wk, wd, ctx, clock);
    GetRecord(wv, wk, wd, ctx, clock);
  }

  lemma GetRecord(v: Value, k: Value, d: Value, ctx: Value, clock: Clock)
    ensures EvalRecord("Get", [("__class__", Str("Get")), ("v", v), ("k", k), ("d", d)], ctx, clock) == GetValue(v, k, d)
  {
    var r := [("__class__", Str("Get")), ("v", v), ("k", k), ("d", d)];
    assert EvalRecord("Get", r, ctx, clock) == GetValue(Lookup(r, "v"), Lookup(r, "k"), Lookup(r, "d"));
    FourLookups("Get", "v", "k", "d", v, k, d);
  }

  /** The text of an object member, as `Sao.PYSON.toString` joins it. */
  function MemberTexts(ms: seq<(string, Value)>, host: Value -> string): (r: seq<string>)
    ensures |r| == |ms|
  {
    seq(|ms|, i requires 0 <= i < |ms| =>
      Quote(ms[i].0) + ": " + (if ms[i].1.Undefined? then "undefined" else Text(ms[i].1, host)))
  }

  lemma JoinTwo(a: string, b: string)
    ensures Join([a, b]) == a + ", " + b
  {
    assert [a, b][1..] == [b];
  }

  lemma JoinThree(a: string, b: string, c: string)
    ensures Join([a, b, c]) == a + ", " + b + ", " + c
  {
    assert [a, b, c][1..] == [b, c];
    assert [b, c][1..] == [c];
    assert Join([c]) == c;
    assert Join([b, c]) == b + ", " + c;
    assert Join([a, b, c]) == a + ", " + (b + ", " + c);
  }

  lemma ArrText(items: seq<Value>, host: Value -> string)
    ensures Text(Arr(items), host) == "[" + Join(Texts(items, host)) + "]"
  {
    assert Texts(items, host) == seq(|items|, i requires 0 <= i < |items| => Text(items[i], host));
  }

  lemma ObjText(ms: seq<(string, Value)>, host: Value -> string)
    ensures Text(Obj(ms), host) == "{" + Join(MemberTexts(ms, host)) + "}"
  {
  }

  /** A string of letters is quoted as it stands. */
  lemma {:induction false} QuotePlain(s: string)
    requires forall i :: 0 <= i < |s| ==> 'a' <= s[i] <= 'z'
    ensures Quote(s) == "\"" + s + "\""
  {
    EscapedPlain(s);
  }

  lemma {:induction false} EscapedPlain(s: string)
    requires forall i :: 0 <= i < |s| ==> 'a' <= s[i] <= 'z'
    ensures Escaped(s) == s
  {
    if s != [] {
      EscapedPlain(s[1..]);
      assert s == [s[0]] + s[1..];
    }
  }
}

=== FILE: nodes.dfy ===
/** Construction of expression nodes: each constructor's argument checks
    (failing with the source's error string), the Bool wrapping of
    boolean-typed arguments, the wire projection `pyson()`, the
    reconstruction `init_from_object` and `Eval.basename`. */
module Nodes {
  import opened Wrappers
  import opened Values
  import opened TypeTags

  // ---- Bool wrapping --------------------------------------------------------

  /** The test And, Or, If and Greater's `equal` apply: a literal that is not a
      boolean, or a node whose tags are not exactly {boolean}, is wrapped in Bool. */
  function CoerceBool(v: Value): (r: Value)
    ensures r == v <==> v.Boolean? || (v.Expr? && SameTags(Types(v.node), ["boolean"]))
    ensures r != v ==> r == Expr(Bool(v))
  {
    if v.Expr? then
      (if SameTags(Types(v.node), ["boolean"]) then v else Expr(Bool(v)))
    else if v.Boolean? then v
    else Expr(Bool(v))
  }

  /** Not's looser test: a node is kept when its tags lie within {boolean, object}
      and include boolean. */
  function NotOperand(v: Value): (r: Value)
    ensures r == v <==> (v.Boolean? ||
      (v.Expr? && Within(Types(v.node), ["boolean", "object"]) && "boolean" in Types(v.node)))
    ensures r != v ==> r == Expr(Bool(v))
  {
    if v.Expr? then
      (if !Within(Types(v.node), ["boolean", "object"]) || "boolean" !in Types(v.node)
       then Expr(Bool(v)) else v)
    else if v.Boolean? then v
    else Expr(Bool(v))
  }

  /** Wrapping is idempotent: a wrapped value is left alone the second time. */
  lemma CoerceBoolIdempotent(v: Value)
    ensures CoerceBool(CoerceBool(v)) == CoerceBool(v)
    ensures NotOperand(NotOperand(v)) == NotOperand(v)
  {
    assert Types(Bool(v)) == ["boolean"];
  }

  /** Whatever And keeps unwrapped, Not keeps too. */
  lemma NotLooserThanAnd(v: Value)
    ensures CoerceBool(v) == v ==> NotOperand(v) == v
  {
    if v.Expr? && CoerceBool(v) == v {
      var ts := Types(v.node);
      assert Within(["boolean"], ts);
      assert ["boolean"][0] in ts;
    }
  }

  /** A node typed {boolean, object} shows that the converse fails: Not keeps
      it, And wraps it in Bool. */
  lemma AndStricterThanNot()
    ensures var w := Expr(If(Boolean(true), Boolean(true), Expr(Date(Null, Null, Null, Null, Null, Null, Null))));
      NotOperand(w) == w && CoerceBool(w) != w
  {
    var w := Expr(If(Boolean(true), Boolean(true), Expr(Date(Null, Null, Null, Null, Null, Null, Null))));
    var ts := Types(w.node);
    assert ts == ["boolean", "object"] by {
      assert MergeTypes(["boolean"], ["object"]) == MergeTypes(["boolean", "object"], []);
    }
    assert !Within(ts, ["boolean"]) by { assert ts[1] == "object"; }
  }

  /** Each statement of And / Or after wrapping. */
  function CoerceAll(args: seq<Value>): (r: seq<Value>)
    ensures |r| == |args|
    ensures forall i :: 0 <= i < |args| ==> r[i] == CoerceBool(args[i])
  {
    seq(|args|, i requires 0 <= i < |args| => CoerceBool(args[i]))
  }

  /** And.init's loop: statements[i] is replaced in place by its wrapped form. */
  method CoerceStatements(a: array<Value>)
    modifies a
    ensures a[..] == CoerceAll(old(a[..]))
  {
    for i := 0 to a.Length
      invariant forall k :: 0 <= k < i ==> a[k] == CoerceBool(old(a[k]))
      invariant forall k :: i <= k < a.Length ==> a[k] == old(a[k])
    {
      a[i] := CoerceBool(a[i]);
    }
  }

  // ---- constructors -------------------------------------------------------

  /** `new Eval(value, default_='')`: no check. */
  function MakeEval(path: Value, dflt: Value): (r: Pyson)
    ensures r.Eval? && r.path == path
    ensures r.dflt == (if dflt.Undefined? then Str("") else dflt)
  {
    Eval(path, Default(dflt, Str("")))
  }

  /** `new Not(value)`: the stored operand is always boolean-typed. */
  function MakeNot(v: Value): (r: Pyson)
    ensures r.Not? && "boolean" in TypesOf(r.operand) && Within(TypesOf(r.operand), ["boolean", "object"])
    ensures r.operand == v || r.operand == Expr(Bool(v))
  {
    Not(NotOperand(v))
  }

  /** `new Bool(value)`: no check; the node is typed {boolean}. */
  function MakeBool(v: Value): (r: Pyson)
    ensures r.Bool? && r.operand == v && Types(r) == ["boolean"]
  {
    Bool(v)
  }

  /** And / Or: copy the arguments with `jQuery.extend([], arguments)`, which
      skips undefined ones, wrap every statement, then demand at least two:
      there must be a defined argument after the first. */
  function MakeAnd(args: seq<Value>): (r: Result<Pyson>)
    ensures r.Ok? <==> exists i :: 1 <= i < |args| && args[i] != Undefined
    ensures r.Err? ==> r.error == "must have at least 2 statements"
    ensures r.Ok? ==> r.value == And(CoerceAll(ExtendArray(args)))
  {
    var s := CoerceAll(ExtendArray(args));
    AtLeastTwoCopied(args);
    if |s| < 2 then Err("must have at least 2 statements") else Ok(And(s))
  }

  function MakeOr(args: seq<Value>): (r: Result<Pyson>)
    ensures r.Ok? <==> exists i :: 1 <= i < |args| && args[i] != Undefined
    ensures r.Err? ==> r.error == "must have at least 2 statements"
    ensures r.Ok? ==> r.value == Or(CoerceAll(ExtendArray(args)))
  {
    var s := CoerceAll(ExtendArray(args));
    AtLeastTwoCopied(args);
    if |s| < 2 then Err("must have at least 2 statements") else Ok(Or(s))
  }

  /** The copy keeps two or more entries exactly when some argument after the
      first is defined. */
  lemma AtLeastTwoCopied(args: seq<Value>)
    ensures |ExtendArray(args)| >= 2 <==> exists i :: 1 <= i < |args| && args[i] != Undefined
  {
    var c := ExtendArray(args);
    if |c| >= 2 {
      assert args[|c| - 1] == c[|c| - 1];
    }
  }

  /** And.init as the source runs it: copy the arguments into an array, wrap
      them in place, then check the count. */
  method NewAnd(args: seq<Value>) returns (r: Result<Pyson>)
    ensures r == MakeAnd(args)
  {
    var statements := CopyArray(args);
    CoerceStatements(statements);
    if statements.Length < 2 {
      r := Err("must have at least 2 statements");
    } else {
      r := Ok(And(statements[..]));
    }
  }

  /** Equal: both tag lists must hold the same tags. */
  function MakeEqual(s1: Value, s2: Value): (r: Result<Pyson>)
    ensures r.Ok? <==> Within(TypesOf(s1), TypesOf(s2)) && Within(TypesOf(s2), TypesOf(s1))
    ensures r.Ok? ==> r.value == Equal(s1, s2)
    ensures r.Err? ==> r.error == "statements must have the same type"
  {
    if !SameTags(TypesOf(s1), TypesOf(s2)) then Err("statements must have the same type")
    else Ok(Equal(s1, s2))
  }

  /** Greater / Less operand check: a Date or DateTime node, a node typed
      within {number}, or a literal whose typeof is number or object. */
  predicate Comparable(v: Value)
  {
    if v.Expr? then v.node.Date? || v.node.DateTime? || Within(Types(v.node), ["number"])
    else TypeOf(v) in {"number", "object"}
  }

  const ComparableError := "statement must be an integer, float, date or datetime"

  function MakeGreater(s1: Value, s2: Value, equal: Value): (r: Result<Pyson>)
    ensures r.Ok? <==> Comparable(s1) && Comparable(s2)
    ensures r.Ok? ==> r.value == Greater(s1, s2, CoerceBool(Default(equal, Boolean(false))))
    ensures r.Err? ==> r.error == ComparableError
  {
    if !Comparable(s1) || !Comparable(s2) then Err(ComparableError)
    else Ok(Greater(s1, s2, CoerceBool(Default(equal, Boolean(false)))))
  }

  function MakeLess(s1: Value, s2: Value, equal: Value): (r: Result<Pyson>)
    ensures r.Ok? <==> Comparable(s1) && Comparable(s2)
    ensures r.Ok? ==> r.value == Less(s1, s2, CoerceBool(Default(equal, Boolean(false))))
    ensures r.Err? ==> r.error == ComparableError
  {
    if !Comparable(s1) || !Comparable(s2) then Err(ComparableError)
    else Ok(Less(s1, s2, CoerceBool(Default(equal, Boolean(false)))))
  }

  /** Len's tag ['integer'] is not within ['number'], so Greater refuses a Len node. */
  lemma GreaterRejectsLen(v: Value, other: Value)
    ensures MakeGreater(Expr(Len(v)), other, Boolean(false)).Err?
    ensures MakeLess(Expr(Len(v)), other, Boolean(false)).Err?
  {
    assert !Within(Types(Len(v)), ["number"]) by { assert Types(Len(v))[0] == "integer"; }
  }

  /** `new If(condition, then, else=null)`: the condition is wrapped like And's. */
  function MakeIf(c: Value, t: Value, e: Value): (r: Pyson)
    ensures r.If? && SameTags(TypesOf(r.c), ["boolean"])
    ensures r.c == c || r.c == Expr(Bool(c))
    ensures r.t == t && r.e == (if e.Undefined? then Null else e)
  {
    If(CoerceBool(c), t, Default(e, Null))
  }

  /** Get's and In's container check: a node typed exactly {object}, or an object. */
  predicate DictOperand(obj: Value)
  {
    if obj.Expr? then SameTags(Types(obj.node), ["object"]) else IsObject(obj)
  }

  /** In's key check: a node typed within {string, number}, or a string or number. */
  predicate KeyOperand(key: Value)
  {
    if key.Expr? then Within(Types(key.node), ["string", "number"]) else key.Str? || key.Number?
  }

  /** Get: the object must be a dict (a node typed exactly {object}, or an object
      literal), the key a string. */
  function MakeGet(obj: Value, key: Value, dflt: Value): (r: Result<Pyson>)
    ensures r.Ok? <==> DictOperand(obj) && (if key.Expr? then SameTags(Types(key.node), ["string"]) else key.Str?)
    ensures r.Ok? ==> r.value == Get(obj, key, Default(dflt, Null))
    ensures r.Err? ==> r.error == (if DictOperand(obj) then "key must be a string" else "obj must be a dict")
  {
    if (if obj.Expr? then !SameTags(Types(obj.node), ["object"]) else !IsObject(obj)) then
      Err("obj must be a dict")
    else if (if key.Expr? then !SameTags(Types(key.node), ["string"]) else TypeOf(key) != "string") then
      Err("key must be a string")
    else Ok(Get(obj, key, Default(dflt, Null)))
  }

  /** In: the key must be typed within {string, number}, the container must be
      a dict or a list. */
  function MakeIn(key: Value, obj: Value): (r: Result<Pyson>)
    ensures r.Ok? <==> KeyOperand(key) && DictOperand(obj)
    ensures r.Ok? ==> r.value == In(key, obj)
    ensures r.Err? && KeyOperand(key) ==> r.error == "obj must be a dict or a list"
    ensures r.Err? && !KeyOperand(key) ==> r.error == "key must be a string or a number"
  {
    if (if key.Expr? then !Within(Types(key.node), ["string", "number"])
        else TypeOf(key) !in {"string", "number"}) then
      Err("key must be a string or a number")
    else if (if obj.Expr? then !SameTags(Types(obj.node), ["object"]) else !IsObject(obj)) then
      Err("obj must be a dict or a list")
    else Ok(In(key, obj))
  }

  /** `Date._test`: a node typed within {number, object}, a number, or null. */
  predicate IntegerOrNone(v: Value)
  {
    if v.Expr? then Within(Types(v.node), ["number", "object"]) else v.Number? || v.Null?
  }

  /** The position of the first field, in checking order, that fails `_test`. */
  function FirstBadField(fields: seq<(string, Value)>): (r: Option<nat>)
    ensures r.None? <==> forall i :: 0 <= i < |fields| ==> IntegerOrNone(fields[i].1)
    ensures r.Some? ==> (r.value < |fields| && !IntegerOrNone(fields[r.value].1) &&
      forall j :: 0 <= j < r.value ==> IntegerOrNone(fields[j].1))
  {
    if fields == [] then None
    else if !IntegerOrNone(fields[0].1) then Some(0)
    else match FirstBadField(fields[1..])
      case None => None
      case Some(i) => Some(i + 1)
  }

  /** `_test`'s error for the first failing field, if any. */
  function FieldError(fields: seq<(string, Value)>): (r: Option<string>)
    ensures r.None? <==> forall i :: 0 <= i < |fields| ==> IntegerOrNone(fields[i].1)
  {
    var bad := FirstBadField(fields);
    if bad.Some? then Some(fields[bad.value].0 + " must be an integer or None") else None
  }

  /** Date's checks, in the source's order: day deltas before month deltas. */
  function DateChecks(y: Value, mo: Value, d: Value, dy: Value, dmo: Value, dd: Value): seq<(string, Value)>
  {
    [("year", y), ("month", mo), ("day", d), ("delta_years", dy), ("delta_days", dd), ("delta_months", dmo)]
  }

  /** `new Date(year=null, month=null, day=null, delta_years=0, delta_months=0,
      delta_days=0, start=null)`. */
  function MakeDate(y: Value, mo: Value, d: Value, dy: Value, dmo: Value, dd: Value, start: Value): (r: Result<Pyson>)
    ensures r.Ok? ==> r.value.Date?
  {
    var y, mo, d := Default(y, Null), Default(mo, Null), Default(d, Null);
    var dy, dmo, dd := Default(dy, Number(0)), Default(dmo, Number(0)), Default(dd, Number(0));
    var err := FieldError(DateChecks(y, mo, d, dy, dmo, dd));
    if err.Some? then Err(err.value)
    else Ok(Date(y, mo, d, dy, dmo, dd, Default(start, Null)))
  }

  /** `new DateTime(...)`: Date's checks first, then the time fields and their deltas. */
  function MakeDateTime(y: Value, mo: Value, d: Value, h: Value, mi: Value, s: Value, ms: Value,
                        dy: Value, dmo: Value, dd: Value, dh: Value, dmi: Value, ds: Value, dms: Value,
                        start: Value): (r: Result<Pyson>)
    ensures r.Ok? ==> r.value.DateTime?
  {
    var y, mo, d := Default(y, Null), Default(mo, Null), Default(d, Null);
    var h, mi, s, ms := Default(h, Null), Default(mi, Null), Default(s, Null), Default(ms, Null);
    var dy, dmo, dd := Default(dy, Number(0)), Default(dmo, Number(0)), Default(dd, Number(0));
    var dh, dmi, ds, dms := Default(dh, Number(0)), Default(dmi, Number(0)), Default(ds, Number(0)), Default(dms, Number(0));
    var checks := DateChecks(y, mo, d, dy, dmo, dd) +
      [("hour", h), ("minute", mi), ("second", s), ("microsecond", ms),
       ("delta_hours", dh), ("delta_minutes", dmi), ("delta_seconds", ds), ("delta_microseconds", dms)];
    var err := FieldError(checks);
    if err.Some? then Err(err.value)
    else Ok(DateTime(y, mo, d, h, mi, s, ms, dy, dmo, dd, dh, dmi, ds, dms, Default(start, Null)))
  }

  /** A Date constructor fails exactly when some field is neither an integer nor
      null, and then names the first such field in checking order. */
  lemma MakeDateErrors(y: Value, mo: Value, d: Value, dy: Value, dmo: Value, dd: Value, start: Value)
    ensures var fs := DateChecks(Default(y, Null), Default(mo, Null), Default(d, Null),
                                 Default(dy, Number(0)), Default(dmo, Number(0)), Default(dd, Number(0)));
      && (MakeDate(y, mo, d, dy, dmo, dd, start).Ok? <==> forall i :: 0 <= i < 6 ==> IntegerOrNone(fs[i].1))
      && (MakeDate(y, mo, d, dy, dmo, dd, start).Err? ==>
           exists i :: 0 <= i < 6 && MakeDate(y, mo, d, dy, dmo, dd, start).error == fs[i].0 + " must be an integer or None"
             && !IntegerOrNone(fs[i].1) && forall j :: 0 <= j < i ==> IntegerOrNone(fs[j].1))
  {
    var fs := DateChecks(Default(y, Null), Default(mo, Null), Default(d, Null),
                         Default(dy, Number(0)), Default(dmo, Number(0)), Default(dd, Number(0)));
    FieldErrorNamesFirst(fs);
  }

  /** `_test`'s error names the first failing field. */
  lemma FieldErrorNamesFirst(fs: seq<(string, Value)>)
    ensures FieldError(fs).Some? ==>
      exists i :: 0 <= i < |fs| && FieldError(fs).value == fs[i].0 + " must be an integer or None"
        && !IntegerOrNone(fs[i].1) && forall j :: 0 <= j < i ==> IntegerOrNone(fs[j].1)
  {
    var bad := FirstBadField(fs);
    if bad.Some? {
      assert FieldError(fs).value == fs[bad.value].0 + " must be an integer or None";
    }
  }

  /** Day deltas are checked before month deltas: with both bad (and the
      fields before them fine), Date blames the days. */
  lemma DateChecksDaysBeforeMonths(y: Value, mo: Value, d: Value, dy: Value, dmo: Value, dd: Value, start: Value)
    requires y.Null? && mo.Null? && d.Null? && dy.Number?
    requires !dmo.Undefined? && !dd.Undefined? && !IntegerOrNone(dmo) && !IntegerOrNone(dd)
    ensures MakeDate(y, mo, d, dy, dmo, dd, start) == Err("delta_days must be an integer or None")
  {
    FirstBadAt(DateChecks(y, mo, d, dy, dmo, dd), 4);
    DaysMessage();
  }

  /** The first failing field is the one after a run of passing ones. */
  lemma FirstBadAt(fs: seq<(string, Value)>, k: nat)
    requires k < |fs| && !IntegerOrNone(fs[k].1)
    requires forall j :: 0 <= j < k ==> IntegerOrNone(fs[j].1)
    ensures FirstBadField(fs) == Some(k)
  {
  }

  lemma DaysMessage()
    ensures "delta_days" + " must be an integer or None" == "delta_days must be an integer or None"
  {
  }

  /** TimeDelta's check tests `instanceof TimeDelta`, whose tags ['object'] are
      never within ['number']; so only a plain number passes. */
  predicate TimeDeltaField(v: Value)
  {
    if v.Expr? && v.node.TimeDelta? then Within(Types(v.node), ["number"]) else TypeOf(v) == "number"
  }

  function MakeTimeDelta(days: Value, seconds: Value, micros: Value): (r: Result<Pyson>)
    ensures r.Ok? ==> r.value.TimeDelta?
  {
    var days, seconds, micros := Default(days, Number(0)), Default(seconds, Number(0)), Default(micros, Number(0));
    if !TimeDeltaField(days) then Err("days must be an integer")
    else if !TimeDeltaField(seconds) then Err("seconds must be an integer")
    else if !TimeDeltaField(micros) then Err("microseconds must be an integer")
    else Ok(TimeDelta(days, seconds, micros))
  }

  /** TimeDelta accepts exactly plain numbers (or omitted arguments): every node,
      even a TimeDelta node, is refused. */
  lemma TimeDeltaAcceptsOnlyNumbers(days: Value, seconds: Value, micros: Value)
    ensures MakeTimeDelta(days, seconds, micros).Ok? <==>
      Default(days, Number(0)).Number? && Default(seconds, Number(0)).Number? && Default(micros, Number(0)).Number?
  {
    forall v: Value | v.Expr? && v.node.TimeDelta?
      ensures !TimeDeltaField(v)
    {
      assert Types(v.node)[0] == "object";
    }
  }

  /** Len: a node must be typed exactly {object, string}; a literal must be an
      object (null included) or a string. */
  function MakeLen(v: Value): (r: Result<Pyson>)
    ensures r.Ok? <==> if v.Expr? then SameTags(Types(v.node), ["object", "string"])
                       else v.Null? || IsObject(v) || v.Str?
    ensures r.Ok? ==> r.value == Len(v)
    ensures r.Err? ==> r.error == "value must be an object or a string"
  {
    if (if v.Expr? then !SameTags(Types(v.node), ["object", "string"])
        else TypeOf(v) != "object" && TypeOf(v) != "string") then
      Err("value must be an object or a string")
    else Ok(Len(v))
  }

  /** A node typed only {object} (an Eval with a dict default) is refused by Len. */
  lemma LenRefusesObjectOnlyNode(p: Value)
    ensures MakeLen(Expr(Eval(p, Obj([])))).Err?
  {
    var ts := Types(Eval(p, Obj([])));
    assert TypesOf(Obj([])) == ["object"];
    assert ts == ["object"];
    assert ["object", "string"][1] !in ts;
  }

  // ---- wire projection ----------------------------------------------------

  /** `pyson()`: the tagged record of a node, `__class__` first, fields in the
      order the source writes them. */
  function Projection(n: Pyson): (r: seq<(string, Value)>)
    ensures |r| >= 2 && r[0] == ("__class__", Str(Tag(n)))
  {
    [("__class__", Str(Tag(n)))] + Args(n)
  }

  /** The record's fields without `__class__` (the decoder deletes it before
      `init_from_object`). */
  function Args(n: Pyson): (r: seq<(string, Value)>)
    ensures |r| >= 1
  {
    match n
    case Eval(v, d) => [("v", v), ("d", d)]
    case Not(v) => [("v", v)]
    case Bool(v) => [("v", v)]
    case And(s) => [("s", Arr(s))]
    case Or(s) => [("s", Arr(s))]
    case Equal(s1, s2) => [("s1", s1), ("s2", s2)]
    case Greater(s1, s2, e) => [("s1", s1), ("s2", s2), ("e", e)]
    case Less(s1, s2, e) => [("s1", s1), ("s2", s2), ("e", e)]
    case If(c, t, e) => [("c", c), ("t", t), ("e", e)]
    case Get(v, k, d) => [("v", v), ("k", k), ("d", d)]
    case In(k, v) => [("k", k), ("v", v)]
    case Date(y, mo, d, dy, dmo, dd, start) =>
      [("y", y), ("M", mo), ("d", d), ("dy", dy), ("dM", dmo), ("dd", dd), ("start", start)]
    case DateTime(y, mo, d, h, mi, s, ms, dy, dmo, dd, dh, dmi, ds, dms, start) =>
      [("y", y), ("M", mo), ("d", d), ("dy", dy), ("dM", dmo), ("dd", dd), ("start", start),
       ("h", h), ("m", mi), ("s", s), ("ms", ms), ("dh", dh), ("dm", dmi), ("ds", ds), ("dms", dms)]
    case TimeDelta(days, seconds, micros) => [("d", days), ("s", seconds), ("m", micros)]
    case Len(v) => [("v", v)]
  }

  /** A node's record names each field once. */
  lemma ArgsDistinctKeys(n: Pyson)
    ensures DistinctKeys(Args(n))
  {
  }

  /** `init_from_object`: rebuild a node of the given tag from a record's fields
      through its constructor. DateTime passes no `start`; TimeDelta reads
      `microseconds` where the record has `m`. */
  function FromObject(tag: string, obj: seq<(string, Value)>): Result<Pyson>
    requires tag in NodeTags
  {
    match tag
    case "Eval" => Ok(MakeEval(Lookup(obj, "v"), Lookup(obj, "d")))
    case "Not" => Ok(MakeNot(Lookup(obj, "v")))
    case "Bool" => Ok(MakeBool(Lookup(obj, "v")))
    case "And" => MakeAnd(if Lookup(obj, "s").Arr? then Lookup(obj, "s").items else [])
    case "Or" => MakeOr(if Lookup(obj, "s").Arr? then Lookup(obj, "s").items else [])
    case "Equal" => MakeEqual(Lookup(obj, "s1"), Lookup(obj, "s2"))
    case "Greater" => MakeGreater(Lookup(obj, "s1"), Lookup(obj, "s2"), Lookup(obj, "e"))
    case "Less" => MakeLess(Lookup(obj, "s1"), Lookup(obj, "s2"), Lookup(obj, "e"))
    case "If" => Ok(MakeIf(Lookup(obj, "c"), Lookup(obj, "t"), Lookup(obj, "e")))
    case "Get" => MakeGet(Lookup(obj, "v"), Lookup(obj, "k"), Lookup(obj, "d"))
    case "In" => MakeIn(Lookup(obj, "k"), Lookup(obj, "v"))
    case "Date" => MakeDate(Lookup(obj, "y"), Lookup(obj, "M"), Lookup(obj, "d"), Lookup(obj, "dy"), Lookup(obj, "dM"), Lookup(obj, "dd"), Lookup(obj, "start"))
    case "DateTime" =>
      MakeDateTime(Lookup(obj, "y"), Lookup(obj, "M"), Lookup(obj, "d"), Lookup(obj, "h"), Lookup(obj, "m"), Lookup(obj, "s"), Lookup(obj, "ms"),
                   Lookup(obj, "dy"), Lookup(obj, "dM"), Lookup(obj, "dd"), Lookup(obj, "dh"), Lookup(obj, "dm"), Lookup(obj, "ds"), Lookup(obj, "dms"), Undefined)
    case "TimeDelta" => MakeTimeDelta(Lookup(obj, "d"), Lookup(obj, "s"), Lookup(obj, "microseconds"))
    case "Len" => MakeLen(Lookup(obj, "v"))
  }

  // ---- what init_from_object reads, tag by tag -----------------------------

  lemma FromObjectEval(a: seq<(string, Value)>)
    ensures FromObject("Eval", a) == Ok(MakeEval(Lookup(a, "v"), Lookup(a, "d")))
  {
  }

  lemma FromObjectNot(a: seq<(string, Value)>)
    ensures FromObject("Not", a) == Ok(MakeNot(Lookup(a, "v")))
  {
  }

  lemma FromObjectBool(a: seq<(string, Value)>)
    ensures FromObject("Bool", a) == Ok(MakeBool(Lookup(a, "v")))
  {
  }

  /** And and Or read their statement list from `s`; anything else there is no statements. */
  lemma FromObjectAnd(a: seq<(string, Value)>)
    ensures FromObject("And", a) == MakeAnd(if Lookup(a, "s").Arr? then Lookup(a, "s").items else [])
  {
  }

  lemma FromObjectOr(a: seq<(string, Value)>)
    ensures FromObject("Or", a) == MakeOr(if Lookup(a, "s").Arr? then Lookup(a, "s").items else [])
  {
  }

  lemma FromObjectEqual(a: seq<(string, Value)>)
    ensures FromObject("Equal", a) == MakeEqual(Lookup(a, "s1"), Lookup(a, "s2"))
  {
  }

  lemma FromObjectGreater(a: seq<(string, Value)>)
    ensures FromObject("Greater", a) == MakeGreater(Lookup(a, "s1"), Lookup(a, "s2"), Lookup(a, "e"))
  {
  }

  lemma FromObjectLess(a: seq<(string, Value)>)
    ensures FromObject("Less", a) == MakeLess(Lookup(a, "s1"), Lookup(a, "s2"), Lookup(a, "e"))
  {
  }

  lemma FromObjectIf(a: seq<(string, Value)>)
    ensures FromObject("If", a) == Ok(MakeIf(Lookup(a, "c"), Lookup(a, "t"), Lookup(a, "e")))
  {
  }

  lemma FromObjectGet(a: seq<(string, Value)>)
    ensures FromObject("Get", a) == MakeGet(Lookup(a, "v"), Lookup(a, "k"), Lookup(a, "d"))
  {
  }

  lemma FromObjectIn(a: seq<(string, Value)>)
    ensures FromObject("In", a) == MakeIn(Lookup(a, "k"), Lookup(a, "v"))
  {
  }

  /** Date reads its seven fields by key, start included. */
  lemma FromObjectDate(a: seq<(string, Value)>)
    ensures FromObject("Date", a) ==
      MakeDate(Lookup(a, "y"), Lookup(a, "M"), Lookup(a, "d"), Lookup(a, "dy"), Lookup(a, "dM"), Lookup(a, "dd"),
               Lookup(a, "start"))
  {
  }

  /** DateTime reads fourteen fields by key and passes no start. */
  lemma FromObjectDateTime(a: seq<(string, Value)>)
    ensures FromObject("DateTime", a) ==
      MakeDateTime(Lookup(a, "y"), Lookup(a, "M"), Lookup(a, "d"), Lookup(a, "h"), Lookup(a, "m"), Lookup(a, "s"),
                   Lookup(a, "ms"), Lookup(a, "dy"), Lookup(a, "dM"), Lookup(a, "dd"), Lookup(a, "dh"), Lookup(a, "dm"),
                   Lookup(a, "ds"), Lookup(a, "dms"), Undefined)
  {
  }

  /** TimeDelta reads `microseconds`, a key its own record does not have. */
  lemma FromObjectTimeDelta(a: seq<(string, Value)>)
    ensures FromObject("TimeDelta", a) == MakeTimeDelta(Lookup(a, "d"), Lookup(a, "s"), Lookup(a, "microseconds"))
  {
  }

  lemma FromObjectLen(a: seq<(string, Value)>)
    ensures FromObject("Len", a) == MakeLen(Lookup(a, "v"))
  {
  }

  // ---- init_from_object rebuilds what a constructor built ------------------

  /** A wrapped statement list ends in a defined value, so the copy keeps it
      whole, and wrapping it again changes nothing. */
  lemma StatementsRebuild(args: seq<Value>)
    ensures var s := CoerceAll(ExtendArray(args));
      (s == [] || s[|s| - 1] != Undefined) && forall i :: 0 <= i < |s| ==> CoerceBool(s[i]) == s[i]
  {
    var c := ExtendArray(args);
    var s := CoerceAll(c);
    forall i | 0 <= i < |s|
      ensures CoerceBool(s[i]) == s[i]
    {
      CoerceBoolIdempotent(c[i]);
    }
  }

  /** Eval's stored default is never undefined, so it is read back as it is. */
  lemma EvalRebuilds(path: Value, dflt: Value)
    ensures var n := MakeEval(path, dflt); FromObject(Tag(n), Args(n)) == Ok(n)
  {
    var n := MakeEval(path, dflt);
    ArgsDistinctKeys(n);
    LookupDistinct(Args(n), 0); LookupDistinct(Args(n), 1);
    FromObjectEval(Args(n));
  }

  /** Not's operand is already boolean-typed, so it is not wrapped again. */
  lemma NotRebuilds(v: Value)
    ensures var n := MakeNot(v); FromObject(Tag(n), Args(n)) == Ok(n)
  {
    var n := MakeNot(v);
    CoerceBoolIdempotent(v);
    ArgsDistinctKeys(n);
    LookupDistinct(Args(n), 0);
    FromObjectNot(Args(n));
  }

  lemma BoolRebuilds(v: Value)
    ensures var n := MakeBool(v); FromObject(Tag(n), Args(n)) == Ok(n)
  {
    var n := MakeBool(v);
    ArgsDistinctKeys(n);
    LookupDistinct(Args(n), 0);
    FromObjectBool(Args(n));
  }

  /** And's statements are already copied and wrapped: a second pass keeps them. */
  lemma AndRebuilds(args: seq<Value>)
    requires MakeAnd(args).Ok?
    ensures var n := MakeAnd(args).value; FromObject(Tag(n), Args(n)) == Ok(n)
  {
    StatementsRebuild(args);
    AndOfStatements(MakeAnd(args).value.statements);
  }

  lemma AndOfStatements(s: seq<Value>)
    requires |s| >= 2 && s[|s| - 1] != Undefined
    requires forall i :: 0 <= i < |s| ==> CoerceBool(s[i]) == s[i]
    ensures FromObject(Tag(And(s)), Args(And(s))) == Ok(And(s))
  {
    assert ExtendArray(s) == s;
    assert CoerceAll(s) == s;
    assert MakeAnd(s) == Ok(And(s));
    assert Args(And(s)) == [("s", Arr(s))];
    FromObjectAnd(Args(And(s)));
  }

  lemma OrRebuilds(args: seq<Value>)
    requires MakeOr(args).Ok?
    ensures var n := MakeOr(args).value; FromObject(Tag(n), Args(n)) == Ok(n)
  {
    StatementsRebuild(args);
    OrOfStatements(MakeOr(args).value.statements);
  }

  lemma OrOfStatements(s: seq<Value>)
    requires |s| >= 2 && s[|s| - 1] != Undefined
    requires forall i :: 0 <= i < |s| ==> CoerceBool(s[i]) == s[i]
    ensures FromObject(Tag(Or(s)), Args(Or(s))) == Ok(Or(s))
  {
    assert ExtendArray(s) == s;
    assert CoerceAll(s) == s;
    assert MakeOr(s) == Ok(Or(s));
    assert Args(Or(s)) == [("s", Arr(s))];
    FromObjectOr(Args(Or(s)));
  }

  /** Equal's type check passes again on the same two statements. */
  lemma EqualRebuilds(s1: Value, s2: Value)
    requires MakeEqual(s1, s2).Ok?
    ensures var n := MakeEqual(s1, s2).value; FromObject(Tag(n), Args(n)) == Ok(n)
  {
    var n := Equal(s1, s2);
    ArgsDistinctKeys(n);
    LookupDistinct(Args(n), 0); LookupDistinct(Args(n), 1);
    FromObjectEqual(Args(n));
  }

  /** Greater's stored `equal` is already wrapped, so it is not wrapped again. */
  lemma GreaterRebuilds(s1: Value, s2: Value, equal: Value)
    requires MakeGreater(s1, s2, equal).Ok?
    ensures var n := MakeGreater(s1, s2, equal).value; FromObject(Tag(n), Args(n)) == Ok(n)
  {
    var n := Greater(s1, s2, CoerceBool(Default(equal, Boolean(false))));
    CoerceBoolIdempotent(Default(equal, Boolean(false)));
    ArgsDistinctKeys(n);
    LookupDistinct(Args(n), 0); LookupDistinct(Args(n), 1); LookupDistinct(Args(n), 2);
    FromObjectGreater(Args(n));
  }

  lemma LessRebuilds(s1: Value, s2: Value, equal: Value)
    requires MakeLess(s1, s2, equal).Ok?
    ensures var n := MakeLess(s1, s2, equal).value; FromObject(Tag(n), Args(n)) == Ok(n)
  {
    var n := Less(s1, s2, CoerceBool(Default(equal, Boolean(false))));
    CoerceBoolIdempotent(Default(equal, Boolean(false)));
    ArgsDistinctKeys(n);
    LookupDistinct(Args(n), 0); LookupDistinct(Args(n), 1); LookupDistinct(Args(n), 2);
    FromObjectLess(Args(n));
  }

  /** If's condition is already wrapped and its else is never undefined. */
  lemma IfRebuilds(c: Value, t: Value, e: Value)
    ensures var n := MakeIf(c, t, e); FromObject(Tag(n), Args(n)) == Ok(n)
  {
    var n := MakeIf(c, t, e);
    CoerceBoolIdempotent(c);
    ArgsDistinctKeys(n);
    LookupDistinct(Args(n), 0); LookupDistinct(Args(n), 1); LookupDistinct(Args(n), 2);
    FromObjectIf(Args(n));
  }

  /** Get's checks pass again, and its stored default is never undefined. */
  lemma GetRebuilds(obj: Value, key: Value, dflt: Value)
    requires MakeGet(obj, key, dflt).Ok?
    ensures var n := MakeGet(obj, key, dflt).value; FromObject(Tag(n), Args(n)) == Ok(n)
  {
    var n := Get(obj, key, Default(dflt, Null));
    ArgsDistinctKeys(n);
    LookupDistinct(Args(n), 0); LookupDistinct(Args(n), 1); LookupDistinct(Args(n), 2);
    FromObjectGet(Args(n));
  }

  lemma InRebuilds(key: Value, obj: Value)
    requires MakeIn(key, obj).Ok?
    ensures var n := MakeIn(key, obj).value; FromObject(Tag(n), Args(n)) == Ok(n)
  {
    var n := In(key, obj);
    ArgsDistinctKeys(n);
    LookupDistinct(Args(n), 0); LookupDistinct(Args(n), 1);
    FromObjectIn(Args(n));
  }

  lemma LenRebuilds(v: Value)
    requires MakeLen(v).Ok?
    ensures var n := MakeLen(v).value; FromObject(Tag(n), Args(n)) == Ok(n)
  {
    var n := Len(v);
    ArgsDistinctKeys(n);
    LookupDistinct(Args(n), 0);
    FromObjectLen(Args(n));
  }

  // ---- Eval.basename ------------------------------------------------------

  const ParentPrefix := "_parent_"

  /** The first field name of a path: without a leading `_parent_`, cut at the first dot. */
  function Basename(path: string): (r: string)
    ensures '.' !in r
    ensures var name := if ParentPrefix <= path then path[|ParentPrefix|..] else path;
      r <= name && (r == name || name[|r|] == '.')
  {
    var name := if ParentPrefix <= path then path[|ParentPrefix|..] else path;
    UpToDot(name)
  }

  /** `name.substring(0, name.indexOf('.'))`, or the whole name without a dot. */
  function UpToDot(name: string): (r: string)
    ensures '.' !in r && r <= name && (r == name || name[|r|] == '.')
  {
    if name == [] then []
    else if name[0] == '.' then []
    else [name[0]] + UpToDot(name[1..])
  }
}

=== FILE: render.dfy ===
/** `Sao.PYSON.toString` and the nodes' `toString`: the Python-like text of
    a value, with nodes written as calls on their `__string_params__`. */
module Rendering {
  import opened Wrappers
  import opened Values
  import opened Nodes

  // ---- JSON string literals -------------------------------------------------

  function HexDigit(d: nat): char
    requires d < 16
  {
    "0123456789abcdef"[d]
  }

  /** The value of a hexadecimal digit, if it is one (either case). */
  function HexValue(c: char): Option<nat>
  {
    if '0' <= c <= '9' then Some(c as int - '0' as int)
    else if 'a' <= c <= 'f' then Some(c as int - 'a' as int + 10)
    else if 'A' <= c <= 'F' then Some(c as int - 'A' as int + 10)
    else None
  }

  /** How `JSON.stringify` writes one character of a string. */
  function Escape(c: char): (r: string)
    ensures |r| >= 1
    ensures r[0] == '\\' <==> (c == '"' || c == '\\' || c < ' ')
  {
    if c == '"' then "\\\""
    else if c == '\\' then "\\\\"
    else if c == '\U{8}' then "\\b"
    else if c == '\U{C}' then "\\f"
    else if c == '\n' then "\\n"
    else if c == '\r' then "\\r"
    else if c == '\t' then "\\t"
    else if c < ' ' then "\\u00" + [HexDigit(c as int / 16), HexDigit(c as int % 16)]
    else [c]
  }

  function Escaped(s: string): string
  {
    if s == [] then [] else Escape(s[0]) + Escaped(s[1..])
  }

  /** `JSON.stringify` of a string. */
  function Quote(s: string): (r: string)
    ensures |r| >= 2 && r[0] == '"' && r[|r| - 1] == '"'
  {
    "\"" + Escaped(s) + "\""
  }

  /** The character a two-character escape stands for. */
  function SimpleEscape(e: char): Option<char>
  {
    match e
    case '"' => Some('"')
    case '\\' => Some('\\')
    case '/' => Some('/')
    case 'b' => Some('\U{8}')
    case 'f' => Some('\U{C}')
    case 'n' => Some('\n')
    case 'r' => Some('\r')
    case 't' => Some('\t')
    case _ => None
  }

  function Prepend(c: char, rest: Option<string>): Option<string>
  {
    if rest.Some? then Some([c] + rest.value) else None
  }

  /** The character named by four hexadecimal digits, if they are digits and
      name a character outside the surrogate range. */
  function UnicodeEscape(h: string): Option<char>
    requires |h| == 4
  {
    var a, b, c, d := HexValue(h[0]), HexValue(h[1]), HexValue(h[2]), HexValue(h[3]);
    if a.None? || b.None? || c.None? || d.None? then None
    else
      var code := ((a.value * 16 + b.value) * 16 + c.value) * 16 + d.value;
      if code < 0xD800 then Some(code as char) else if 0xE000 <= code then Some(code as char) else None
  }

  /** The body of a JSON string literal up to and including its closing
      quote, which must end the text. */
  function Unescape(t: string): Option<string>
    decreases |t|
  {
    if t == [] then None
    else if t[0] == '"' then (if |t| == 1 then Some([]) else None)
    else if t[0] == '\\' then
      if |t| < 2 then None
      else if SimpleEscape(t[1]).Some? then Prepend(SimpleEscape(t[1]).value, Unescape(t[2..]))
      else if t[1] == 'u' && |t| >= 6 && UnicodeEscape(t[2..6]).Some? then
        Prepend(UnicodeEscape(t[2..6]).value, Unescape(t[6..]))
      else None
    else if t[0] < ' ' then None
    else Prepend(t[0], Unescape(t[1..]))
  }

  /** `JSON.parse` of a string literal. */
  function Unquote(t: string): Option<string>
  {
    if t != [] && t[0] == '"' then Unescape(t[1..]) else None
  }

  /** One escaped character is read back as itself. */
  lemma EscapeRead(c: char, rest: string)
    ensures Unescape(Escape(c) + rest) == Prepend(c, Unescape(rest))
  {
    var e := Escape(c);
    if c < ' ' && c != '\U{8}' && c != '\U{C}' && c != '\n' && c != '\r' && c != '\t' {
      var hi, lo := c as int / 16, c as int % 16;
      assert e == ['\\', 'u', '0', '0', HexDigit(hi), HexDigit(lo)];
      var t := e + rest;
      assert t[2..6] == ['0', '0', HexDigit(hi), HexDigit(lo)];
      assert HexValue(HexDigit(hi)) == Some(hi);
      assert HexValue(HexDigit(lo)) == Some(lo);
      assert UnicodeEscape(t[2..6]) == Some(c);
      assert t[6..] == rest;
    } else if e[0] == '\\' {
      assert (e + rest)[2..] == rest;
    } else {
      assert (e + rest)[1..] == rest;
    }
  }

  lemma {:induction false} UnescapeEscaped(s: string)
    ensures Unescape(Escaped(s) + "\"") == Some(s)
  {
    if s != [] {
      UnescapeEscaped(s[1..]);
      assert Escaped(s) + "\"" == Escape(s[0]) + (Escaped(s[1..]) + "\"");
      EscapeRead(s[0], Escaped(s[1..]) + "\"");
      assert [s[0]] + s[1..] == s;
    }
  }

  /** `JSON.parse(JSON.stringify(s)) === s` for every string. */
  lemma QuoteRoundTrip(s: string)
    ensures Unquote(Quote(s)) == Some(s)
  {
    UnescapeEscaped(s);
    assert Quote(s)[1..] == Escaped(s) + "\"";
  }

  // ---- values as text -------------------------------------------------------

  /** `array.join(', ')`. */
  function Join(xs: seq<string>): string
  {
    if xs == [] then "" else if |xs| == 1 then xs[0] else xs[0] + ", " + Join(xs[1..])
  }

  /** The text of a value where the source joins it into a list: an array
      item or a node parameter. Undefined, which `JSON.stringify` leaves
      undefined, joins as the empty string. Moments, durations and decimals
      are library objects whose enumerable properties are not modelled:
      `host` supplies their text. */
  function Text(v: Value, host: Value -> string): string
    decreases v, 1
  {
    match v
    case Undefined => ""
    case Null => "null"
    case Boolean(b) => if b then "true" else "false"
    case Number(n) => IntToString(n)
    case Str(s) => Quote(s)
    case Arr(items) => "[" + Join(seq(|items|, i requires 0 <= i < |items| => Text(items[i], host))) + "]"
    case Obj(ms) =>
      "{" + Join(seq(|ms|, i requires 0 <= i < |ms| =>
        Quote(ms[i].0) + ": " + (if ms[i].1.Undefined? then "undefined" else Text(ms[i].1, host)))) + "}"
    case Expr(n) => Tag(n) + "(" + Join(ParamTexts(n, host)) + ")"
    case _ => host(v)
  }

  /** Each node's `__string_params__`, as text. DateTime lists the time fields
      after the date, then the deltas, and its start last. */
  function ParamTexts(n: Pyson, host: Value -> string): seq<string>
    decreases n, 0
  {
    match n
    case Eval(v, d) => [Text(v, host), Text(d, host)]
    case Not(v) => [Text(v, host)]
    case Bool(v) => [Text(v, host)]
    case And(s) => seq(|s|, i requires 0 <= i < |s| => Text(s[i], host))
    case Or(s) => seq(|s|, i requires 0 <= i < |s| => Text(s[i], host))
    case Equal(s1, s2) => [Text(s1, host), Text(s2, host)]
    case Greater(s1, s2, e) => [Text(s1, host), Text(s2, host), Text(e, host)]
    case Less(s1, s2, e) => [Text(s1, host), Text(s2, host), Text(e, host)]
    case If(c, t, e) => [Text(c, host), Text(t, host), Text(e, host)]
    case Get(v, k, d) => [Text(v, host), Text(k, host), Text(d, host)]
    case In(k, v) => [Text(k, host), Text(v, host)]
    case Date(y, mo, d, dy, dmo, dd, start) =>
      [Text(y, host), Text(mo, host), Text(d, host), Text(dy, host), Text(dmo, host), Text(dd, host),
       Text(start, host)]
    case DateTime(y, mo, d, h, mi, s, ms, dy, dmo, dd, dh, dmi, ds, dms, start) =>
      [Text(y, host), Text(mo, host), Text(d, host), Text(h, host), Text(mi, host), Text(s, host),
       Text(ms, host)] +
      [Text(dy, host), Text(dmo, host), Text(dd, host), Text(dh, host), Text(dmi, host),
       Text(ds, host), Text(dms, host), Text(start, host)]
    case TimeDelta(days, seconds, micros) => [Text(days, host), Text(seconds, host), Text(micros, host)]
    case Len(v) => [Text(v, host)]
  }

  /** `Sao.PYSON.toString(value)`: undefined for undefined, text otherwise. */
  function Render(v: Value, host: Value -> string): (r: Option<string>)
    ensures r.None? <==> v.Undefined?
  {
    if v.Undefined? then None else Some(Text(v, host))
  }

  // ---- parameters and record ----------------------------------------------

  /** `__string_params__`: the values a node's `toString` lists. */
  function StringParams(n: Pyson): seq<Value>
  {
    match n
    case Eval(v, d) => [v, d]
    case Not(v) => [v]
    case Bool(v) => [v]
    case And(s) => s
    case Or(s) => s
    case Equal(s1, s2) => [s1, s2]
    case Greater(s1, s2, e) => [s1, s2, e]
    case Less(s1, s2, e) => [s1, s2, e]
    case If(c, t, e) => [c, t, e]
    case Get(v, k, d) => [v, k, d]
    case In(k, v) => [k, v]
    case Date(y, mo, d, dy, dmo, dd, start) => [y, mo, d, dy, dmo, dd, start]
    case DateTime(y, mo, d, h, mi, s, ms, dy, dmo, dd, dh, dmi, ds, dms, start) =>
      [y, mo, d, h, mi, s, ms] + [dy, dmo, dd, dh, dmi, ds, dms, start]
    case TimeDelta(days, seconds, micros) => [days, seconds, micros]
    case Len(v) => [v]
  }

  /** The values of a node's `pyson()` record, in its order. */
  function RecordValues(n: Pyson): (r: seq<Value>)
    ensures |r| == |Args(n)| && forall i :: 0 <= i < |r| ==> r[i] == Args(n)[i].1
  {
    seq(|Args(n)|, i requires 0 <= i < |Args(n)| => Args(n)[i].1)
  }

  /** The texts of a list of values, as a list joins them. */
  function Texts(ps: seq<Value>, host: Value -> string): (r: seq<string>)
    ensures |r| == |ps|
  {
    seq(|ps|, i requires 0 <= i < |ps| => Text(ps[i], host))
  }

  /** A node's text is its tag applied to the text of its `__string_params__`. */
  lemma NodeText(n: Pyson, host: Value -> string)
    ensures Text(Expr(n), host) == Tag(n) + "(" + Join(Texts(StringParams(n), host)) + ")"
  {
    ParamTextsAreTexts(n, host);
  }

  lemma ParamTextsAreTexts(n: Pyson, host: Value -> string)
    ensures ParamTexts(n, host) == Texts(StringParams(n), host)
  {
    if n.Date? {
      DateParamTexts(n, host);
    } else if n.DateTime? {
      DateTimeParamTexts(n, host);
    } else {
      ShortParamTexts(n, host);
    }
  }

  lemma ShortParamTexts(n: Pyson, host: Value -> string)
    requires !n.Date? && !n.DateTime?
    ensures ParamTexts(n, host) == Texts(StringParams(n), host)
  {
  }

  lemma DateParamTexts(n: Pyson, host: Value -> string)
    requires n.Date?
    ensures ParamTexts(n, host) == Texts(StringParams(n), host)
  {
  }

  lemma DateTimeParamTexts(n: Pyson, host: Value -> string)
    requires n.DateTime?
    ensures ParamTexts(n, host) == Texts(StringParams(n), host)
  {
    match n
    case DateTime(y, mo, d, h, mi, s, ms, dy, dmo, dd, dh, dmi, ds, dms, start) =>
      TextsAppend([y, mo, d, h, mi, s, ms], [dy, dmo, dd, dh, dmi, ds, dms, start], host);
      SevenTexts(y, mo, d, h, mi, s, ms, host);
      EightTexts(dy, dmo, dd, dh, dmi, ds, dms, start, host);
  }

  lemma TextsAppend(x: seq<Value>, z: seq<Value>, host: Value -> string)
    ensures Texts(x + z, host) == Texts(x, host) + Texts(z, host)
  {
    var l := Texts(x + z, host);
    var r := Texts(x, host) + Texts(z, host);
    forall i | 0 <= i < |l|
      ensures l[i] == r[i]
    {
      if i < |x| {
        assert (x + z)[i] == x[i];
      } else {
        assert (x + z)[i] == z[i - |x|];
      }
    }
  }

  lemma SevenTexts(v0: Value, v1: Value, v2: Value, v3: Value, v4: Value, v5: Value, v6: Value, host: Value -> string)
    ensures Texts([v0, v1, v2, v3, v4, v5, v6], host)
      == [Text(v0, host), Text(v1, host), Text(v2, host), Text(v3, host), Text(v4, host), Text(v5, host), Text(v6, host)]
  {
  }

  lemma EightTexts(v0: Value, v1: Value, v2: Value, v3: Value, v4: Value, v5: Value, v6: Value, v7: Value, host: Value -> string)
    ensures Texts([v0, v1, v2, v3, v4, v5, v6, v7], host)
      == [Text(v0, host), Text(v1, host), Text(v2, host), Text(v3, host), Text(v4, host), Text(v5, host), Text(v6, host), Text(v7, host)]
  {
  }

  /** `toString` and `pyson()` show the same fields: in the same order, except
      that And and Or list their statements rather than one array, and
      DateTime lists them in another order. */
  lemma StringParamsAreRecordFields(n: Pyson)
    ensures n.And? || n.Or? ==> StringParams(n) == n.statements && RecordValues(n) == [Arr(n.statements)]
    ensures !n.And? && !n.Or? && !n.DateTime? ==> StringParams(n) == RecordValues(n)
    ensures n.DateTime? ==> forall i :: 0 <= i < |DateTimeOrder| ==> StringParams(n)[i] == RecordValues(n)[DateTimeOrder[i]]
  {
    if n.DateTime? {
      DateTimeParamsPermuteRecord(n);
    } else if !n.And? && !n.Or? {
      SameOrderParams(n);
    }
  }

  lemma SameOrderParams(n: Pyson)
    requires !n.And? && !n.Or? && !n.DateTime?
    ensures StringParams(n) == RecordValues(n)
  {
    assert |StringParams(n)| == |RecordValues(n)|;
  }

  /** Where each of DateTime's parameters sits in its record. */
  const DateTimeOrder: seq<nat> := [0, 1, 2, 7, 8, 9, 10, 3, 4, 5, 11, 12, 13, 14, 6]

  /** DateTimeOrder lists every position of the record exactly once. */
  lemma DateTimeOrderIsPermutation()
    ensures |DateTimeOrder| == 15
    ensures forall i, j :: 0 <= i < j < 15 ==> DateTimeOrder[i] != DateTimeOrder[j]
    ensures forall k :: 0 <= k < 15 ==> k in DateTimeOrder
  {
  }

  lemma DateTimeParamsPermuteRecord(n: Pyson)
    requires n.DateTime?
    ensures |StringParams(n)| == |RecordValues(n)| == |DateTimeOrder|
    ensures forall i :: 0 <= i < |DateTimeOrder| ==> StringParams(n)[i] == RecordValues(n)[DateTimeOrder[i]]
  {
    var rs := RecordValues(n);
    assert rs == [n.y, n.mo, n.d, n.dy, n.dmo, n.dd, n.start, n.h, n.mi, n.s, n.ms, n.dh, n.dmi, n.ds, n.dms];
  }
}

=== FILE: types.dfy ===
/** Declared type tags: the `typeof` names a node says it may evaluate to,
    and the set comparisons the constructors make on them. */
module TypeTags {
  import opened Values

  /** Every tag `types()` can produce: the `typeof` names plus Len's 'integer'. */
  const AllTags: set<string> := {"undefined", "object", "boolean", "number", "string", "integer"}

  /** `jQuery(a).not(b)` is empty: every tag of a occurs in b. */
  predicate Within(a: seq<string>, b: seq<string>)
  {
    forall i :: 0 <= i < |a| ==> a[i] in b
  }

  /** Both differences are empty: a and b hold the same tags. */
  predicate SameTags(a: seq<string>, b: seq<string>)
  {
    Within(a, b) && Within(b, a)
  }

  predicate NoDuplicates(a: seq<string>)
  {
    forall i, j :: 0 <= i < j < |a| ==> a[i] != a[j]
  }

  /** If's merge: then's tags, followed by each tag of else not yet present. */
  function MergeTypes(acc: seq<string>, rest: seq<string>): seq<string>
    decreases |rest|
  {
    if rest == [] then acc
    else MergeTypes(if rest[0] in acc then acc else acc + [rest[0]], rest[1..])
  }

  /** The merge keeps then's tags in front, holds exactly the tags of both,
      and adds no duplicate. */
  lemma {:induction false} MergeTypesProperties(acc: seq<string>, rest: seq<string>)
    ensures |acc| <= |MergeTypes(acc, rest)| && MergeTypes(acc, rest)[..|acc|] == acc
    ensures forall x :: x in MergeTypes(acc, rest) <==> x in acc || x in rest
    ensures NoDuplicates(acc) ==> NoDuplicates(MergeTypes(acc, rest))
    decreases |rest|
  {
    if rest != [] {
      var next := if rest[0] in acc then acc else acc + [rest[0]];
      MergeTypesProperties(next, rest[1..]);
      assert forall x :: x in rest <==> x == rest[0] || x in rest[1..] by {
        forall x ensures x in rest <==> x == rest[0] || x in rest[1..] {
          if x in rest {
            var k :| 0 <= k < |rest| && rest[k] == x;
            if k > 0 { assert rest[1..][k - 1] == x; }
          }
        }
      }
      assert MergeTypes(acc, rest)[..|next|] == next;
      assert MergeTypes(acc, rest)[..|acc|] == next[..|acc|];
    }
  }

  /** `If.types`: start from then's tags and push each tag of else that is
      not yet in the list. */
  method IfTypes(thenTypes: seq<string>, elseTypes: seq<string>) returns (types: seq<string>)
    ensures types == MergeTypes(thenTypes, elseTypes)
    ensures |thenTypes| <= |types| && types[..|thenTypes|] == thenTypes
    ensures forall x :: x in types <==> x in thenTypes || x in elseTypes
  {
    types := thenTypes;
    for i := 0 to |elseTypes|
      invariant MergeTypes(types, elseTypes[i..]) == MergeTypes(thenTypes, elseTypes)
    {
      assert elseTypes[i..][1..] == elseTypes[i + 1..];
      if elseTypes[i] !in types {
        types := types + [elseTypes[i]];
      }
    }
    MergeTypesProperties(thenTypes, elseTypes);
  }

  /** `types()` of a node. */
  function Types(n: Pyson): (r: seq<string>)
    ensures |r| > 0
    ensures forall i :: 0 <= i < |r| ==> r[i] in AllTags
  {
    match n
    case Eval(_, d) => TypesOf(d)
    case Get(_, _, d) => TypesOf(d)
    case If(_, t, e) =>
      var tt, et := TypesOf(t), TypesOf(e);
      MergeTypesProperties(tt, et);
      var r := MergeTypes(tt, et);
      assert forall i :: 0 <= i < |r| ==> r[i] in tt || r[i] in et;
      r
    case Date(_, _, _, _, _, _, _) => ["object"]
    case DateTime(_, _, _, _, _, _, _, _, _, _, _, _, _, _, _) => ["object"]
    case TimeDelta(_, _, _) => ["object"]
    case Len(_) => ["integer"]
    case _ => ["boolean"]
  }

  /** The tags of an argument: a node's `types()`, else `[typeof v]`. */
  function TypesOf(v: Value): (r: seq<string>)
    ensures |r| > 0
    ensures forall i :: 0 <= i < |r| ==> r[i] in AllTags
  {
    if v.Expr? then Types(v.node) else [TypeOf(v)]
  }

  /** If's tags hold exactly the tags of its two branches. */
  lemma IfTypesUnion(c: Value, t: Value, e: Value)
    ensures forall x :: x in Types(If(c, t, e)) <==> x in TypesOf(t) || x in TypesOf(e)
  {
    MergeTypesProperties(TypesOf(t), TypesOf(e));
  }
}

=== FILE: values.dfy ===
/** The values the expression library works on: JavaScript values as they occur
    in contexts, in decoded JSON and as node fields, and the expression nodes
    themselves (a closed set of tagged variants). */
module Values {
  import opened Wrappers
  import opened Calendar

  /** A JavaScript value. Numbers are integers; an object keeps its keys in
      insertion order; `Moment`, `Duration` and `Decimal` are the opaque date,
      duration and decimal objects of the host libraries; `Expr` is a live
      expression node. */
  datatype Value =
    | Undefined
    | Null
    | Boolean(b: bool)
    | Number(n: int)
    | Str(s: string)
    | Arr(items: seq<Value>)
    | Obj(members: seq<(string, Value)>)
    | Moment(kind: MomentKind, fields: Fields)
    | Duration(millis: int)
    | Decimal(amount: int)
    | Expr(node: Pyson)

  /** An expression node: one variant per tag, each with the fields its
      constructor stores. */
  datatype Pyson =
    | Eval(path: Value, dflt: Value)
    | Not(operand: Value)
    | Bool(operand: Value)
    | And(statements: seq<Value>)
    | Or(statements: seq<Value>)
    | Equal(s1: Value, s2: Value)
    | Greater(s1: Value, s2: Value, e: Value)
    | Less(s1: Value, s2: Value, e: Value)
    | If(c: Value, t: Value, e: Value)
    | Get(obj: Value, key: Value, dflt: Value)
    | In(key: Value, obj: Value)
    | Date(y: Value, mo: Value, d: Value, dy: Value, dmo: Value, dd: Value, start: Value)
    | DateTime(y: Value, mo: Value, d: Value, h: Value, mi: Value, s: Value, ms: Value,
               dy: Value, dmo: Value, dd: Value, dh: Value, dmi: Value, ds: Value, dms: Value,
               start: Value)
    | TimeDelta(days: Value, seconds: Value, micros: Value)
    | Len(operand: Value)

  /** The tag a node carries on the wire (`__class__`). */
  function Tag(n: Pyson): string
  {
    match n
    case Eval(_, _) => "Eval"
    case Not(_) => "Not"
    case Bool(_) => "Bool"
    case And(_) => "And"
    case Or(_) => "Or"
    case Equal(_, _) => "Equal"
    case Greater(_, _, _) => "Greater"
    case Less(_, _, _) => "Less"
    case If(_, _, _) => "If"
    case Get(_, _, _) => "Get"
    case In(_, _) => "In"
    case Date(_, _, _, _, _, _, _) => "Date"
    case DateTime(_, _, _, _, _, _, _, _, _, _, _, _, _, _, _) => "DateTime"
    case TimeDelta(_, _, _) => "TimeDelta"
    case Len(_) => "Len"
  }

  /** The tags the decoder recognises as nodes. */
  const NodeTags: set<string> := {"Eval", "Not", "Bool", "And", "Or", "Equal", "Greater",
    "Less", "If", "Get", "In", "Date", "DateTime", "TimeDelta", "Len"}

  lemma TagIsNodeTag(n: Pyson)
    ensures Tag(n) in NodeTags
  {
  }

  /** `typeof v`; a node is an object too, but every caller tests for a node first. */
  function TypeOf(v: Value): (r: string)
    ensures r in {"undefined", "object", "boolean", "number", "string"}
    ensures r == "object" <==> v.Null? || IsObject(v)
  {
    match v
    case Undefined => "undefined"
    case Boolean(_) => "boolean"
    case Number(_) => "number"
    case Str(_) => "string"
    case _ => "object"
  }

  /** `v instanceof Object`: every non-primitive value. */
  predicate IsObject(v: Value)
  {
    v.Arr? || v.Obj? || v.Moment? || v.Duration? || v.Decimal? || v.Expr?
  }

  /** JavaScript truthiness (`!!v`): objects are always truthy, even when empty. */
  predicate Truthy(v: Value)
  {
    match v
    case Undefined => false
    case Null => false
    case Boolean(b) => b
    case Number(n) => n != 0
    case Str(s) => s != ""
    case _ => true
  }

  /** A JavaScript default parameter: an absent (undefined) argument takes the default. */
  function Default(v: Value, dflt: Value): (r: Value)
    ensures v.Undefined? ==> r == dflt
    ensures !v.Undefined? ==> r == v
  {
    if v.Undefined? then dflt else v
  }

  // ---- decimal digits ------------------------------------------------------

  predicate IsDigit(c: char) { '0' <= c <= '9' }

  predicate AllDigits(s: string)
  {
    forall i :: 0 <= i < |s| ==> IsDigit(s[i])
  }

  function DigitChar(d: nat): char
    requires d < 10
  {
    "0123456789"[d]
  }

  /** The decimal rendering of a natural number, without leading zeros. */
  function NatToString(n: nat): (r: string)
    ensures |r| > 0 && AllDigits(r)
    decreases n
  {
    if n < 10 then [DigitChar(n)] else NatToString(n / 10) + [DigitChar(n % 10)]
  }

  /** `String(n)` for an integer. */
  function IntToString(n: int): (r: string)
    ensures |r| > 0
    ensures n < 0 <==> r[0] == '-'
  {
    if n < 0 then "-" + NatToString(-n) else NatToString(n)
  }

  /** The number a string of decimal digits stands for. */
  function DigitsValue(s: string): nat
    requires AllDigits(s)
  {
    if s == [] then 0 else 10 * DigitsValue(s[..|s| - 1]) + (s[|s| - 1] as int - '0' as int)
  }

  lemma {:induction false} NatToStringDigits(n: nat)
    ensures DigitsValue(NatToString(n)) == n
    ensures NatToString(n)[0] == '0' ==> n == 0
    decreases n
  {
    if n >= 10 {
      NatToStringDigits(n / 10);
      var s := NatToString(n);
      assert s[..|s| - 1] == NatToString(n / 10);
    }
  }

  /** `Number(s)` for the strings the model reads: optional minus sign and
      decimal digits; the empty string is 0; anything else is NaN (None). */
  function ParseNumber(s: string): Option<int>
  {
    if s == [] then Some(0)
    else if s[0] == '-' then
      (if |s| > 1 && AllDigits(s[1..]) then var m: int := DigitsValue(s[1..]); Some(-m) else None)
    else if AllDigits(s) then Some(DigitsValue(s))
    else None
  }

  /** Parsing inverts rendering: `Number(String(n)) == n`. */
  lemma IntToStringRoundTrip(n: int)
    ensures ParseNumber(IntToString(n)) == Some(n)
  {
    var s := IntToString(n);
    if n < 0 {
      NatToStringDigits(-n);
      assert s[1..] == NatToString(-n);
      assert |s| > 1 && AllDigits(s[1..]);
      var m: int := DigitsValue(s[1..]);
      assert ParseNumber(s) == Some(-m);
    } else {
      NatToStringDigits(n);
      assert s == NatToString(n);
      assert s[0] != '-' by { assert IsDigit(s[0]); }
      assert ParseNumber(s) == Some(DigitsValue(s));
    }
  }

  /** A canonical array index key ("0", "1", ..., no leading zeros). */
  function ParseIndex(s: string): Option<nat>
  {
    if s != [] && AllDigits(s) && (|s| == 1 || s[0] != '0') then Some(DigitsValue(s)) else None
  }

  lemma IndexKeyRoundTrip(i: nat)
    ensures ParseIndex(NatToString(i)) == Some(i)
  {
    NatToStringDigits(i);
  }

  // ---- properties ---------------------------------------------------------

  /** The property key a value is converted to when it indexes an object: an
      array its items joined with ","; the text of a host object is not
      modelled and reads as "[object Object]". */
  function PropertyKey(v: Value): string
  {
    match v
    case Str(s) => s
    case Number(n) => IntToString(n)
    case Boolean(b) => if b then "true" else "false"
    case Null => "null"
    case Undefined => "undefined"
    case Arr(items) => if JoinText(items).Some? then JoinText(items).value else "[object Object]"
    case _ => "[object Object]"
  }

  /** The value stored under a key of an object; undefined when absent. */
  function Lookup(members: seq<(string, Value)>, key: string): (r: Value)
    ensures (forall i :: 0 <= i < |members| ==> members[i].0 != key) ==> r == Undefined
    ensures r != Undefined ==> exists i :: 0 <= i < |members| && members[i] == (key, r)
  {
    if members == [] then Undefined
    else if members[0].0 == key then members[0].1
    else Lookup(members[1..], key)
  }

  /** No two members share a key. */
  predicate DistinctKeys(ms: seq<(string, Value)>)
  {
    forall j, k :: 0 <= j < k < |ms| ==> ms[j].0 != ms[k].0
  }

  /** With distinct keys, a lookup finds each member's own value. */
  lemma {:induction false} LookupDistinct(ms: seq<(string, Value)>, i: nat)
    requires i < |ms| && DistinctKeys(ms)
    ensures Lookup(ms, ms[i].0) == ms[i].1
  {
    if i > 0 {
      LookupDistinct(ms[1..], i - 1);
    }
  }

  function Keys(members: seq<(string, Value)>): (r: set<string>)
    ensures forall i :: 0 <= i < |members| ==> members[i].0 in r
    ensures forall k :: k in r ==> exists i :: 0 <= i < |members| && members[i].0 == k
  {
    set i | 0 <= i < |members| :: members[i].0
  }

  /** `key in v` for an object v: its own keys (arrays: indices and "length"). */
  predicate HasProperty(v: Value, key: string)
    requires IsObject(v)
  {
    match v
    case Obj(ms) => key in Keys(ms)
    case Arr(items) =>
      key == "length" || (ParseIndex(key).Some? && ParseIndex(key).value < |items|)
    case _ => false
  }

  /** `v[key]`: an own property of an object, an index or the length of an
      array or string; undefined otherwise. */
  function GetProperty(v: Value, key: string): Value
  {
    match v
    case Obj(ms) => Lookup(ms, key)
    case Arr(items) =>
      if key == "length" then Number(|items|)
      else if ParseIndex(key).Some? && ParseIndex(key).value < |items| then items[ParseIndex(key).value]
      else Undefined
    case Str(s) =>
      if key == "length" then Number(Utf16Length(s))
      else if ParseIndex(key).Some? && ParseIndex(key).value < |s| then Str([s[ParseIndex(key).value]])
      else Undefined
    case _ => Undefined
  }

  /** A string's `length`: JavaScript counts UTF-16 code units, so a
      character outside the Basic Multilingual Plane counts twice. */
  function Utf16Length(s: string): (r: nat)
    ensures |s| <= r <= 2 * |s|
    ensures (forall i :: 0 <= i < |s| ==> s[i] as int < 0x1_0000) <==> r == |s|
  {
    if s == [] then 0
    else (if s[0] as int < 0x1_0000 then 1 else 2) + Utf16Length(s[1..])
  }

  // ---- jQuery.extend --------------------------------------------------------

  /** `jQuery.extend([], a)`: an undefined entry is not copied, so the copy ends
      at the last defined entry; an undefined entry before that leaves a hole,
      which reads as undefined. */
  function ExtendArray(a: seq<Value>): (r: seq<Value>)
    ensures |r| <= |a| && r == a[..|r|]
    ensures r == [] || r[|r| - 1] != Undefined
    ensures forall i :: |r| <= i < |a| ==> a[i] == Undefined
  {
    if a == [] || a[|a| - 1] != Undefined then a else ExtendArray(a[..|a| - 1])
  }

  /** `jQuery.extend({}, o)`: the members whose value is not undefined, in order. */
  function ExtendObject(ms: seq<(string, Value)>): (r: seq<(string, Value)>)
    ensures |r| <= |ms|
    ensures forall i :: 0 <= i < |r| ==> r[i] in ms && r[i].1 != Undefined
    ensures forall i :: 0 <= i < |ms| && ms[i].1 != Undefined ==> ms[i] in r
    ensures (forall i :: 0 <= i < |ms| ==> ms[i].1 != Undefined) ==> r == ms
  {
    if ms == [] then []
    else
      var init := ExtendObject(ms[..|ms| - 1]);
      assert forall i :: 0 <= i < |ms| - 1 ==> ms[..|ms| - 1][i] == ms[i];
      if ms[|ms| - 1].1 == Undefined then init else init + [ms[|ms| - 1]]
  }

  /** Where each member `jQuery.extend({}, o)` keeps stands in `o`. */
  function KeptIndices(ms: seq<(string, Value)>): (r: seq<nat>)
    ensures |r| == |ExtendObject(ms)|
    ensures forall i :: 0 <= i < |r| ==> r[i] < |ms| && ms[r[i]] == ExtendObject(ms)[i]
  {
    if ms == [] then []
    else
      var init := KeptIndices(ms[..|ms| - 1]);
      if ms[|ms| - 1].1 == Undefined then init else init + [|ms| - 1]
  }

  /** Members that are all defined are copied as they are. */
  lemma KeepsAll(a: seq<(string, Value)>)
    requires forall j :: 0 <= j < |a| ==> a[j].1 != Undefined
    ensures ExtendObject(a) == a
  {
  }

  /** Copying two runs of members one after the other copies each run. */
  lemma {:induction false} ExtendObjectAppend(a: seq<(string, Value)>, b: seq<(string, Value)>)
    ensures ExtendObject(a + b) == ExtendObject(a) + ExtendObject(b)
    decreases |b|
  {
    if b == [] {
      assert a + b == a;
    } else {
      var b' := b[..|b| - 1];
      ExtendObjectAppend(a, b');
      assert (a + b)[..|a + b| - 1] == a + b';
      assert (a + b)[|a + b| - 1] == b[|b| - 1];
    }
  }

  /** `jQuery.extend([], a)` as it runs: each defined entry is stored at its
      index, which lengthens the copy over any holes before it. */
  method CopyArray(a: seq<Value>) returns (copy: array<Value>)
    ensures fresh(copy) && copy[..] == ExtendArray(a)
  {
    var target: seq<Value> := [];
    for i := 0 to |a|
      invariant target == ExtendArray(a[..i])
    {
      assert a[..i + 1][..i] == a[..i];
      if a[i] != Undefined {
        var holes := seq(i - |target|, _ => Undefined);
        assert target + holes + [a[i]] == a[..i + 1];
        target := target + holes + [a[i]];
      }
    }
    assert a[..|a|] == a;
    copy := new Value[|target|](k requires 0 <= k < |target| => target[k]);
  }

  /** `jQuery.extend({}, o)` as it runs, one member at a time. */
  method CopyMembers(ms: seq<(string, Value)>) returns (copy: array<(string, Value)>)
    ensures fresh(copy) && copy[..] == ExtendObject(ms)
  {
    var target: seq<(string, Value)> := [];
    for i := 0 to |ms|
      invariant target == ExtendObject(ms[..i])
    {
      assert ms[..i + 1][..i] == ms[..i];
      if ms[i].1 != Undefined {
        target := target + [ms[i]];
      }
    }
    assert ms[..|ms|] == ms;
    copy := new (string, Value)[|target|](k requires 0 <= k < |target| => target[k]);
  }

  // ---- coercions and equality ---------------------------------------------

  /** `String(x)` for an array item inside `join(",")`: null and undefined give
      the empty string, a plain object "[object Object]", a decimal its digits.
      None for a moment, a duration or a node, whose text the model does not
      have. */
  function ItemText(v: Value): Option<string>
    decreases v
  {
    match v
    case Undefined => Some("")
    case Null => Some("")
    case Boolean(b) => Some(if b then "true" else "false")
    case Number(n) => Some(IntToString(n))
    case Str(s) => Some(s)
    case Arr(items) => JoinText(items)
    case Obj(_) => Some("[object Object]")
    case Decimal(a) => Some(IntToString(a))
    case _ => None
  }

  /** `items.join(",")`, which is also an array's `toString()`. */
  function JoinText(items: seq<Value>): Option<string>
    decreases items
  {
    if items == [] then Some("")
    else if |items| == 1 then ItemText(items[0])
    else
      match (ItemText(items[0]), JoinText(items[1..]))
      case (Some(h), Some(t)) => Some(h + "," + t)
      case _ => None
  }

  /** ToPrimitive, as `==` and `Number()` apply it to an object: an array
      gives its joined text, a plain object "[object Object]", a moment, a
      duration or a decimal the number its `valueOf()` returns; a primitive
      is kept. None where the text is not modelled (see ItemText). */
  function ToPrimitive(v: Value): (r: Option<Value>)
    ensures r.Some? && IsObject(v) ==> r.value.Str? || r.value.Number?
    ensures IsPrimitive(v) ==> r == Some(v)
  {
    match v
    case Arr(items) => if JoinText(items).Some? then Some(Str(JoinText(items).value)) else None
    case Obj(_) => Some(Str("[object Object]"))
    case Moment(_, f) => Some(Number(Instant(f)))
    case Duration(ms) => Some(Number(ms))
    case Decimal(a) => Some(Number(a))
    case Expr(_) => None
    case _ => Some(v)
  }

  /** `Number(p)` for a primitive; None is NaN. */
  function PrimitiveNumber(p: Value): Option<int>
  {
    match p
    case Number(n) => Some(n)
    case Boolean(b) => Some(if b then 1 else 0)
    case Null => Some(0)
    case Str(s) => ParseNumber(s)
    case _ => None
  }

  /** `Number(v)`: an object is first reduced to a primitive; None is NaN. */
  function ToNumber(v: Value): Option<int>
  {
    if IsPrimitive(v) then PrimitiveNumber(v)
    else if ToPrimitive(v).Some? then PrimitiveNumber(ToPrimitive(v).value)
    else None
  }

  /** A primitive value (not an object). */
  predicate IsPrimitive(v: Value)
  {
    !IsObject(v)
  }

  /** `a === b`. Distinct objects are never identical; the model has no
      reference identity, so two object values are never strictly equal. */
  predicate StrictEquals(a: Value, b: Value)
  {
    IsPrimitive(a) && IsPrimitive(b) && a == b
  }

  /** `a == b` (loose equality): null and undefined equal only each other; two
      objects are equal only when they are the same object, and model values
      have no identity, so they never are here; otherwise both sides are reduced
      to primitives, which compare as strings when both are strings and as
      numbers otherwise. */
  predicate LooseEquals(a: Value, b: Value)
  {
    if (a.Undefined? || a.Null?) || (b.Undefined? || b.Null?) then
      (a.Undefined? || a.Null?) && (b.Undefined? || b.Null?)
    else if IsObject(a) && IsObject(b) then false
    else
      var x := ToPrimitive(a); var y := ToPrimitive(b);
      x.Some? && y.Some? &&
      if x.value.Str? && y.value.Str? then x.value == y.value
      else
        var m := PrimitiveNumber(x.value); var n := PrimitiveNumber(y.value);
        m.Some? && n.Some? && m.value == n.value
  }

  lemma LooseEqualsSymmetric(a: Value, b: Value)
    ensures LooseEquals(a, b) == LooseEquals(b, a)
  {
  }
}

=== FILE: wrappers.dfy ===
/** Failure-compatible result type: a value, or the string a constructor or
    evaluator of the expression library throws. */
module Wrappers {

  datatype Result<+T> = Ok(value: T) | Err(error: string) {
    predicate IsFailure() { Err? }

    function PropagateFailure<U>(): Result<U>
      requires Err?
    {
      Err(error)
    }

    function Extract(): T
      requires Ok?
    {
      value
    }
  }

  datatype Option<+T> = None | Some(value: T)
}
